=== FILE: README.md ===
# service-flow, modelled in Dafny

This project models the core of service-flow, a workflow engine. A workflow is a graph of START, FUNCTION, CONDITION and END nodes. The Java back end loads it, checks it and runs it node by node, calling registered tools at FUNCTION nodes and choosing a branch at CONDITION nodes. Two browser editors build and debug these graphs.

Every operation is a pure function over immutable datatypes, or a method where the source iterates in an unspecified order. Java's `null` becomes `Option`. A call that "returns or throws" becomes a `Result` whose error names the exception.

| module | file | what it stands for |
|---|---|---|
| `Wrappers`, `Strings` | wrappers.dfy, strings.dfy | `Option`/`Result`, and the Java and JavaScript string functions the code relies on: case mapping, `trim`, `parseInt`, `Double.parseDouble`, `split("\\s+")` |
| `JsonValues`, `Schema` | schema.dfy | JSON documents; `FieldDef`, `FieldType` and the runtime `VariableDefinition` |
| `Exceptions`, `Tools`, `TextProcess` | tools.dfy | `ToolException`/`ValidationException`, `ToolResponse`, `ToolRegistry`, `ToolHandler.validateParams`, the `text_process` tool |
| `WorkflowModel` | model.dfy | `WorkflowNode`, `ConditionCase`, `Workflow`, `NodeResult` |
| `ConditionEval` | conditions.dfy | the evaluator on the model classes: `Condition.evaluate`, `ConditionCase.evaluate`, `WorkflowNode.evaluateConditions` |
| `Context` | context.dfy | `WorkflowContext`, the state of one run |
| `Engine` | engine.dfy | `WorkflowManager`: the run loop, node dispatch, tool calls, condition nodes, the table of active runs |
| `Checker` | checker.dfy | `WorkflowChecker`: the depth-first validation of a workflow |
| `Loader` | loader.dfy | `WorkflowLoader`: scrubbing type tags, the `FieldDef` deserializer, the file table |
| `EditorState`, `EditorHistory` | editor_state.dfy, editor_history.dfy | the static editor's state (`workflow-state.js`) and version history (`workflow-history.js`) |
| `AppTypes`, `WorkflowStore`, `DebugStore` | app_types.dfy, store.dfy, debug_store.dfy | the Vue editor's records and API conversion, its workflow store with undo/redo, and its debug store |
| `PortLayout`, `NodeColors` | layout.dfy | `PositionManager.ts` port geometry and `nodeColors.ts` labels |
| `Canvas` | canvas.dfy | `utils/canvas.ts`: cycle detection before a connection is drawn, and the rectangle hit test |
| `AvailableContext` | available_context.dfy | `useAvailableContext.ts`: the variables a node may refer to |

The Vue app and the web app each hold a copy of `utils/canvas.ts`. The files differ, but the two functions modelled here, `wouldCreateCycle` and `isPointInRect`, are identical in both, so module `Canvas` models both copies. Its rows cite whichever copy's lines they model.

Where the source iterates a Java `HashMap` (the checker's walk, the required-parameter loop, tool inputs and outputs), the model does not fix an order. A method picks the next entry with `:|`, and its contract states what holds for every order: which nodes are visited, that none is visited twice, and which errors are reported.

The engine's run loop carries a fuel bound. `OutOfFuel` stands for a run longer than the bound; every property is stated for the runs that finish within it.

## Model

| member | source | states |
|---|---|---|
| WorkflowModel.NodeTypeValueOf | src/main/java/cn/yafex/workflow/model/NodeType.java:6-11 | `NodeType.valueOf` accepts only the four exact names, and an accepted name is the name of the type returned |
| WorkflowModel.NewConditionCase | src/main/java/cn/yafex/workflow/model/ConditionCase.java:21-28 | a new case has no conditions, the given combinator and no hint |
| WorkflowModel.SetCaseConditions | src/main/java/cn/yafex/workflow/model/ConditionCase.java:35-37 | a null list becomes the empty list, any other list is kept as given, and the combinator and hint do not change |
| WorkflowModel.AddCondition | src/main/java/cn/yafex/workflow/model/ConditionCase.java:59-63 | a null condition leaves the case unchanged; any other is appended at the end |
| WorkflowModel.NewNode | src/main/java/cn/yafex/workflow/model/WorkflowNode.java:25-30 | a new node has empty successor, condition and input maps, position (0, 0), and every other field null |
| WorkflowModel.SetNodeType | src/main/java/cn/yafex/workflow/model/WorkflowNode.java:62-68 | a null name throws a null-pointer error; otherwise only the type changes, to the upper-cased name's type or to FUNCTION when there is no such type |
| WorkflowModel.SetNodeTypeIgnoresCase | src/main/java/cn/yafex/workflow/model/WorkflowNode.java:62-68 | two names that are equal ignoring case set the same type |
| WorkflowModel.SetNodeTypeByName | src/main/java/cn/yafex/workflow/model/WorkflowNode.java:62-68 | a type's own name, in any case, sets that type, and a name of no type sets FUNCTION |
| WorkflowModel.SetNodeConditions | src/main/java/cn/yafex/workflow/model/WorkflowNode.java:136-138 | a null list becomes the empty list, and no other field changes |
| WorkflowModel.SetInputMap | src/main/java/cn/yafex/workflow/model/WorkflowNode.java:152-154 | a null map becomes the empty map, and no other field changes |
| WorkflowModel.GetInputMapping | src/main/java/cn/yafex/workflow/model/WorkflowNode.java:172-174 | the mapping stored under the parameter, null when the parameter has none |
| WorkflowModel.AddInputMapping | src/main/java/cn/yafex/workflow/model/WorkflowNode.java:161-165 | a null name or definition changes nothing; otherwise the name's entry is overwritten and nothing else changes |
| WorkflowModel.TwoInputMappings | src/main/java/cn/yafex/workflow/model/WorkflowNode.java:161-174 | after two mappings under distinct names a new node holds exactly those two, each retrievable |
| WorkflowModel.AddConditionCase | src/main/java/cn/yafex/workflow/model/WorkflowNode.java:180-184 | a null case changes nothing; any other is appended at the end |
| WorkflowModel.NewWorkflow | src/main/java/cn/yafex/workflow/model/Workflow.java:32-38 | a new workflow has empty input, output and tool maps, no nodes, and is active |
| WorkflowModel.FindNode | src/main/java/cn/yafex/workflow/model/Workflow.java:126-131 | the node found is in the list and has the id; none is found exactly when no node has the id |
| WorkflowModel.GetNodeById | src/main/java/cn/yafex/workflow/model/Workflow.java:126-131 | the first node with the id, or null; a null-pointer error only when some node lacks an id |
| WorkflowModel.GetNodeByIdFindsFirst | src/main/java/cn/yafex/workflow/model/Workflow.java:126-131 | when every node has an id the lookup never throws and returns the first node with the id, with no earlier node having it |
| WorkflowModel.GetNodeByNullId | src/main/java/cn/yafex/workflow/model/Workflow.java:126-131 | a null id matches no node |
| WorkflowModel.AddTool | src/main/java/cn/yafex/workflow/model/Workflow.java:138-146 | a null tool changes nothing; a name already present throws with the "already in the workflow" message; otherwise the tool is stored under its name |
| WorkflowModel.SetTool | src/main/java/cn/yafex/workflow/model/Workflow.java:152-156 | a null tool changes nothing; otherwise the tool is stored under its name, other tools are kept, and no other field changes |
| WorkflowModel.HasTool | src/main/java/cn/yafex/workflow/model/Workflow.java:172-174 | a workflow has a tool exactly when looking its name up in the tool map finds a definition (`containsKey` agrees with `get`, as the map holds no null values); `WorkflowModel.GetToolDefinition` and `WorkflowModel.ToolNames` are stated in terms of it |
| WorkflowModel.GetToolDefinition | src/main/java/cn/yafex/workflow/model/Workflow.java:163-174 | a definition is returned exactly when `hasTool` holds, and it is the one stored under the name |
| WorkflowModel.ToolNames | src/main/java/cn/yafex/workflow/model/Workflow.java:180-182 | a name is listed exactly when `hasTool` holds for it |
| WorkflowModel.AddToolThenLookup | src/main/java/cn/yafex/workflow/model/Workflow.java:138-182 | adding a new tool succeeds and makes it retrievable and listed, and adding it a second time throws |
| WorkflowModel.FunctionResult | src/main/java/cn/yafex/workflow/model/NodeResult.java:27-30 | a function result carries the given outputs and no error or matched case |
| WorkflowModel.ConditionResult | src/main/java/cn/yafex/workflow/model/NodeResult.java:33-41 | a condition result has no error, and its outputs are exactly `matchedCase` and `evaluated`, holding the case and the flag |
| WorkflowModel.ErrorResult | src/main/java/cn/yafex/workflow/model/NodeResult.java:44-54 | an error result has no outputs, carries the code, message and details, and `hasError` holds exactly when the code is non-null |
| WorkflowModel.PlainResult | src/main/java/cn/yafex/workflow/model/NodeResult.java:57-59 | a start or end result has no outputs, no error and no matched case |
| Schema.FieldTypeValueOf | src/main/java/cn/yafex/tools/schema/FieldType.java:6-13 | `FieldType.valueOf` accepts only exact names, and an accepted name is the name of the type returned |
| Schema.FieldTypeNameRoundTrip | src/main/java/cn/yafex/tools/schema/FieldType.java:6-13 | looking up a type's own name gives that type back |
| Schema.NewVariable | src/main/java/cn/yafex/tools/schema/VariableDefinition.java:28-30 | every field of a new variable is null |
| Schema.TypedVariable | src/main/java/cn/yafex/tools/schema/VariableDefinition.java:32-36 | name, type and description as given; value, default and parent null |
| Schema.ValuedVariable | src/main/java/cn/yafex/tools/schema/VariableDefinition.java:38-41 | name and value as given; every other field null |
| Schema.NewFieldDef | src/main/java/cn/yafex/tools/schema/FieldDef.java:37-41 | empty property and constraint maps, not required, no item definition, every other field null |
| Schema.FieldDefOf | src/main/java/cn/yafex/tools/schema/FieldDef.java:43-58 | the five given fields, empty maps and no item definition |
| Schema.FieldDefOfIgnoresPattern | src/main/java/cn/yafex/tools/schema/FieldDef.java:43-58 | the `pattern` argument has no effect on the field built |
| Schema.CopyFieldDefIsIdentity | src/main/java/cn/yafex/tools/schema/FieldDef.java:61-80 | the copy constructor's result equals its source at every depth of properties and item definitions |
| Schema.SetConstraints | src/main/java/cn/yafex/tools/schema/FieldDef.java:99-101 | a null map becomes the empty map, and no other field changes |
| Schema.SetProperties | src/main/java/cn/yafex/tools/schema/FieldDef.java:109-111 | a null map becomes the empty map, and no other field changes |
| Schema.FromFieldDefinition | src/main/java/cn/yafex/tools/schema/VariableDefinition.java:98-106 | name, description and default copied, type set to the type's name, parent as given, value null; a field without a type throws |
| Schema.FromFieldDefinitionKeepsType | src/main/java/cn/yafex/tools/schema/VariableDefinition.java:98-106 | the variable's type string looked up again gives the field's type |
| Exceptions.NewToolException | src/main/java/cn/yafex/tools/exceptions/ToolException.java:13-17 | message and code as given, no details |
| Exceptions.NewToolExceptionWithDetails | src/main/java/cn/yafex/tools/exceptions/ToolException.java:19-23 | message and code as given; null details become the empty map |
| Exceptions.AddDetail | src/main/java/cn/yafex/tools/exceptions/ToolException.java:33-35 | the key now holds the value, every other detail is kept, and message and code do not change |
| Exceptions.NewValidationException | src/main/java/cn/yafex/tools/exceptions/ValidationException.java:12-15 | a validation exception with code VALIDATION_ERROR, the message, and no errors listed |
| Exceptions.NewValidationExceptionWithErrors | src/main/java/cn/yafex/tools/exceptions/ValidationException.java:17-20 | code VALIDATION_ERROR and the message; null errors become the empty list |
| Exceptions.AddValidationError | src/main/java/cn/yafex/tools/exceptions/ValidationException.java:26-28 | the error is appended after the existing ones, which are kept in order |
| Tools.NewResponse | src/main/java/cn/yafex/tools/core/ToolResponse.java:17-19 | the four fields as given, with empty metadata |
| Tools.NewResponseWithMetadata | src/main/java/cn/yafex/tools/core/ToolResponse.java:21-27 | the four fields as given; null metadata becomes the empty map |
| Tools.Success | src/main/java/cn/yafex/tools/core/ToolResponse.java:30-32 | a success carrying the data, the message "Operation successful", no code and no metadata |
| Tools.SuccessWith | src/main/java/cn/yafex/tools/core/ToolResponse.java:34-36 | a success carrying the data and the given message, with no code |
| Tools.Failure | src/main/java/cn/yafex/tools/core/ToolResponse.java:38-40 | a failure with no data, carrying the message and code |
| Tools.AddMetadata | src/main/java/cn/yafex/tools/core/ToolResponse.java:58-60 | the key now holds the value, every other entry is kept, and no other field changes |
| Tools.DocumentedShape | src/main/java/cn/yafex/tools/core/ToolHandler.java:100-108 | the documented data shape: a map as it is, a collection under "items", anything else under "value" |
| Tools.Register | src/main/java/cn/yafex/tools/core/ToolRegistry.java:19-24 | a name already registered is refused with an illegal-argument error; otherwise the handler is added and every other entry is kept |
| Tools.GetHandler | src/main/java/cn/yafex/tools/core/ToolRegistry.java:31-33 | the handler under the name, null exactly when the name is not registered |
| Tools.Unregister | src/main/java/cn/yafex/tools/core/ToolRegistry.java:48-50 | returns the handler the name had, if any, and removes only that name |
| Tools.IsRegistered | src/main/java/cn/yafex/tools/core/ToolRegistry.java:57-59 | a name is registered exactly when `getHandler` finds a handler under it |
| Tools.AllHandlers | src/main/java/cn/yafex/tools/core/ToolRegistry.java:39-41 | exactly the handlers registered under some name |
| Tools.RegisterUnregisterRoundTrip | src/main/java/cn/yafex/tools/core/ToolRegistry.java:19-59 | registering a fresh name makes it retrievable, and unregistering it returns the handler and restores the registry |
| Tools.ValidateParams | src/main/java/cn/yafex/tools/core/ToolHandler.java:115-130 | passes exactly when every required input is a key of the parameters; otherwise the error names one missing required input; null inputs throw a null-pointer error |
| TextProcess.Execute | src/main/java/cn/yafex/tools/handlers/text/TextProcessTool.java:24-52 | a failed response is always the "Input text cannot be empty" / INVALID_INPUT one, and a success always carries a map |
| TextProcess.Definition | src/main/java/cn/yafex/tools/handlers/text/TextProcessTool.java:13-26 | the definition the annotations declare, one field per annotation: the tool is named "text_process"; its inputs are a required STRING "text" with `@InputVar`'s default "" and an optional NUMBER "truncate" with default "100"; its outputs are exactly length, words, uppercase, lowercase and trimmed, the first two NUMBER and the rest STRING, each with `@ReturnVal`'s default requiredness and default value |
| TextProcess.GetDefinition | src/main/java/cn/yafex/tools/core/ToolHandler.java:32-92 | what `getDefinition` builds for the tool: the name and the five outputs, and no inputs at all, because the repeated `@InputVar` sits in its container where `getAnnotation` does not look |
| TextProcess.GetDefinitionLosesInputs | src/main/java/cn/yafex/tools/core/ToolHandler.java:51-83 | the definition built equals the declared one except that its inputs are empty where the declared one has "text" and "truncate" |
| TextProcess.MissingTextValidation | src/main/java/cn/yafex/tools/core/ToolHandler.java:115-127 | a call without "text" passes `validateParams` against the definition built, and is refused with the missing-parameter message for "text" against the declared one |
| TextProcess.ExecuteSucceedsIff | src/main/java/cn/yafex/tools/handlers/text/TextProcessTool.java:29-40 | the tool succeeds exactly when the text is a non-empty string and the truncate is absent, or a number within the text's length |
| TextProcess.SuccessSuppliesRequired | src/main/java/cn/yafex/tools/handlers/text/TextProcessTool.java:25-36 | a successful call was given every input the definition declares required |
| TextProcess.ProcessedText | src/main/java/cn/yafex/tools/handlers/text/TextProcessTool.java:29-40 | the text the outputs describe is a prefix of the input text: exactly the truncate's length when one is given, the whole text otherwise |
| TextProcess.ExecuteResultMatchesDefinition | src/main/java/cn/yafex/tools/handlers/text/TextProcessTool.java:19-47 | on success the result has exactly the declared outputs: "length" is the processed text's length, "words" its count of `split("\\s+")` pieces, "uppercase" and "lowercase" its case mappings, and "trimmed" the text with the characters up to U+0020 cut from both ends |
| TextProcess.WordCountExamples | src/main/java/cn/yafex/tools/handlers/text/TextProcessTool.java:44 | the word count keeps a leading empty piece and drops trailing ones: "a  b" gives 2, " a b " gives 3, "  " gives 0 |
| Strings.JavaTrim | src/main/java/cn/yafex/tools/handlers/text/TextProcessTool.java:47 | `trim` gives the slice of the text that has only characters up to U+0020 before and after it, and neither starts nor ends with one |
| TextProcess.NonStringTextThrows | src/main/java/cn/yafex/tools/handlers/text/TextProcessTool.java:29-32 | a number as the text fails the cast before the emptiness check |
| Context.NewContext | src/main/java/cn/yafex/workflow/execution/WorkflowContext.java:23-29 | a new context is running, with the given ids, no variables, no current node and no workflow attached |
| Context.ContextFor | src/main/java/cn/yafex/workflow/execution/WorkflowContext.java:31-34 | as above, with the workflow and its id attached |
| Context.SetVariable | src/main/java/cn/yafex/workflow/execution/WorkflowContext.java:105-107 | the key now holds the variable, every other entry is kept, and no other field changes |
| Context.GetVariable | src/main/java/cn/yafex/workflow/execution/WorkflowContext.java:115-117 | the variable stored under the key, null exactly when there is none |
| Context.SetThenGetVariable | src/main/java/cn/yafex/workflow/execution/WorkflowContext.java:105-117 | a set key reads back the value set, and every other key reads as before |
| Context.GetVariableInScope | src/main/java/cn/yafex/workflow/execution/WorkflowContext.java:126-133 | a variable found is stored and has the name and parent; null means no stored variable has both; a null-pointer error means some stored variable has a null name, or the name and a null parent, and without such a variable the lookup never throws |
| ConditionEval.Convert | src/main/java/cn/yafex/workflow/model/Condition.java:86-111 | "string" gives the text, "number" widens a number or parses a string (an unparsable string is kept), "boolean" parses a string; a null type, any other type, or a value the case does not convert is returned unchanged |
| ConditionEval.ConvertIdempotent | src/main/java/cn/yafex/workflow/model/Condition.java:86-111 | converting a converted value to the same type changes nothing |
| ConditionEval.LexCompare | src/main/java/cn/yafex/workflow/model/Condition.java:122-141 | the sign of `String.compareTo`: the strings' UTF-16 code units compared in order, -1, 0 or 1, and 0 exactly for equal strings |
| ConditionEval.LexCompareAntisymmetric | src/main/java/cn/yafex/workflow/model/Condition.java:122-141 | exchanging two strings negates their comparison |
| ConditionEval.SupplementarySortsBySurrogate | src/main/java/cn/yafex/workflow/model/Condition.java:122-141 | strings compare by code unit, not by code point: U+FFFF sorts after U+1F600 |
| ConditionEval.CompareTo | src/main/java/cn/yafex/workflow/model/Condition.java:122-141 | two comparables of different classes throw a class-cast error; otherwise the sign is -1, 0 or 1, and 0 exactly for equal values |
| ConditionEval.CompareToAntisymmetric | src/main/java/cn/yafex/workflow/model/Condition.java:122-141 | exchanging the operands keeps whether the comparison throws and negates its sign |
| ConditionEval.CompareValues | src/main/java/cn/yafex/workflow/model/Condition.java:114-144 | a null side is false; "==" and "!=" are equality and its negation; an ordering of non-comparables and an unknown operator are false; a null operator throws; a class-cast error only for comparables of different classes |
| ConditionEval.CompareValuesSwap | src/main/java/cn/yafex/workflow/model/Condition.java:122-141 | ">" is "<" with the operands swapped, ">=" is "<=" swapped, and "<=" is the negation of ">" between comparables |
| ConditionEval.Evaluate | src/main/java/cn/yafex/workflow/model/Condition.java:71-84 | a missing left operand, type or right operand throws a null-pointer error, and a null value on either side is false |
| ConditionEval.EvaluateIgnoresKind | src/main/java/cn/yafex/workflow/model/Condition.java:73 | the condition's type, once present, does not change the outcome: both branches read the right operand's value |
| ConditionEval.NumberTypedEquality | src/main/java/cn/yafex/workflow/model/Condition.java:80-119 | two number-typed operands are equal exactly when their numeric values are, whatever mix of integers and doubles they hold |
| ConditionEval.CaseEvaluate | src/main/java/cn/yafex/workflow/model/ConditionCase.java:69-95 | an empty case is true, and a non-empty case with a null type throws |
| ConditionEval.RunAnd | src/main/java/cn/yafex/workflow/model/ConditionCase.java:74-84 | the "and" loop is true exactly when every condition is true, and false exactly when a false one comes first, before anything throws |
| ConditionEval.RunOr | src/main/java/cn/yafex/workflow/model/ConditionCase.java:74-90 | the "or" loop is true exactly when a true one comes first, before anything throws, and false exactly when every condition is false |
| ConditionEval.RunOther | src/main/java/cn/yafex/workflow/model/ConditionCase.java:74-94 | with any other type the loop is never true, and it is false exactly when no condition throws |
| ConditionEval.AndCase | src/main/java/cn/yafex/workflow/model/ConditionCase.java:69-95 | an "and" case, in any letter case, is true exactly when every condition is true, and false exactly when a false one comes first |
| ConditionEval.OrCase | src/main/java/cn/yafex/workflow/model/ConditionCase.java:69-95 | an "or" case is true exactly when a true condition comes first, and false exactly when all are false |
| ConditionEval.OtherCaseNeverTrue | src/main/java/cn/yafex/workflow/model/ConditionCase.java:74-94 | a non-empty case whose type is neither "and" nor "or" is never true |
| ConditionEval.EvaluateConditions | src/main/java/cn/yafex/workflow/model/WorkflowNode.java:190-203 | a node that is not a condition node, or has no cases, passes |
| ConditionEval.AnyCaseTrue | src/main/java/cn/yafex/workflow/model/WorkflowNode.java:195-202 | the scan over cases is true exactly when some case is true and every case before it is false |
| ConditionEval.EvaluateConditionsTrue | src/main/java/cn/yafex/workflow/model/WorkflowNode.java:190-203 | a condition node with cases passes exactly when some case is true and every case before it is false |
| ConditionEval.EmptyCasePasses | src/main/java/cn/yafex/workflow/model/WorkflowNode.java:190-203 | an empty case reached after false cases makes the node pass |
| Engine.OperatorValueOf | src/main/java/cn/yafex/workflow/service/WorkflowManager.java:29-36 | an operator string names an operator exactly when it spells one of the six constant names; the parsed operator spells the string back |
| Engine.EvaluateSingle | src/main/java/cn/yafex/workflow/service/WorkflowManager.java:456-493 | a missing operand throws a null-pointer error; a null value on either side is false; an unknown operator name throws an illegal-argument error naming it; EQUALS is equality of the values and NOT_EQUALS its negation; each of the four orderings is the comparison of the two values as doubles when both are numbers, and false otherwise |
| Engine.EqualsNotEqualsComplement | src/main/java/cn/yafex/workflow/service/WorkflowManager.java:466-477 | on two non-null values, EQUALS and NOT_EQUALS always give opposite answers, and GREATER_THAN with the operands swapped is LESS_THAN |
| Engine.IntegerNeverEqualsDouble | src/main/java/cn/yafex/workflow/service/WorkflowManager.java:466-467 | an integer and a double are never EQUALS, whatever their values, because equality checks the class |
| Engine.ResolveOperand | src/main/java/cn/yafex/workflow/service/WorkflowManager.java:386-397 | a "global" operand is refreshed from the stored variable; any other parent needs the context's workflow and throws a null-pointer error without one |
| Engine.RefreshOperands | src/main/java/cn/yafex/workflow/service/WorkflowManager.java:384-414 | refreshing keeps the operator, the type and which operands are present, changes only operand values, and leaves the right operand alone unless the type is "VARIABLE" |
| Engine.AndCaseHolds | src/main/java/cn/yafex/workflow/service/WorkflowManager.java:382-431 | an "and" case holds exactly when every condition evaluates to true |
| Engine.OrCaseHoldsAtOnce | src/main/java/cn/yafex/workflow/service/WorkflowManager.java:382-431 | since the accumulator starts true, an "or" case holds as soon as its first condition evaluates without throwing, whatever it evaluates to |
| Engine.OtherCaseHolds | src/main/java/cn/yafex/workflow/service/WorkflowManager.java:382-431 | a case of any other type never evaluates to false |
| Engine.ScanCases | src/main/java/cn/yafex/workflow/service/WorkflowManager.java:375-440 | the case found is non-empty and holds, and every non-empty case before it evaluates to false; with none found, every non-empty case is false |
| Engine.CaughtError | src/main/java/cn/yafex/workflow/service/WorkflowManager.java:446-447 | a caught exception becomes an error result whose code is the exception's simple class name and whose message is the exception's message |
| Engine.EvaluateCondition | src/main/java/cn/yafex/workflow/service/WorkflowManager.java:367-449 | a node that is not a condition node gives an unevaluated result; otherwise, without an error, the match is "else" with every non-empty case false, or "caseN" where case N is non-empty and holds and every non-empty case before it is false; the result counts as evaluated exactly when a case matched |
| Engine.EvaluateConditionAt | src/main/java/cn/yafex/workflow/service/WorkflowManager.java:375-449 | when every non-empty case before case i is false, case i decides the node: "case" plus i+1, evaluated, if it holds, and the caught error result if it throws |
| Engine.EvaluateConditionElse | src/main/java/cn/yafex/workflow/service/WorkflowManager.java:375-446 | when every non-empty case is false, the node selects "else" and is not evaluated |
| Engine.CaseKeyNotElse | src/main/java/cn/yafex/workflow/service/WorkflowManager.java:438-445 | a case key never collides with "else" |
| Engine.EmptyCaseSkipped | src/main/java/cn/yafex/workflow/service/WorkflowManager.java:375-380 | a node whose cases are all empty always takes "else" |
| Engine.GlobalOperandNeverOrders | src/main/java/cn/yafex/workflow/service/WorkflowManager.java:386-389 | a "global" left operand is replaced by the stored variable object, which is not a number, so an ordering against it is never true |
| Engine.NodeParentWithoutWorkflowFails | src/main/java/cn/yafex/workflow/service/WorkflowManager.java:390-392 | when the context has no workflow attached, a first condition whose operand names a node parent makes the whole node an error result with code NullPointerException |
| Engine.MappedInput | src/main/java/cn/yafex/workflow/service/WorkflowManager.java:254-284 | a null mapping puts nothing; a constant puts its own value, even null; a variable puts only a non-null value |
| Engine.PrepareToolInputs | src/main/java/cn/yafex/workflow/service/WorkflowManager.java:242-288 | without mappings the inputs are exactly the stored variables; with mappings they are exactly the parameters whose mapping yields a value, with that value |
| Engine.ExecutionError | src/main/java/cn/yafex/workflow/service/WorkflowManager.java:319-320 | an unexpected exception becomes a tool exception whose message is prefixed "Tool execution failed: " |
| Engine.ToolNotFound | src/main/java/cn/yafex/workflow/service/WorkflowManager.java:297-301 | a missing handler gives a tool exception with code TOOL_NOT_FOUND |
| Engine.ExecuteTool | src/main/java/cn/yafex/workflow/service/WorkflowManager.java:296-322 | a name not in the registry gives TOOL_NOT_FOUND; every failure is a tool exception; a non-null input that is not a `VariableDefinition` fails the cast with EXECUTION_ERROR before the tool runs; otherwise the call succeeds exactly when the handler, given the values of the non-null inputs, responds with success and map or null data, and then its data is returned |
| Engine.MappedConstantFailsCast | src/main/java/cn/yafex/workflow/service/WorkflowManager.java:242-322 | a tool node that maps a parameter to a non-null constant fails with a ToolException whose message starts "Tool execution failed: " |
| Engine.OutputVariables | src/main/java/cn/yafex/workflow/service/WorkflowManager.java:336-353 | the results throw exactly when some entry needs a missing output schema or field type; otherwise each non-null entry with an output definition becomes a variable named by its key, holding the entry, with the node as parent and the definition's type and description |
| Engine.ExecuteToolNode | src/main/java/cn/yafex/workflow/service/WorkflowManager.java:324-359 | a missing or empty tool name is an error result "Tool name is empty"; a success implies the tool is registered, and every output is named by its key with the node as parent |
| Engine.MissingToolReportsClassName | src/main/java/cn/yafex/workflow/service/WorkflowManager.java:296-301 | a missing tool surfaces with error code "ToolException" and message "Tool not found: " plus the name |
| Engine.ExecuteNode | src/main/java/cn/yafex/workflow/service/WorkflowManager.java:206-234 | START and END give a plain result, FUNCTION runs the tool node, CONDITION evaluates the cases, and a null type is caught as a NullPointerException |
| Engine.Successor | src/main/java/cn/yafex/workflow/service/WorkflowManager.java:174-180 | a successor is found only under a present key, and it is the next-node entry stored there |
| Engine.Step | src/main/java/cn/yafex/workflow/service/WorkflowManager.java:100-180 | one node step keeps the execution id and status, keeps every stored variable name, sends at most one event when it fails, and otherwise sends ENTER, EXIT and COMPLETE in that order, with EXIT showing the updated variables |
| Engine.StepStoresOutputs | src/main/java/cn/yafex/workflow/service/WorkflowManager.java:127-129 | after a successful step, every output of the node is stored under its own name |
| Engine.EndNodeContinues | src/main/java/cn/yafex/workflow/service/WorkflowManager.java:174-180 | an END node does not stop the run: its "default" successor is taken |
| Engine.CompleteEventCarriesName | src/main/java/cn/yafex/workflow/service/WorkflowManager.java:110-168 | ENTER carries the node's id, while COMPLETE carries its name in the id field |
| Engine.Run | src/main/java/cn/yafex/workflow/service/WorkflowManager.java:100-185 | a finished run ends COMPLETED or FAILED with the same execution id, keeps every stored variable name, and sends only that execution's node events; no current node completes at once |
| Engine.InitialVariables | src/main/java/cn/yafex/workflow/service/WorkflowManager.java:97 | the run's stored variables are one per workflow input field |
| Engine.ExecuteWorkflow | src/main/java/cn/yafex/workflow/service/WorkflowManager.java:91-198 | a finished run ends COMPLETED or FAILED, stores every input, and its events are node events of this execution closed by exactly one session-complete event |
| Engine.NoStartNodeCompletes | src/main/java/cn/yafex/workflow/service/WorkflowManager.java:93-100 | a workflow without a start node completes at once with only the inputs stored and only the session-complete event |
| Engine.RunIgnoresPriorVariables | src/main/java/cn/yafex/workflow/service/WorkflowManager.java:97 | the variables a context held before the run make no difference, since the inputs replace them |
| Engine.StartWorkflow | src/main/java/cn/yafex/workflow/service/WorkflowManager.java:64-84 | a failed load raises "Failed to start workflow: " plus the id; otherwise exactly the new execution is added as RUNNING, with the caller's variables or none, and every other run is unchanged |
| Engine.RunWorkflow | src/main/java/cn/yafex/workflow/service/WorkflowManager.java:91-198 | a finished run removes its execution from the active table and nothing else |
| Engine.GetWorkflowStatus | src/main/java/cn/yafex/workflow/service/WorkflowManager.java:500-503 | a status is reported exactly for active executions, and it is theirs |
| Engine.StopWorkflow | src/main/java/cn/yafex/workflow/service/WorkflowManager.java:510-517 | stopping succeeds exactly for an active execution, marks only it SUSPENDED, and changes no other run |
| Engine.StopThenRun | src/main/java/cn/yafex/workflow/service/WorkflowManager.java:510-517 | a stopped run still finishes COMPLETED or FAILED, and its status can no longer be read afterwards |
| Checker.NewValidationResult | src/main/java/cn/yafex/workflow/service/WorkflowChecker.java:29-32 | a new result is valid and holds no errors |
| Checker.AddError | src/main/java/cn/yafex/workflow/service/WorkflowChecker.java:34-37 | adding an error appends exactly it and makes the result invalid |
| Checker.AddErrorKeepsConsistent | src/main/java/cn/yafex/workflow/service/WorkflowChecker.java:25-45 | the result is valid exactly when no error has been recorded, and adding an error keeps that so |
| Checker.IsTypeCompatible | src/main/java/cn/yafex/workflow/service/WorkflowChecker.java:303-318 | compatible exactly when both types are present and the found name equals the declared type's name ignoring ASCII case, or the declared type is NUMBER and the found name is "NUMBER" or "INTEGER" ignoring ASCII case: both directions are stated |
| Checker.TypeCompatibleWithOwnName | src/main/java/cn/yafex/workflow/service/WorkflowChecker.java:303-311 | a parameter type accepts any string equal to its own name ignoring case (the lower-case and exact spellings among them), and a missing type on either side is never compatible |
| Checker.IntegerOnlyForNumber | src/main/java/cn/yafex/workflow/service/WorkflowChecker.java:313-317 | "INTEGER", in any letter case, is accepted by a NUMBER parameter and by no other type |
| Checker.CheckParam | src/main/java/cn/yafex/workflow/service/WorkflowChecker.java:141-177 | checking one parameter throws only when some node lacks an id, and otherwise reports what the independent per-parameter rule reports |
| Checker.ValidateFunctionNode | src/main/java/cn/yafex/workflow/service/WorkflowChecker.java:124-179 | in whatever order the tool's inputs are iterated, the errors found are exactly the function-node errors; it cannot throw when every node has an id |
| Checker.ValidateConditionNode | src/main/java/cn/yafex/workflow/service/WorkflowChecker.java:184-232 | in whatever order the expected keys are iterated, the errors found are exactly the condition-node errors: no cases, no successors, or each missing "caseN" or "else" key |
| Checker.CheckNodeType | src/main/java/cn/yafex/workflow/service/WorkflowChecker.java:102-113 | the check chosen by the node type reports exactly that type's errors |
| Checker.ValidateNode | src/main/java/cn/yafex/workflow/service/WorkflowChecker.java:95-119 | a node already visited adds nothing; otherwise the node is checked first, every node checked is reachable from it and checked once, and the errors grow by exactly what the newly checked nodes contribute; it cannot throw on a well-formed workflow |
| Checker.ValidateNextNodes | src/main/java/cn/yafex/workflow/service/WorkflowChecker.java:269-298 | a node without successors is reported; every link is checked, every existing target ends up visited, and the errors grow by exactly the link errors and what the walked nodes contribute |
| Checker.WalkBranch | src/main/java/cn/yafex/workflow/service/WorkflowChecker.java:279-297 | one link reports an empty or dangling target, or walks the existing target, which is then visited |
| Checker.ValidateWorkflow | src/main/java/cn/yafex/workflow/service/WorkflowChecker.java:63-90 | a null workflow gives one "cannot be null" error; a missing start node gives exactly one "start node not found" error; otherwise the nodes checked are exactly those reachable from the start, each once, starting with the start, and the errors are exactly what they contribute; the result is valid exactly when no error was found |
| Checker.CleanConditionNodeHasBranch | src/main/java/cn/yafex/workflow/service/WorkflowChecker.java:211-231 | a condition node that passes the check has a non-empty link, to an existing node, under whatever branch the engine selects |
| Checker.CleanNodeHasSuccessors | src/main/java/cn/yafex/workflow/service/WorkflowChecker.java:269-293 | a non-END node that passes the check has successors, each naming an existing node |
| Loader.CleanObject | src/main/java/cn/yafex/workflow/util/WorkflowLoader.java:132-151 | cleaning an object removes exactly the "@type" key and keeps every other key |
| Loader.CleanEntry | src/main/java/cn/yafex/workflow/util/WorkflowLoader.java:139-150 | an object value loses its "@type" key, an array value keeps its length and its non-object elements, and any other value is kept |
| Loader.CleanElement | src/main/java/cn/yafex/workflow/util/WorkflowLoader.java:144-148 | an array element that is not an object, a nested array included, is kept as it is |
| Loader.CleanObjectScrubs | src/main/java/cn/yafex/workflow/util/WorkflowLoader.java:132-151 | after cleaning, no "@type" key is left anywhere the cleaner looks |
| Loader.ScrubbedObjectUnchanged | src/main/java/cn/yafex/workflow/util/WorkflowLoader.java:132-151 | a document with nothing to remove is left exactly as it is |
| Loader.CleanIdempotent | src/main/java/cn/yafex/workflow/util/WorkflowLoader.java:132-151 | cleaning twice is cleaning once |
| Loader.NestedArrayKeepsType | src/main/java/cn/yafex/workflow/util/WorkflowLoader.java:142-148 | an object inside an array inside an array keeps its "@type", because the cleaner does not look there |
| Loader.ParseFieldType | src/main/java/cn/yafex/workflow/util/WorkflowLoader.java:283-290 | a parsed type spells the string exactly, and null gives no type |
| Loader.ParseFieldTypeExact | src/main/java/cn/yafex/workflow/util/WorkflowLoader.java:283-290 | every type name parses back to its type, and the lower-case spelling does not parse |
| Loader.GetString | src/main/java/cn/yafex/workflow/util/WorkflowLoader.java:244-248 | a string entry is read as itself, and the read gives null exactly when the key is absent or null |
| Loader.GetBooleanValue | src/main/java/cn/yafex/workflow/util/WorkflowLoader.java:247 | a missing or null "required" reads as false, and a boolean reads as itself |
| Loader.GetObject | src/main/java/cn/yafex/workflow/util/WorkflowLoader.java:251-273 | fastjson's `getJSONObject`: an object entry is read as that object, a missing or null entry as null, a string as what `JSON.parseObject` makes of it (the empty string as null), and a number, boolean or array fails the cast |
| Loader.GetObjectRank | src/main/java/cn/yafex/workflow/util/WorkflowLoader.java:251-273 | an object read from a key, directly or by parsing a string, is shallower than the object it is read from, so the deserializer's recursion ends |
| Loader.Deserialize | src/main/java/cn/yafex/workflow/util/WorkflowLoader.java:239-276 | the definition holds the name, description, parsed type, default value and "required" read from their keys, and its properties are exactly the object-valued entries when "properties" is an object |
| Loader.DeserializeObjects | src/main/java/cn/yafex/workflow/util/WorkflowLoader.java:251-270 | after a successful read, the constraints have the keys of the object `getJSONObject` read, the properties are its object-valued entries, and there is an item definition exactly when one was read, a string of JSON text included |
| Loader.StringItemDefinitionParses | src/main/java/cn/yafex/workflow/util/WorkflowLoader.java:269-273 | an "itemDefinition" held as JSON text is deserialized from the object it parses to |
| Loader.EmptyStringReadsAsNull | src/main/java/cn/yafex/workflow/util/WorkflowLoader.java:256-273 | an empty string under "properties" or "itemDefinition" reads as null, so the definition has no properties and no item definition |
| Loader.DeserializeProperties | src/main/java/cn/yafex/workflow/util/WorkflowLoader.java:256-267 | the properties read are exactly the object-valued entries |
| Loader.DeserializeDefaults | src/main/java/cn/yafex/workflow/util/WorkflowLoader.java:247-267 | a missing "required" reads as false, and a non-object entry of "properties" is dropped |
| Loader.ToJsonRoundTrip | src/main/java/cn/yafex/workflow/util/WorkflowLoader.java:251-254 | every plain value JSON can carry is read back from its JSON form unchanged |
| Loader.DeserializeEncode | src/main/java/cn/yafex/workflow/util/WorkflowLoader.java:239-276 | every field definition whose constraints JSON can carry is read back unchanged from its JSON form |
| Loader.ConstraintsRoundTrip | src/main/java/cn/yafex/workflow/util/WorkflowLoader.java:251-254 | constraints JSON can carry are read back unchanged |
| Loader.StripExtension | src/main/java/cn/yafex/workflow/util/WorkflowLoader.java:203-206 | cutting the last five characters off a ".json" file name gives the id whose file it is |
| Loader.StripFileName | src/main/java/cn/yafex/workflow/util/WorkflowLoader.java:204-206 | an id is read back unchanged from its file name |
| Loader.ListWorkflows | src/main/java/cn/yafex/workflow/util/WorkflowLoader.java:201-212 | an id is listed exactly when its ".json" file exists |
| Loader.SaveWorkflow | src/main/java/cn/yafex/workflow/util/WorkflowLoader.java:91-127 | a null workflow or id is an illegal-argument error; otherwise exactly the id's file is written, holding the cleaned document |
| Loader.LoadDocument | src/main/java/cn/yafex/workflow/util/WorkflowLoader.java:159-167 | a null id is an illegal-argument error; the document loads exactly when its file exists, and it is the stored one |
| Loader.DeleteWorkflow | src/main/java/cn/yafex/workflow/util/WorkflowLoader.java:219-231 | a null id deletes nothing and answers false; otherwise the answer is whether the file existed, and it is gone afterwards |
| Loader.SaveListLoadDelete | src/main/java/cn/yafex/workflow/util/WorkflowLoader.java:91-231 | a saved workflow is listed and loads back cleaned; deleting it answers true and unlists exactly it |
| EditorState.ResetWorkflow | src/main/resources/static/js/workflow-state.js:29-41 | a reset gives an empty, active workflow with no id or start node, the counter at 1, and nothing being edited |
| EditorState.FirstMatch | src/main/resources/static/js/workflow-state.js:50 | the pattern "node_" followed by digits is found at the leftmost place it matches, and not found exactly when it matches nowhere |
| EditorState.NodeNumber | src/main/resources/static/js/workflow-state.js:50-52 | an id yields a number exactly when the pattern matches somewhere in it |
| EditorState.NodeNumberOfGenerated | src/main/resources/static/js/workflow-state.js:50-52 | a generated id reads back as the counter value it was made from |
| EditorState.GeneratedIdInjective | src/main/resources/static/js/workflow-state.js:107-109 | different counter values give different ids |
| EditorState.MaxNodeNumber | src/main/resources/static/js/workflow-state.js:48-57 | the counter base is at least every number read from an id, and it is 0 or the number of one of the ids |
| EditorState.SetWorkflow | src/main/resources/static/js/workflow-state.js:44-59 | installing a workflow keeps it as given and restarts the counter just above the largest number read from its ids, or at 1; the node being edited stays the object it was, outside the new list |
| EditorState.GenerateNodeId | src/main/resources/static/js/workflow-state.js:107-109 | a generated id reads back as the current counter, which then moves on by one and nothing else changes |
| EditorState.GenerateIds | src/main/resources/static/js/workflow-state.js:107-109 | a run of generations yields "node_" and each counter value in turn and moves the counter on by the run's length |
| EditorState.GeneratedIdsFresh | src/main/resources/static/js/workflow-state.js:44-109 | after installing a workflow, generated ids are pairwise distinct and none equals the id of a node already in it |
| EditorState.GeneratedIdAbove | src/main/resources/static/js/workflow-state.js:107-109 | an id without a number, or with a smaller one, is never the id generated from the counter |
| EditorState.AddNode | src/main/resources/static/js/workflow-state.js:62-67 | adding appends exactly the node, makes a START node the start node, and changes nothing else |
| EditorState.FindIndex | src/main/resources/static/js/workflow-state.js:84 | the index found is that of the first node with the id, and none exactly when no node has it |
| EditorState.Assign | src/main/resources/static/js/workflow-state.js:78 | each property the patch carries replaces the node's own, and every other property is kept |
| EditorState.UpdateNode | src/main/resources/static/js/workflow-state.js:75-80 | an unknown id changes nothing; otherwise only the first node with the id takes the patch, and when that node is the one being edited, the node being edited shows the patch too |
| EditorState.DropTarget | src/main/resources/static/js/workflow-state.js:94-101 | the links kept are exactly those not pointing at the removed id |
| EditorState.DropLinks | src/main/resources/static/js/workflow-state.js:94-101 | dropping links keeps a node's id, type and other properties, and whether it has a link object |
| EditorState.RemoveNode | src/main/resources/static/js/workflow-state.js:83-104 | an unknown id changes nothing; otherwise the first node with the id is removed, the start node is cleared if it was that id, and every remaining node loses its links to it; a node being edited that remains loses them too, and the removed node, if it was being edited, stays as it was |
| EditorState.SetEditingNode | src/main/resources/static/js/workflow-state.js:112-114 | `setEditingNode` given `getNodeById(id)` (lines 70-72): opening a node by id edits the first node with that id, the very node of the list, or nothing when no node has the id; the workflow and counter are unchanged |
| EditorState.ClearEditingNode | src/main/resources/static/js/workflow-state.js:116-119 | afterwards nothing is being edited, and the workflow and counter are unchanged |
| EditorState.OpenThenUpdateShows | src/main/resources/static/js/workflow-state.js:70-114 | after opening a node and updating it through the list, the node being edited is the updated node |
| EditorState.RemoveNodeUnlinks | src/main/resources/static/js/workflow-state.js:83-104 | after removing a known node, no link points at it and there is one node fewer |
| EditorState.AddThenRemove | src/main/resources/static/js/workflow-state.js:62-104 | adding a node under a fresh id that is not a START node and that nothing points at, then removing it, gives back the state before |
| EditorHistory.AddToHistory | src/main/resources/static/js/workflow-history.js:71-88 | the new version goes in front, the older ones follow in order, at most five are kept, and the recorded text is unchanged |
| EditorHistory.InitWorkflowHistory | src/main/resources/static/js/workflow-history.js:18-27 | a new history holds exactly the initial version and records its text |
| EditorHistory.ForceHistoryUpdate | src/main/resources/static/js/workflow-history.js:116-122 | the workflow's text is recorded afterwards; a workflow whose text is already recorded changes nothing, and any other is added as the newest version |
| EditorHistory.CheckForChanges | src/main/resources/static/js/workflow-history.js:57-65 | the timer's check behaves as a forced update of the current workflow |
| EditorHistory.RestoreFromHistory | src/main/resources/static/js/workflow-history.js:103-110 | an index in range gives that version's workflow and records its text; any other index gives null and changes nothing |
| EditorHistory.ForceTwiceAddsOnce | src/main/resources/static/js/workflow-history.js:116-122 | forcing the same workflow twice adds at most one version |
| EditorHistory.RestoreThenForceIsQuiet | src/main/resources/static/js/workflow-history.js:103-122 | a restored workflow is not recorded again until it changes |
| EditorHistory.HistoryBounded | src/main/resources/static/js/workflow-history.js:71-88 | whatever is forced, the history never holds more than five versions, never empties, and records the last workflow's text |
| AppTypes.FirstStart | src/main/resources/vue-app/src/types/workflow.ts:112 | the node found is the first START node, and none is found exactly when there is no START node |
| AppTypes.ApiToApp | src/main/resources/vue-app/src/types/workflow.ts:94-101 | conversion from the API keeps id, name, description and nodes and brings no connections |
| AppTypes.AppToApi | src/main/resources/vue-app/src/types/workflow.ts:106-115 | conversion to the API keeps id, name, description and nodes, is active, and names the first START node's id as the start, or "" when there is none |
| AppTypes.AppApiRoundTrip | src/main/resources/vue-app/src/types/workflow.ts:94-115 | converting to the API format and back keeps everything but the connections |
| AppTypes.ApiAppRoundTrip | src/main/resources/vue-app/src/types/workflow.ts:94-115 | an active API workflow without global variables that names its first START node as the start comes back unchanged |
| WorkflowStore.Filter | src/main/resources/vue-app/src/stores/workflow.ts:156-159 | filtering keeps exactly the elements that pass, and keeps the whole list when all pass |
| WorkflowStore.FilterCounts | src/main/resources/vue-app/src/stores/workflow.ts:156-159 | a value that passes occurs in the result as often as in the list, and a value that fails does not occur |
| WorkflowStore.FilterAppend | src/main/resources/vue-app/src/stores/workflow.ts:156-159 | filtering keeps order: filtering a concatenation is concatenating the filtered parts |
| WorkflowStore.RemoveAt | src/main/resources/vue-app/src/stores/workflow.ts:204 | removing at an index shifts every later element down by one and keeps the earlier ones |
| WorkflowStore.NodeIndex | src/main/resources/vue-app/src/stores/workflow.ts:146 | the node found is the first with the id, and none exactly when no node has it |
| WorkflowStore.ConnectionIndex | src/main/resources/vue-app/src/stores/workflow.ts:202 | the connection found is the first with the id, and none exactly when no connection has it |
| WorkflowStore.SaveToHistory | src/main/resources/vue-app/src/stores/workflow.ts:224-234 | without a workflow nothing changes; otherwise the current workflow goes on top of the undo stack, the redo stack is cleared, and past twenty snapshots the oldest one goes |
| WorkflowStore.Undo | src/main/resources/vue-app/src/stores/workflow.ts:236-245 | with nothing to undo nothing changes; otherwise the newest snapshot becomes current and the current workflow goes on the redo stack |
| WorkflowStore.Redo | src/main/resources/vue-app/src/stores/workflow.ts:247-256 | with nothing to redo nothing changes; otherwise the newest redo snapshot becomes current and the current workflow goes on the undo stack |
| WorkflowStore.RedoUndoes | src/main/resources/vue-app/src/stores/workflow.ts:236-256 | with a workflow open, redo right after undo gives back the whole store |
| WorkflowStore.UndoRedoes | src/main/resources/vue-app/src/stores/workflow.ts:236-256 | with a workflow open, undo right after redo gives back the whole store |
| WorkflowStore.SaveKeepsPastCapped | src/main/resources/vue-app/src/stores/workflow.ts:231-233 | the undo stack never grows beyond twenty snapshots, and at the cap the oldest snapshot is the one dropped |
| WorkflowStore.SelectNode | src/main/resources/vue-app/src/stores/workflow.ts:117-122 | the node selection is set, and a non-empty id clears the selected connection; nothing else changes |
| WorkflowStore.SelectConnection | src/main/resources/vue-app/src/stores/workflow.ts:170-175 | the connection selection is set, and a non-empty id clears the selected node; nothing else changes |
| WorkflowStore.SelectingIsExclusive | src/main/resources/vue-app/src/stores/workflow.ts:117-175 | whatever was selected before, selecting a node or a connection leaves at most one of them selected |
| WorkflowStore.SetSelectedNode | src/main/resources/vue-app/src/stores/workflow.ts:259-262 | the node selection is set and the panel is open exactly for a non-empty id; the connection selection stays |
| WorkflowStore.SetSelectedNodeOverlaps | src/main/resources/vue-app/src/stores/workflow.ts:259-262 | a node set this way can leave a node and a connection selected together |
| WorkflowStore.CreateWorkflow | src/main/resources/vue-app/src/stores/workflow.ts:73-82 | a new empty workflow under the fresh id becomes current and is the newest snapshot, with the redo stack cleared |
| WorkflowStore.AddNode | src/main/resources/vue-app/src/stores/workflow.ts:124-141 | a workflow is created first when none is open; exactly the new node, with empty parameters and its type's default name when none is given, is appended, selected alone, and snapshotted |
| WorkflowStore.UpdateNode | src/main/resources/vue-app/src/stores/workflow.ts:143-151 | without a workflow or a node with the id nothing changes; otherwise only the first such node takes the updates and a snapshot is taken |
| WorkflowStore.DeleteNode | src/main/resources/vue-app/src/stores/workflow.ts:153-167 | exactly the nodes with other ids and the connections not touching the node remain; a selected node is deselected and the panel closed; a snapshot is taken |
| WorkflowStore.AddConnection | src/main/resources/vue-app/src/stores/workflow.ts:177-197 | a connection is refused, changing nothing, exactly without a workflow, for a self-loop, or for a pair already connected; otherwise "conn_" plus the time is appended, selected alone, and snapshotted |
| WorkflowStore.AddConnectionKeepsWellFormed | src/main/resources/vue-app/src/stores/workflow.ts:180-184 | adding keeps the connections free of self-loops and repeated pairs |
| WorkflowStore.AddConnectionTwice | src/main/resources/vue-app/src/stores/workflow.ts:182-184 | adding the same pair twice adds it once |
| WorkflowStore.DeleteConnection | src/main/resources/vue-app/src/stores/workflow.ts:199-212 | the first connection with the id is removed if there is one, its selection is cleared, and a snapshot is taken either way |
| WorkflowStore.UpdateConnection | src/main/resources/vue-app/src/stores/workflow.ts:214-221 | only the first connection with the id takes the updates, and no snapshot is taken |
| WorkflowStore.DeletionsKeepWellFormed | src/main/resources/vue-app/src/stores/workflow.ts:153-212 | deleting a node or a connection keeps the connections free of self-loops and repeated pairs |
| WorkflowStore.EntryConnection | src/main/resources/vue-app/src/stores/workflow.ts:94-99 | a link becomes a connection from its node to its target, with no condition exactly for "default" and the link's key otherwise |
| WorkflowStore.ConvertEntries | src/main/resources/vue-app/src/stores/workflow.ts:89-101 | the existing connections stay first, every link of the node ends up connected, every added connection stands for a link, and none repeats a pair |
| WorkflowStore.ConvertNodes | src/main/resources/vue-app/src/stores/workflow.ts:87-105 | every link of every node ends up connected, every added connection stands for a link, and none repeats a pair |
| WorkflowStore.LoadWorkflow | src/main/resources/vue-app/src/stores/workflow.ts:84-114 | loading keeps the workflow's fields, strips every node's links, converts them to connections after the given ones, and restarts the history from one snapshot |
| WorkflowStore.LoadWorkflowConnections | src/main/resources/vue-app/src/stores/workflow.ts:84-114 | after loading, the given connections come first, every link is a connection, every added connection stands for a link, no added connection repeats a pair, and no node keeps its links |
| DebugStore.CanTest | src/main/resources/vue-app/src/stores/debug.ts:34-37 | a debug run needs an open workflow, and then it is possible exactly when both a start and an end node exist |
| DebugStore.HandleNodeExecution | src/main/resources/vue-app/src/stores/debug.ts:77-96 | every event is kept in order; ENTER marks its node as running; COMPLETE clears the running node only when it names it; nothing else changes |
| DebugStore.Replay | src/main/resources/vue-app/src/stores/debug.ts:77-96 | handling a stream of events keeps all of them in order and changes only the events and the running node |
| DebugStore.EnterThenCompleteClears | src/main/resources/vue-app/src/stores/debug.ts:83-92 | a node entered and then completed under the same id is no longer shown as running |
| DebugStore.ReplayQuiet | src/main/resources/vue-app/src/stores/debug.ts:83-92 | events other than ENTER and COMPLETE leave the running node alone |
| DebugStore.ReplayAppend | src/main/resources/vue-app/src/stores/debug.ts:77-96 | handling two streams one after the other is handling their concatenation |
| DebugStore.StopDebug | src/main/resources/vue-app/src/stores/debug.ts:126-144 | stopping ends the session, clears the running node, shows the form again, closes the stream and removes the handlers, and keeps the events, inputs and workflow id |
| DebugStore.StopDebugAsWritten | src/main/resources/vue-app/src/stores/debug.ts:126-144 | as written, a stop with the stream set throws after removing the handlers, leaving the session, the stream, the running node and the form as they were |
| DebugStore.StartThenStopAsWrittenThrows | src/main/resources/vue-app/src/stores/debug.ts:69-144 | as written, stopping a session `startDebug` opened throws, and the session stays open with the form hidden |
| DebugStore.StartThenStopEnds | src/main/resources/vue-app/src/stores/debug.ts:69-144 | with the stream closed as intended, stopping a started session ends it, closes the stream, removes the handlers and shows the form |
| DebugStore.ResetDebugEvents | src/main/resources/vue-app/src/stores/debug.ts:149-171 | resetting the events closes the stream like stopping does but keeps the session open, and drops the events and the running node |
| DebugStore.ResetDebug | src/main/resources/vue-app/src/stores/debug.ts:176-183 | a full reset is a stop that also clears the events, the inputs and the workflow id |
| DebugStore.ResetDebugAbsorbs | src/main/resources/vue-app/src/stores/debug.ts:149-183 | a full reset gives the same state whether or not the events were reset first |
| DebugStore.InitDebug | src/main/resources/vue-app/src/stores/debug.ts:44-64 | an empty id changes nothing; with a session open the id is recorded and the session stopped; otherwise a failed fetch rejects with only the id recorded, and a successful one opens a fresh session with the fetched inputs |
| DebugStore.InitDebugToggles | src/main/resources/vue-app/src/stores/debug.ts:44-64 | calling it twice with the same id opens a session and then closes it again |
| DebugStore.StartDebug | src/main/resources/vue-app/src/stores/debug.ts:69-121 | without a workflow id nothing happens; otherwise only the form is hidden and the handlers and stream are set up |
| DebugStore.HandleDebugError | src/main/resources/vue-app/src/stores/debug.ts:98-105 | the error handler's clearing of the running node adds nothing to the stop that follows |
| DebugStore.ClientEventOf | src/main/java/cn/yafex/workflow/service/WorkflowDebugService.java:35-46 | the page receives each node event with its node id and name, and it reads ENTER and COMPLETE exactly for those kinds |
| DebugStore.StepLeavesNodeRunning | src/main/java/cn/yafex/workflow/service/WorkflowManager.java:162-168 | after an engine step of a node whose name is not its id, the page still shows the node as running |
| DebugStore.IntendedStepEvents | src/main/java/cn/yafex/workflow/service/WorkflowManager.java:162-168 | the corrected events of a step are those the engine sends, with the COMPLETE event naming the node by its id like ENTER |
| DebugStore.IntendedStepClearsRunning | src/main/java/cn/yafex/workflow/service/WorkflowManager.java:162-168 | with the corrected events, a completed step leaves no node shown as running |
| PortLayout.NodeHeight | src/main/resources/vue-app/src/utils/PositionManager.ts:36-42 | a node is never lower than the base height, and only a condition node with a conditions array is taller |
| PortLayout.IsConditionOutputPort | src/main/resources/vue-app/src/utils/PositionManager.ts:125-131 | only an output port of a condition node with conditions can be a branch port, and never one without a condition or under "default" |
| PortLayout.ConditionIndex | src/main/resources/vue-app/src/utils/PositionManager.ts:133-140 | no condition or an empty one gives -1, "else" gives -2, any other key not starting with "case" gives -1, and a "case" key gives `parseInt` of the rest minus one, which is not a number only when the rest does not parse |
| PortLayout.NoBreakSpaceBeforeDigits | src/main/resources/vue-app/src/utils/PositionManager.ts:133-135 | `parseInt` skips JavaScript white space such as the no-break space: "case\u00A0" followed by 1 is index 0 |
| PortLayout.StandardPort | src/main/resources/vue-app/src/utils/PositionManager.ts:49-58 | the input port is on the left edge and the output port on the right edge, both 40 below the top |
| PortLayout.PortPosition | src/main/resources/vue-app/src/utils/PositionManager.ts:47-86 | every port that is not a condition node's branch output is the standard port, and every output port is on the right edge |
| PortLayout.CaseKeyIndex | src/main/resources/vue-app/src/utils/PositionManager.ts:133-135 | the key of the n-th branch is read back as index n - 1 |
| PortLayout.CaseMinusOneIsElse | src/main/resources/vue-app/src/utils/PositionManager.ts:133-137 | "case-1" gets the same index as "else", so the layout puts it at the "else" port |
| PortLayout.CasePortPosition | src/main/resources/vue-app/src/utils/PositionManager.ts:61-72 | the n-th branch port of a condition node is on the right edge, 70 + 24(n - 1) below the top |
| PortLayout.ElsePortMatchesLastCase | src/main/resources/vue-app/src/utils/PositionManager.ts:73-81 | the "else" port is drawn at the same place as the port of the last branch |
| PortLayout.CasePortsOrdered | src/main/resources/vue-app/src/utils/PositionManager.ts:61-72 | a later branch's port is strictly lower than an earlier one's |
| PortLayout.CasePortsInsideNode | src/main/resources/vue-app/src/utils/PositionManager.ts:36-72 | every branch port of a condition node lies within the node's drawn height |
| PortLayout.StandardPortFallback | src/main/resources/vue-app/src/utils/PositionManager.ts:84-85 | the "default" key, a missing key, an input port and a node that is not a condition node all use the standard port |
| NodeColors.NodeColor | src/main/resources/vue-app/src/utils/nodeColors.ts:8-21 | every type gets one of five colours, and the grey default exactly for a string that is not one of the four node types |
| NodeColors.NodeColorsDistinct | src/main/resources/vue-app/src/utils/nodeColors.ts:8-21 | the four node types have four different colours |
| NodeColors.LabelColor | src/main/resources/vue-app/src/utils/nodeColors.ts:29-34 | a label leaving a condition node has the condition node's colour; any other label is plain grey, which is never its node's colour |
| NodeColors.LabelColorIgnoresCondition | src/main/resources/vue-app/src/utils/nodeColors.ts:29-34 | a label's colour does not depend on the connection's condition |
| NodeColors.DisplayLabel | src/main/resources/vue-app/src/utils/nodeColors.ts:41-48 | a label of a "case" key is one character longer than the key, and anything that is neither a "case" key nor "else" is shown as it is |
| NodeColors.DisplayLabelOfCase | src/main/resources/vue-app/src/utils/nodeColors.ts:41-48 | "case" followed by s is shown as "Case " followed by s, and "else" as "ELSE" |
| NodeColors.DisplayLabelNotInjective | src/main/resources/vue-app/src/utils/nodeColors.ts:41-48 | "case1" and "Case 1" are both shown as "Case 1" |
| NodeColors.LabelWidth | src/main/resources/vue-app/src/utils/nodeColors.ts:55-58 | a label is at least forty pixels wide and at least eight per shown character plus sixteen, and its width is one of the two |
| NodeColors.LabelWidthOfCase | src/main/resources/vue-app/src/utils/nodeColors.ts:55-58 | a branch label is eight pixels per character of "Case " and its suffix, plus sixteen |
| Canvas.AddEdge | web/src/utils/canvas.ts:118-121 | adding an edge adds exactly that edge, creating the source's set when it has none |
| Canvas.Links | web/src/utils/canvas.ts:110-115 | the graph holds exactly one edge per existing connection's pair |
| Canvas.CycleGraph | web/src/utils/canvas.ts:107-121 | the graph searched holds exactly the existing connections' pairs and the new one, and has an entry for the source |
| Canvas.NoCycleFromFinished | web/src/utils/canvas.ts:127-141 | no cycle can be reached from a node the search has finished with |
| Canvas.Dfs | web/src/utils/canvas.ts:127-141 | a search that reports a cycle has found one reachable from the source; one that does not has finished the node and every node it visited, each after all its successors |
| Canvas.WouldCreateCycle | src/main/resources/vue-app/src/utils/canvas.ts:90-133 | the answer is true exactly when, with the new connection added, a cycle can be reached from its source; the connection list is only read |
| Canvas.SelfLoopCloses | web/src/utils/canvas.ts:117-128 | a connection from a node to itself always closes a cycle |
| Canvas.TargetReachingSourceCloses | src/main/resources/vue-app/src/utils/canvas.ts:115-132 | when the target already reaches the source, the new connection closes a cycle |
| Canvas.PointInRect | src/main/resources/vue-app/src/utils/canvas.ts:41-46 | a point is inside exactly when its offsets from the rectangle's corner lie within the width and the height, all edges inclusive, so a rectangle with a negative side holds no point |
| Canvas.CornersInRect | web/src/utils/canvas.ts:53-58 | all four corners of a rectangle with non-negative sides count as inside it |
| Canvas.PointInRectTranslates | src/main/resources/vue-app/src/utils/canvas.ts:41-46 | moving the point and the rectangle together does not change the answer, over exact reals |
| AvailableContext.FindNode | web/src/composables/useAvailableContext.ts:24 | the node found is the first with the id, and none exactly when no node has it |
| AvailableContext.AvailableVariables | web/src/composables/useAvailableContext.ts:10-34 | the list is every workflow input, in order, marked as belonging to "global", followed by the node's own context items, in order and unchanged |
| AvailableContext.NoWorkflowNothingAvailable | web/src/composables/useAvailableContext.ts:13-32 | without a current workflow nothing is available |
| AvailableContext.OnlyGlobalsWithoutNodeContext | web/src/composables/useAvailableContext.ts:24-30 | an unknown node, or a node without context, sees only the inputs, all marked "global" |

## Left out

- Concurrency: the thread pool that runs workflows and the concurrent maps. Runs and registries are sequential maps, and a run is carried out to its end in one step (`Engine.RunWorkflow`).
- The debug push channel (server-sent events), logging and the HTTP controllers. Events are kept as a trace of values.
- File I/O and JSON text. The directory is a map from file name to JSON document. Serialization, parsing and fastjson's object conversions are parameters or left out. `JSON.parseObject` is a parameter of `Loader.JsonLib`; the model assumes only that it reads the empty text as null and that an object it parses is no deeper than its text is long.
- Loader.LoadDocument: the directory has no path, so the missing-file message names the file where Java names its absolute path.
- Reflection: tool scanning, annotations, and the tools' own `execute` code. Handlers and their definitions are inputs, and a handler's answer is a parameter of `Engine.Env`.
- The tools that only touch the operating system or files (system info, read file, list directory, file info).
- DOM scripts, browser hooks, the router and the build configuration. Also left out: the float geometry of the canvas (transforms, grid snapping, distances, Bezier curves, label midpoints) and `canvas-manager.js` zoom.
- `getParentContext` and `WorkflowNode.getFromContext` are called by the engine but defined nowhere in the repository. They are parameters of `Engine.Env`, as is the rendering of stack traces.
- Engine.InitialVariables: WorkflowManager.java:97 passes `new HashMap<>(workflow.getInputs())`, a map of `FieldDef`s (Workflow.java:65), to `setVariables`, which takes a map of `VariableDefinition`s (WorkflowContext.java:60). This does not compile as written. The model reads the line as an unspecified per-field conversion, the parameter `Env.inputRecord`, and promises only that there is one stored variable per input field.
- Clocks, `uuidv4()` and `Date.now()`: ids and timestamps are parameters.
- Engine.Run: bounded by fuel. A run that does not finish within the bound is `OutOfFuel`, and nothing is claimed about it. This covers a workflow whose links loop forever.
- Engine.ExecuteWorkflow: same fuel bound as `Engine.Run`.
- Engine.RunWorkflow: same fuel bound as `Engine.Run`.
- PortLayout.ConditionIndex: `parseInt` reads arbitrarily long digit runs exactly here. JavaScript's `parseInt` loses precision above 2^53.
- ConditionEval.Convert: `Double.parseDouble` is modelled for plain decimal literals `[+-]digits[.digits]` only. Exponents, hexadecimal floating literals, "NaN" and "Infinity" count as unparsable, and doubles are exact reals.
- WorkflowModel.SetNodeType: `toUpperCase` is ASCII-only. Java also maps some non-ASCII letters to ASCII ones: the dotless i to I, the long s to S, and ligatures such as U+FB06 to "ST". So Java sets type START for "ſtart", where the model falls back to FUNCTION.
- Checker.CheckParam: `equalsIgnoreCase` is ASCII-only. Java also matches the long s with s, the dotless i with i, and the Kelvin sign with k. So Java accepts a declared type such as "ſtring" or "ınteger", where the model reports a type mismatch.
- ConditionEval.Convert: `toLowerCase` is ASCII-only, and the default locale is assumed to have no special casing rules. Under a Turkish locale Java lowercases "STRING" to "strıng", which no longer names the string type.
- The messages the JVM gives its own exceptions (null pointer, class cast, index out of bounds) are not modelled. The model reads them as null, and `Engine.MappedConstantFailsCast` states only the prefix of a message that embeds one.
- Engine.ExecuteTool: `prepareToolInputs` returns a `Map<String, Object>`, and WorkflowManager.java:332 assigns it to a `Map<String, VariableDefinition>`, which does not compile. The model reads the code as it would run after erasure: the lambda in `executeTool` casts each non-null input to `VariableDefinition`, so an input of another class, such as a mapped constant, fails the cast, and the tool reports EXECUTION_ERROR.
- Canvas.PointInRectTranslates: holds for exact reals only. JavaScript numbers are doubles, and rounding can move a boundary point out of the shifted rectangle: x = 3, width = 3.9 and point x = 6.9 are inside, and shifted by -8.1 they are not. `Canvas.PointInRect` itself compares as the source does, over reals.
- EditorState.UpdateNode: the node being edited is a reference into the list, as in JavaScript. A node object that is edited while it is held by a caller outside the state, or that sits in the list twice, is not modelled.
- EditorState.RemoveNode: the same reference model as `EditorState.UpdateNode`. `setWorkflow` keeps the caller's own workflow object, so later edits change that object too; the model keeps values, so this sharing is not modelled.
- WorkflowStore.LoadWorkflow: JavaScript deletes `nextNodes` from the caller's own node objects, so the caller's workflow also loses its links. The model returns a new store and leaves the argument unchanged.
- TextProcess.Definition: `ReturnVal.java` is not part of this model, so the outputs' requiredness and default value are the parameter `rv`.
- Engine.EvaluateSingle: `VariableDefinition` does not override `equals`, so Java compares two such values by identity. The model compares them by their fields, so two separately built but equal definitions count as equal here and not in Java.
- EditorState.SetWorkflow: the counter is a JavaScript number. Above 2^53 `parseInt` rounds the ids' numbers and `counter + 1` stops growing. The model's counter is an unbounded integer.
- EditorState.GenerateNodeId: same unbounded counter as `EditorState.SetWorkflow`. Above 2^53 JavaScript's counter stalls and repeats ids.
- EditorState.GenerateIds: same unbounded counter as `EditorState.SetWorkflow`.
- EditorState.GeneratedIdsFresh: holds for the unbounded counter. In JavaScript it fails once the counter passes 2^53.
- DebugStore.StopDebug: the actions close the stream as evidently intended; see "## Findings" for what the call on `eventSource` does. `resetDebugEvents`, `resetDebug`, the stop branch of `initDebug` and the error handler make the same call and are modelled the same way.
- DebugStore.StartDebug: a second `startDebug` without a stop registers a second pair of handlers. The model keeps one flag, so each event is applied once. Nothing in the modelled code dispatches the window's `node-execution` and `debug-error` events. The model assumes they relay the engine's events.
- TextProcess.Execute: string length counts characters, where Java and JavaScript count UTF-16 code units.
- TextProcess.Execute: `toUpperCase` and `toLowerCase` are Unicode case mappings with locale rules. They are the parameter `cases`, and the model states the outputs in terms of it.
- NodeColors.LabelWidth: same reading of string length as `TextProcess.Execute`.
- Checker.ValidateWorkflow: errors are a datatype, and `Checker.ErrorMessage` renders the source's text. The exact text of the type-mismatch error is left to the renderer of field types.
- Java's `Object.toString` of values other than strings, integers and booleans is the parameter `render` of the condition evaluator.

## Findings

| source | as written | input that shows it | evidently intended | confidence | as-written member | corrected member |
|---|---|---|---|---|---|---|
| src/main/java/cn/yafex/workflow/service/WorkflowManager.java:162-168 | the COMPLETE event is built with the node's name in the node-id field, while ENTER carries the id; the Vue debug store clears its running node only when a COMPLETE event's id matches the running one | a FUNCTION node with id "n1" and name "Start" that runs without error: ENTER sets the running node to "n1", and COMPLETE names "Start", so "n1" stays marked as running after it has finished | the COMPLETE event names the node by its id, so completing a node clears it | not executed | DebugStore.StepLeavesNodeRunning | DebugStore.IntendedStepClearsRunning |
| src/main/resources/vue-app/src/stores/debug.ts:111-138 | `startDebug` stores the `EventSource` that `debugWorkflow` returns in `eventSource`, and `stopDebug` then calls it as a cleanup function; a call on an object that is not a function throws a TypeError after the handlers are removed and before the session is ended | `initDebug` then `startDebug` for a workflow, then `stopDebug`: the stop throws, the session stays open, the stream stays open, and the input form stays hidden | `startDebug` keeps a function that closes the stream, so a stop ends the session | not executed | DebugStore.StartThenStopAsWrittenThrows | DebugStore.StartThenStopEnds |
| src/main/java/cn/yafex/tools/core/ToolHandler.java:53-54 | the inputs are read with `getAnnotation(InputVar.class)` on each parameter of `execute`, while `InputVar` is repeatable (InputVar.java:16); two `@InputVar` on one parameter are stored in an `@InputVars` container, where `getAnnotation` does not look | the `text_process` tool, whose one parameter carries the "text" and "truncate" annotations (TextProcessTool.java:25-26): its definition has no inputs, so `validateParams` accepts a call without the required "text" | the inputs are read with `getAnnotationsByType`, as the outputs are at ToolHandler.java:71 | not executed | TextProcess.GetDefinition | TextProcess.Definition |

=== FILE: app_types.dfy ===
/**
 * The Vue editor's workflow records and the conversion between the API's
 * format and the editor's (`types/workflow.ts`). Node types are the
 * strings of the `NodeType` enum; a node's `nextNodes` object is kept as
 * its entries in `Object.entries` order. Positions are whole numbers.
 */
module AppTypes {
  import opened Wrappers
  import opened JsonValues

  const StartType := "START"
  const FunctionType := "FUNCTION"
  const ConditionType := "CONDITION"
  const EndType := "END"

  datatype Position = Position(x: int, y: int)

  /**
   * `Node` (and `ApiNode`, which has the same fields). `conditionCount` is
   * the length of the `conditions` array the layout code reads from
   * condition nodes, none when the node has no such property.
   */
  datatype AppNode = AppNode(
    id: string,
    ntype: string,
    name: string,
    position: Position,
    parameters: map<string, Json>,
    nextNodes: Option<seq<(string, string)>>,
    conditionCount: Option<nat>)

  datatype Connection = Connection(id: string, sourceNodeId: string, targetNodeId: string, condition: Option<string>)

  /** The editor's `Workflow`; `connections` is empty when the object has none. */
  datatype AppWorkflow = AppWorkflow(
    id: string,
    name: string,
    description: string,
    nodes: seq<AppNode>,
    connections: seq<Connection>)

  datatype ApiWorkflow = ApiWorkflow(
    id: string,
    name: string,
    description: string,
    nodes: seq<AppNode>,
    startNodeId: string,
    active: bool,
    globalVariables: Option<map<string, Json>>)

  /** The first node of type START (`find`). */
  function FirstStart(nodes: seq<AppNode>): (r: Option<nat>)
    ensures r.Some? ==> r.value < |nodes| && nodes[r.value].ntype == StartType
    ensures r.Some? ==> forall j :: 0 <= j < r.value ==> nodes[j].ntype != StartType
    ensures r.None? ==> forall j :: 0 <= j < |nodes| ==> nodes[j].ntype != StartType
    decreases |nodes|
  {
    if nodes == [] then None
    else if nodes[0].ntype == StartType then Some(0)
    else match FirstStart(nodes[1..])
      case None => None
      case Some(j) => Some(j + 1)
  }

  /** `convertApiToAppWorkflow`: id, name, description and nodes, nothing else. */
  function ApiToApp(a: ApiWorkflow): (w: AppWorkflow)
    ensures w.id == a.id && w.name == a.name && w.description == a.description && w.nodes == a.nodes
    ensures w.connections == []
  {
    AppWorkflow(a.id, a.name, a.description, a.nodes, [])
  }

  /**
   * `convertAppToApiWorkflow`: the same four fields, the id of the first
   * START node as the start ('' without one: `?.id || ''`), and active.
   */
  function AppToApi(w: AppWorkflow): (a: ApiWorkflow)
    ensures a.id == w.id && a.name == w.name && a.description == w.description && a.nodes == w.nodes
    ensures a.active && a.globalVariables.None?
    ensures a.startNodeId != "" ==> exists j :: 0 <= j < |w.nodes| && w.nodes[j].ntype == StartType && w.nodes[j].id == a.startNodeId
    ensures forall j :: 0 <= j < |w.nodes| && w.nodes[j].ntype == StartType ==>
              (forall i :: 0 <= i < j ==> w.nodes[i].ntype != StartType) ==> a.startNodeId == w.nodes[j].id
    ensures (forall j :: 0 <= j < |w.nodes| ==> w.nodes[j].ntype != StartType) ==> a.startNodeId == ""
  {
    var start := FirstStart(w.nodes);
    ApiWorkflow(w.id, w.name, w.description, w.nodes, if start.Some? then w.nodes[start.value].id else "", true, None)
  }

  /** Converting to the API format and back keeps id, name, description and nodes. */
  lemma AppApiRoundTrip(w: AppWorkflow)
    ensures ApiToApp(AppToApi(w)) == w.(connections := [])
  {
  }

  /**
   * An API workflow that is active, has no global variables and names its
   * first START node as the start comes back unchanged.
   */
  lemma ApiAppRoundTrip(a: ApiWorkflow)
    requires a.active && a.globalVariables.None?
    requires FirstStart(a.nodes).Some? && a.startNodeId == a.nodes[FirstStart(a.nodes).value].id
    ensures AppToApi(ApiToApp(a)) == a
  {
  }
}

=== FILE: available_context.dfy ===
/**
 * The variables a node of the web editor may refer to
 * (`useAvailableContext`): the workflow's inputs, marked as belonging to
 * `global`, followed by the context the node itself carries. The store the
 * hook reads is a parameter: the current workflow, if any.
 */
module AvailableContext {
  import opened Wrappers
  import opened JsonValues

  const GlobalParent := "global"

  /** `VariableDef`: a declared variable, with its runtime value and owner once known. */
  datatype VariableDef = VariableDef(
    name: string,
    vtype: string,
    description: string,
    defaultValue: Option<Json>,
    value: Option<Json>,
    parent: Option<string>)

  datatype ContextNode = ContextNode(id: string, context: Option<seq<VariableDef>>)

  /** The fields of the store's current workflow the hook reads; an array is present even when empty. */
  datatype ContextWorkflow = ContextWorkflow(inputs: Option<seq<VariableDef>>, nodes: seq<ContextNode>)

  /** The first node with the given id (`nodes.find`). */
  function FindNode(nodes: seq<ContextNode>, id: string): (r: Option<nat>)
    ensures r.Some? ==> r.value < |nodes| && nodes[r.value].id == id
    ensures r.Some? ==> forall j :: 0 <= j < r.value ==> nodes[j].id != id
    ensures r.None? ==> forall j :: 0 <= j < |nodes| ==> nodes[j].id != id
  {
    IndexWhere(nodes, (n: ContextNode) => n.id == id)
  }

  /** The inputs the hook copies: none without a workflow or without an inputs array. */
  function Inputs(current: Option<ContextWorkflow>): seq<VariableDef> {
    if current.Some? && current.value.inputs.Some? then current.value.inputs.value else []
  }

  /** `currentNode?.context || []`. */
  function NodeContext(current: Option<ContextWorkflow>, nodeId: string): seq<VariableDef> {
    if current.None? then []
    else match FindNode(current.value.nodes, nodeId)
      case None => []
      case Some(i) => if current.value.nodes[i].context.Some? then current.value.nodes[i].context.value else []
  }

  /**
   * The hook's computed list: each input copied with parent `global`, in
   * order, then the node's own context items, in order and unchanged.
   */
  method AvailableVariables(current: Option<ContextWorkflow>, nodeId: string) returns (r: seq<VariableDef>)
    ensures |r| == |Inputs(current)| + |NodeContext(current, nodeId)|
    ensures forall i :: 0 <= i < |Inputs(current)| ==> r[i] == Inputs(current)[i].(parent := Some(GlobalParent))
    ensures r[|Inputs(current)|..] == NodeContext(current, nodeId)
  {
    r := [];
    if current.Some? && current.value.inputs.Some? {
      var inputs := current.value.inputs.value;
      var k := 0;
      while k < |inputs|
        invariant 0 <= k <= |inputs|
        invariant |r| == k
        invariant forall i :: 0 <= i < k ==> r[i] == inputs[i].(parent := Some(GlobalParent))
      {
        r := r + [inputs[k].(parent := Some(GlobalParent))];
        k := k + 1;
      }
    }
    ghost var globals := r;
    var nodeContext: seq<VariableDef> := [];
    if current.Some? {
      var found := FindNode(current.value.nodes, nodeId);
      if found.Some? && current.value.nodes[found.value].context.Some? {
        nodeContext := current.value.nodes[found.value].context.value;
      }
    }
    var k := 0;
    while k < |nodeContext|
      invariant 0 <= k <= |nodeContext|
      invariant r == globals + nodeContext[..k]
    {
      r := r + [nodeContext[k]];
      k := k + 1;
    }
    assert nodeContext[..k] == nodeContext;
  }

  /** Without a current workflow nothing is available. */
  method NoWorkflowNothingAvailable(nodeId: string) returns (r: seq<VariableDef>)
    ensures r == []
  {
    r := AvailableVariables(None, nodeId);
  }

  /** An unknown node id, or a node without context, leaves only the inputs, all marked global. */
  method OnlyGlobalsWithoutNodeContext(w: ContextWorkflow, nodeId: string) returns (r: seq<VariableDef>)
    requires || (forall j :: 0 <= j < |w.nodes| ==> w.nodes[j].id != nodeId)
             || (FindNode(w.nodes, nodeId).Some? && w.nodes[FindNode(w.nodes, nodeId).value].context.None?)
    ensures |r| == |Inputs(Some(w))|
    ensures forall i :: 0 <= i < |r| ==> r[i].parent == Some(GlobalParent)
  {
    r := AvailableVariables(Some(w), nodeId);
  }
}

=== FILE: canvas.dfy ===
/**
 * The canvas helpers both front ends share (`utils/canvas.ts`; the Vue app's
 * and the web app's copies differ, but `wouldCreateCycle` and
 * `isPointInRect` are the same in both): the check run before a connection
 * is drawn, whether it would close a cycle, and the hit test for rectangles.
 *
 * The graph is the source's `Map<string, Set<string>>` from a node id to the
 * ids it links to. Iterating a `Set` follows insertion order; the model
 * picks neighbours in any order, and the result is proved not to depend on
 * it.
 */
module Canvas {
  import AppTypes

  type Graph = map<string, set<string>>

  predicate HasEdge(g: Graph, u: string, v: string) {
    u in g && v in g[u]
  }

  /** Some existing connection leads from `u` to `v`. */
  predicate Linked(cs: seq<AppTypes.Connection>, u: string, v: string) {
    exists i :: 0 <= i < |cs| && cs[i].sourceNodeId == u && cs[i].targetNodeId == v
  }

  /** Adding `v` to the set of `u`, creating the set when `u` has none. */
  function AddEdge(g: Graph, u: string, v: string): (r: Graph)
    ensures forall a, b :: HasEdge(r, a, b) <==> HasEdge(g, a, b) || (a == u && b == v)
    ensures r.Keys == g.Keys + {u}
  {
    if u in g then g[u := g[u] + {v}] else g[u := {v}]
  }

  /** The graph built from the existing connections, one edge per connection. */
  function Links(cs: seq<AppTypes.Connection>): (g: Graph)
    ensures forall u, v :: HasEdge(g, u, v) <==> Linked(cs, u, v)
    decreases |cs|
  {
    if cs == [] then map[]
    else
      var last := cs[|cs| - 1];
      var g := AddEdge(Links(cs[..|cs| - 1]), last.sourceNodeId, last.targetNodeId);
      LinkedSplit(cs);
      g
  }

  lemma LinkedSplit(cs: seq<AppTypes.Connection>)
    requires cs != []
    ensures forall u, v :: Linked(cs, u, v) <==>
              Linked(cs[..|cs| - 1], u, v) || (u == cs[|cs| - 1].sourceNodeId && v == cs[|cs| - 1].targetNodeId)
  {
    var init := cs[..|cs| - 1];
    forall u, v | Linked(cs, u, v)
      ensures Linked(init, u, v) || (u == cs[|cs| - 1].sourceNodeId && v == cs[|cs| - 1].targetNodeId)
    {
      var i :| 0 <= i < |cs| && cs[i].sourceNodeId == u && cs[i].targetNodeId == v;
      if i < |cs| - 1 {
        assert init[i] == cs[i];
      }
    }
    forall u, v | Linked(init, u, v) ensures Linked(cs, u, v) {
      var i :| 0 <= i < |init| && init[i].sourceNodeId == u && init[i].targetNodeId == v;
      assert cs[i] == init[i];
    }
  }

  /** The graph `wouldCreateCycle` searches: the existing connections plus the one about to be drawn. */
  function CycleGraph(cs: seq<AppTypes.Connection>, sourceId: string, targetId: string): (g: Graph)
    ensures forall u, v :: HasEdge(g, u, v) <==> Linked(cs, u, v) || (u == sourceId && v == targetId)
    ensures sourceId in g
  {
    AddEdge(Links(cs), sourceId, targetId)
  }

  /** Every node the graph mentions. */
  function Nodes(g: Graph): set<string> {
    g.Keys + (set u, v | u in g && v in g[u] :: v)
  }

  /** A walk: a non-empty sequence of nodes, each linked to the next. */
  predicate IsWalk(g: Graph, p: seq<string>) {
    |p| >= 1 && forall k :: 0 <= k < |p| - 1 ==> HasEdge(g, p[k], p[k + 1])
  }

  predicate HasRepeat(p: seq<string>) {
    exists i, j :: 0 <= i < j < |p| && p[i] == p[j]
  }

  /** A cycle is reachable from `s`: some walk from `s` comes back to a node it has already passed. */
  ghost predicate CycleFrom(g: Graph, s: string) {
    exists p :: IsWalk(g, p) && p[0] == s && HasRepeat(p)
  }

  /**
   * The nodes the search has finished with, in the order it finished them:
   * every successor of a finished node was finished before it.
   */
  ghost predicate Finished(g: Graph, order: seq<string>) {
    forall i, v :: 0 <= i < |order| && HasEdge(g, order[i], v) ==> v in order[..i]
  }

  ghost function FirstIndex(s: seq<string>, x: string): (r: nat)
    requires x in s
    ensures r < |s| && s[r] == x
    ensures forall j :: 0 <= j < r ==> s[j] != x
  {
    if s[0] == x then 0 else 1 + FirstIndex(s[1..], x)
  }

  lemma FirstIndexBefore(s: seq<string>, x: string, i: nat)
    requires i <= |s| && x in s[..i]
    ensures x in s && FirstIndex(s, x) < i
  {
    var j :| 0 <= j < i && s[..i][j] == x;
    assert s[j] == x;
  }

  /**
   * Along any walk that starts at a finished node, every node is finished
   * and was finished strictly before the node in front of it.
   */
  lemma {:induction false} WalkFromFinished(g: Graph, order: seq<string>, p: seq<string>)
    requires Finished(g, order) && IsWalk(g, p) && p[0] in order
    ensures forall k :: 0 <= k < |p| ==> p[k] in order
    ensures forall i, j :: 0 <= i < j < |p| ==> FirstIndex(order, p[j]) < FirstIndex(order, p[i])
    decreases |p|
  {
    if |p| > 1 {
      var n := |p| - 1;
      var q := p[..n];
      assert IsWalk(g, q) by {
        forall k | 0 <= k < |q| - 1 ensures HasEdge(g, q[k], q[k + 1]) {
          assert HasEdge(g, p[k], p[k + 1]);
        }
      }
      WalkFromFinished(g, order, q);
      assert forall k :: 0 <= k < n ==> q[k] == p[k];
      var r := FirstIndex(order, p[n - 1]);
      assert HasEdge(g, order[r], p[n]) by { assert HasEdge(g, p[n - 1], p[n]); }
      FirstIndexBefore(order, p[n], r);
      forall i, j | 0 <= i < j < |p| ensures FirstIndex(order, p[j]) < FirstIndex(order, p[i]) {
        if j < n {
          assert FirstIndex(order, q[j]) < FirstIndex(order, q[i]);
        } else if i < n - 1 {
          assert FirstIndex(order, q[n - 1]) < FirstIndex(order, q[i]);
        }
      }
    }
  }

  /** No cycle is reachable from a finished node. */
  lemma NoCycleFromFinished(g: Graph, order: seq<string>, s: string)
    requires Finished(g, order) && s in order
    ensures !CycleFrom(g, s)
  {
    forall p | IsWalk(g, p) && p[0] == s ensures !HasRepeat(p) {
      WalkFromFinished(g, order, p);
    }
  }

  lemma SubsetCard<T>(a: set<T>, b: set<T>)
    requires a <= b
    ensures |a| <= |b|
    decreases |a|
  {
    if a != {} {
      var x :| x in a;
      SubsetCard(a - {x}, b - {x});
    }
  }

  lemma VisitShrinks(nodes: set<string>, visited: set<string>, now: set<string>, node: string)
    requires node in nodes && node !in visited && visited + {node} <= now
    ensures |nodes - now| < |nodes - visited|
  {
    SubsetCard(nodes - now, nodes - visited - {node});
    assert (nodes - visited - {node}) + {node} == nodes - visited;
  }

  /**
   * The nested `dfs` of `wouldCreateCycle`. `path` is the stack of nodes
   * being explored (the source's `path` set, kept in order), `visited` the
   * nodes ever entered. `order` is the proof's record of the nodes the search
   * has finished with. A node on the stack means a cycle; a node visited
   * before and finished means nothing new; otherwise every neighbour is
   * searched in turn and the node is finished when none reports a cycle.
   */
  method Dfs(g: Graph, ghost source: string, node: string, visited: set<string>, path: seq<string>, ghost order: seq<string>)
    returns (found: bool, visitedOut: set<string>, ghost orderOut: seq<string>)
    requires node in Nodes(g)
    requires path == [] ==> node == source
    requires path != [] ==> IsWalk(g, path) && path[0] == source && HasEdge(g, path[|path| - 1], node)
    requires forall x :: x in visited ==> x in order || x in path
    requires Finished(g, order)
    ensures found ==> CycleFrom(g, source)
    ensures !found ==> && node in orderOut && Finished(g, orderOut) && order <= orderOut && visited <= visitedOut
                       && (forall x :: x in visitedOut ==> x in orderOut || x in path)
    decreases |Nodes(g) - visited|
  {
    if node in path {
      var i :| 0 <= i < |path| && path[i] == node;
      var p := path + [node];
      assert p[i] == p[|path|];
      assert IsWalk(g, p) by {
        forall k | 0 <= k < |p| - 1 ensures HasEdge(g, p[k], p[k + 1]) {
          if k < |path| - 1 {
            assert p[k] == path[k] && p[k + 1] == path[k + 1];
          }
        }
      }
      return true, visited, order;
    }
    if node in visited {
      return false, visited, order;
    }
    var vis := visited + {node};
    var stack := path + [node];
    ghost var ord := order;
    var remaining := if node in g then g[node] else {};
    ghost var all := remaining;
    while remaining != {}
      invariant remaining <= all
      invariant forall v :: v in all && v !in remaining ==> v in ord
      invariant Finished(g, ord) && order <= ord && visited + {node} <= vis
      invariant forall x :: x in vis ==> x in ord || x in stack
      decreases remaining
    {
      var v :| v in remaining;
      assert v in Nodes(g) by { assert HasEdge(g, node, v); }
      assert IsWalk(g, stack) by {
        forall k | 0 <= k < |stack| - 1 ensures HasEdge(g, stack[k], stack[k + 1]) {
          if k < |path| - 1 {
            assert stack[k] == path[k] && stack[k + 1] == path[k + 1];
          }
        }
      }
      VisitShrinks(Nodes(g), visited, vis, node);
      var f, vis2, ord2 := Dfs(g, source, v, vis, stack, ord);
      if f {
        return true, vis2, ord2;
      }
      vis, ord := vis2, ord2;
      remaining := remaining - {v};
    }
    var done := ord + [node];
    assert Finished(g, done) by {
      forall i, v | 0 <= i < |done| && HasEdge(g, done[i], v) ensures v in done[..i] {
        if i < |ord| {
          assert done[..i] == ord[..i];
        } else {
          assert done[..i] == ord;
        }
      }
    }
    return false, vis, done;
  }

  /**
   * `wouldCreateCycle(connections, sourceId, targetId)`: true exactly when,
   * once the new connection is added, a cycle can be reached from its
   * source. The connection list itself is only read.
   */
  method WouldCreateCycle(connections: seq<AppTypes.Connection>, sourceId: string, targetId: string) returns (r: bool)
    ensures r <==> CycleFrom(CycleGraph(connections, sourceId, targetId), sourceId)
  {
    var g := CycleGraph(connections, sourceId, targetId);
    var found: bool;
    var visited: set<string>;
    ghost var order: seq<string>;
    found, visited, order := Dfs(g, sourceId, sourceId, {}, [], []);
    if !found {
      NoCycleFromFinished(g, order, sourceId);
    }
    r := found;
  }

  /** A connection from a node to itself always closes a cycle. */
  lemma SelfLoopCloses(cs: seq<AppTypes.Connection>, s: string)
    ensures CycleFrom(CycleGraph(cs, s, s), s)
  {
    var p := [s, s];
    assert p[0] == p[1];
    assert IsWalk(CycleGraph(cs, s, s), p);
  }

  /** When the target already reaches the source, the new connection closes a cycle. */
  lemma TargetReachingSourceCloses(cs: seq<AppTypes.Connection>, s: string, t: string, p: seq<string>)
    requires IsWalk(Links(cs), p) && p[0] == t && p[|p| - 1] == s
    ensures CycleFrom(CycleGraph(cs, s, t), s)
  {
    var g := CycleGraph(cs, s, t);
    var w := [s] + p;
    assert IsWalk(g, w) by {
      forall k | 0 <= k < |w| - 1 ensures HasEdge(g, w[k], w[k + 1]) {
        if k > 0 {
          assert HasEdge(Links(cs), p[k - 1], p[k]);
        }
      }
    }
    assert w[0] == w[|p|];
  }

  datatype Position = Position(x: real, y: real)

  /** `isPointInRect`: the rectangle includes all four of its edges. */
  function PointInRect(point: Position, rect: Position, width: real, height: real): (b: bool)
    ensures b <==> 0.0 <= point.x - rect.x <= width && 0.0 <= point.y - rect.y <= height
    ensures width < 0.0 || height < 0.0 ==> !b
  {
    && point.x >= rect.x
    && point.x <= rect.x + width
    && point.y >= rect.y
    && point.y <= rect.y + height
  }

  /** All four corners of a rectangle with non-negative sides are inside it. */
  lemma CornersInRect(rect: Position, width: real, height: real)
    requires width >= 0.0 && height >= 0.0
    ensures PointInRect(rect, rect, width, height)
    ensures PointInRect(Position(rect.x + width, rect.y), rect, width, height)
    ensures PointInRect(Position(rect.x, rect.y + height), rect, width, height)
    ensures PointInRect(Position(rect.x + width, rect.y + height), rect, width, height)
  {
  }

  /** Moving the point and the rectangle together does not change the answer. */
  lemma PointInRectTranslates(point: Position, rect: Position, width: real, height: real, dx: real, dy: real)
    ensures PointInRect(Position(point.x + dx, point.y + dy), Position(rect.x + dx, rect.y + dy), width, height)
        <==> PointInRect(point, rect, width, height)
  {
  }
}

=== FILE: checker.dfy ===
/**
 * `WorkflowChecker`: a depth-first walk from the start node over the
 * successor links, checking each node reached once.
 *
 * The walk's order depends on hash-map iteration, which the source leaves
 * unspecified; the model picks entries in any order and states what does
 * not depend on it: which nodes are checked (exactly those reachable from
 * the start), that none is checked twice, and which errors are reported.
 * Errors are kept as a datatype; `ErrorMessage` renders the source's text.
 */
module Checker {
  import opened Wrappers
  import opened Strings
  import opened Schema
  import opened Exceptions
  import opened Tools
  import opened WorkflowModel
  import Engine
  import Context

  // ---------------------------------------------------------------------
  // Errors and the result record
  // ---------------------------------------------------------------------

  /** How an error names a node: its name and its id, either possibly null. */
  datatype NodeRef = NodeRef(name: Option<string>, id: Option<string>)

  function Ref(n: WorkflowNode): NodeRef {
    NodeRef(n.name, n.id)
  }

  datatype CheckError =
    | NullWorkflow
    | StartNotFound(start: Option<string>)
    | NoToolName(node: NodeRef)
    | UnknownTool(node: NodeRef, tool: string)
    | MissingParameter(node: NodeRef, param: string)
    | IncompatibleType(node: NodeRef, param: string, expected: Option<FieldType>, found: Option<string>)
    | MissingParentNode(node: NodeRef, param: string, parent: string)
    | NoConditions(node: NodeRef)
    | NoBranchTargets(node: NodeRef)
    | MissingBranch(node: NodeRef, key: string)
    | NoNextNodes(node: NodeRef)
    | EmptyNextId(node: NodeRef, branch: string)
    | MissingNextNode(node: NodeRef, target: string, branch: string)

  function TypeText(t: Option<FieldType>): string {
    if t.Some? then FieldTypeName(t.value) else "null"
  }

  function Subject(kind: string, n: NodeRef): string {
    kind + " '" + NameText(n.name) + "' (ID: " + NameText(n.id) + ")"
  }

  /** The text `addError` is given for each error. */
  function ErrorMessage(e: CheckError): string {
    match e
    case NullWorkflow => "Workflow cannot be null"
    case StartNotFound(s) => "Start node not found: " + NameText(s)
    case NoToolName(n) => Subject("Function node", n) + " has no tool name specified"
    case UnknownTool(n, t) => Subject("Function node", n) + " references unknown tool: " + t
    case MissingParameter(n, p) => Subject("Function node", n) + " is missing required parameter: " + p
    case IncompatibleType(n, p, x, f) =>
      Subject("Function node", n) + " parameter '" + p + "' has incompatible type. Expected: " + TypeText(x) + ", Found: " + NameText(f)
    case MissingParentNode(n, p, q) => Subject("Function node", n) + " parameter '" + p + "' references non-existent parent node: " + q
    case NoConditions(n) => Subject("Condition node", n) + " has no conditions"
    case NoBranchTargets(n) => Subject("Condition node", n) + " has no next nodes"
    case MissingBranch(n, k) => Subject("Condition node", n) + " is missing branch for: " + k
    case NoNextNodes(n) => Subject("Node", n) + " has no next nodes but is not an END node"
    case EmptyNextId(n, b) => Subject("Node", n) + " has empty next node ID for branch: " + b
    case MissingNextNode(n, t, b) => Subject("Node", n) + " references non-existent next node: " + t + " (branch: " + b + ")"
  }

  /** `ValidationResult`: a validity flag and the errors, in the order found. */
  datatype ValidationResult = ValidationResult(valid: bool, errors: seq<CheckError>)

  function NewValidationResult(): (r: ValidationResult)
    ensures r.valid && r.errors == []
  {
    ValidationResult(true, [])
  }

  /** `addError`: appends the error and clears the flag. */
  function AddError(r: ValidationResult, e: CheckError): (r': ValidationResult)
    ensures r'.errors == r.errors + [e] && !r'.valid
  {
    ValidationResult(false, r.errors + [e])
  }

  /** The flag says exactly whether an error was recorded. */
  predicate Consistent(r: ValidationResult) {
    r.valid <==> r.errors == []
  }

  lemma AddErrorKeepsConsistent(r: ValidationResult, e: CheckError)
    requires Consistent(r)
    ensures Consistent(AddError(r, e)) && |AddError(r, e).errors| == |r.errors| + 1
  {
  }

  function AddAll(r: ValidationResult, es: seq<CheckError>): (r': ValidationResult)
    requires Consistent(r)
    ensures Consistent(r') && r'.errors == r.errors + es
    decreases |es|
  {
    if es == [] then r else AddAll(AddError(r, es[0]), es[1..])
  }

  // ---------------------------------------------------------------------
  // What each node contributes
  // ---------------------------------------------------------------------

  /**
   * `isTypeCompatible(type1, type2)`: both present, and the declared type's
   * name equals the found type ignoring case, or a NUMBER parameter receives
   * "NUMBER" or "INTEGER" in any case.
   */
  function IsTypeCompatible(t: Option<FieldType>, s: Option<string>): (b: bool)
    ensures b ==> t.Some? && s.Some?
    ensures b && t.value != NUMBER ==> EqualsIgnoreCase(FieldTypeName(t.value), s.value)
    ensures t == Some(NUMBER) && s.Some? && EqualsIgnoreCase("INTEGER", s.value) ==> b
    ensures b && t.value == NUMBER ==> EqualsIgnoreCase("NUMBER", s.value) || EqualsIgnoreCase("INTEGER", s.value)
    ensures t.Some? && s.Some? && EqualsIgnoreCase(FieldTypeName(t.value), s.value) ==> b
  {
    t.Some? && s.Some? &&
    (EqualsIgnoreCase(FieldTypeName(t.value), s.value) ||
     (t.value == NUMBER && (EqualsIgnoreCase("NUMBER", s.value) || EqualsIgnoreCase("INTEGER", s.value))))
  }

  lemma LowerTwice(x: string)
    ensures ToLower(ToLower(x)) == ToLower(x)
  {
    assert forall i :: 0 <= i < |x| ==> LowerChar(LowerChar(x[i])) == LowerChar(x[i]);
  }

  /** Every type is compatible with its own name in any case, and only with a present type. */
  lemma TypeCompatibleWithOwnName(t: FieldType, s: string)
    ensures EqualsIgnoreCase(FieldTypeName(t), s) ==> IsTypeCompatible(Some(t), Some(s))
    ensures IsTypeCompatible(Some(t), Some(ToLower(FieldTypeName(t))))
    ensures IsTypeCompatible(Some(t), Some(FieldTypeName(t)))
    ensures !IsTypeCompatible(None, Some(s)) && !IsTypeCompatible(Some(t), None)
  {
    LowerTwice(FieldTypeName(t));
  }

  /** "INTEGER", in any case, is accepted by a NUMBER parameter and by no other. */
  lemma IntegerOnlyForNumber(t: FieldType, s: string)
    requires EqualsIgnoreCase(s, "INTEGER")
    ensures IsTypeCompatible(Some(t), Some(s)) <==> t == NUMBER
  {
    assert ToLower(s)[0] == ToLower("INTEGER")[0] == 'i';
    var name := FieldTypeName(t);
    assert |name| > 0 && name[0] != 'I' && name[0] != 'i' && ToLower(name)[0] == LowerChar(name[0]);
    assert !EqualsIgnoreCase(name, s);
    if t == NUMBER {
      assert EqualsIgnoreCase("INTEGER", s);
    }
  }

  /** The check of one required parameter, with parent nodes found by `FindNode`. */
  function ParamError(w: Workflow, n: WorkflowNode, p: string, def: FieldDef): Option<CheckError> {
    if !def.required then None
    else
      match GetInputMapping(n, p)
      case None => Some(MissingParameter(Ref(n), p))
      case Some(v) =>
        if !v.value.Null? || !v.defaultValue.Null? then
          if IsTypeCompatible(def.ftype, v.vtype) then None
          else Some(IncompatibleType(Ref(n), p, def.ftype, v.vtype))
        else if v.parent.Some? && v.parent.value != "" && v.parent.value != "global"
                && FindNode(w.nodes, v.parent.value).None? then
          Some(MissingParentNode(Ref(n), p, v.parent.value))
        else None
  }

  /** The same check as the source runs it: the parent lookup can throw. */
  function CheckParam(w: Workflow, n: WorkflowNode, p: string, def: FieldDef): (r: Result<Option<CheckError>>)
    ensures r.Ok? ==> r.value == ParamError(w, n, p, def)
    ensures r.Err? ==> !IdsPresent(w.nodes)
    ensures IdsPresent(w.nodes) ==> r.Ok?
  {
    if !def.required then Ok(None)
    else
      match GetInputMapping(n, p)
      case None => Ok(Some(MissingParameter(Ref(n), p)))
      case Some(v) =>
        if !v.value.Null? || !v.defaultValue.Null? then
          Ok(if IsTypeCompatible(def.ftype, v.vtype) then None else Some(IncompatibleType(Ref(n), p, def.ftype, v.vtype)))
        else if v.parent.Some? && v.parent.value != "" && v.parent.value != "global" then
          match GetNodeById(w.nodes, v.parent)
          case Err(e) => Err(e)
          case Ok(found) =>
            Ok(if found.None? then Some(MissingParentNode(Ref(n), p, v.parent.value)) else None)
        else Ok(None)
  }

  function ParamErrors(w: Workflow, n: WorkflowNode, params: map<string, FieldDef>, done: set<string>): set<CheckError> {
    set p | p in done && p in params && ParamError(w, n, p, params[p]).Some? :: ParamError(w, n, p, params[p]).value
  }

  /** `validateFunctionNode`: the tool must be named and known to the workflow; each required input must be mapped. */
  function FunctionErrors(w: Workflow, n: WorkflowNode): set<CheckError> {
    if n.toolName.None? || n.toolName.value == "" then {NoToolName(Ref(n))}
    else
      match GetToolDefinition(w, n.toolName)
      case None => {UnknownTool(Ref(n), n.toolName.value)}
      case Some(td) =>
        if td.inputs.None? then {} else ParamErrors(w, n, td.inputs.value, td.inputs.value.Keys)
  }

  /** The branch keys a condition node with `count` cases must have: "case1" … "caseN" and "else". */
  function BranchKeys(count: nat): set<string> {
    (set i | 0 <= i < count :: Engine.CaseKey(i)) + {"else"}
  }

  /** `validateConditionNode`: cases must exist, successors must exist, and every branch key must be present. */
  function ConditionErrors(n: WorkflowNode): set<CheckError> {
    if n.conditions == [] then {NoConditions(Ref(n))}
    else if n.nextNodes == map[] then {NoBranchTargets(Ref(n))}
    else MissingBranches(n, BranchKeys(|n.conditions|))
  }

  function MissingBranches(n: WorkflowNode, keys: set<string>): set<CheckError> {
    set k | k in keys && k !in n.nextNodes :: MissingBranch(Ref(n), k)
  }

  function TypeErrors(w: Workflow, n: WorkflowNode): set<CheckError> {
    if n.ntype == Some(FUNCTION) then FunctionErrors(w, n)
    else if n.ntype == Some(CONDITION) then ConditionErrors(n)
    else {}
  }

  /** The check of one successor link, with targets found by `FindNode`. */
  function BranchError(w: Workflow, n: WorkflowNode, k: string): Option<CheckError>
    requires k in n.nextNodes
  {
    var t := n.nextNodes[k];
    if t.None? || t.value == "" then Some(EmptyNextId(Ref(n), k))
    else if FindNode(w.nodes, t.value).None? then Some(MissingNextNode(Ref(n), t.value, k))
    else None
  }

  function BranchErrors(w: Workflow, n: WorkflowNode, done: set<string>): set<CheckError> {
    set k | k in done && k in n.nextNodes && BranchError(w, n, k).Some? :: BranchError(w, n, k).value
  }

  /** `validateNextNodes`, apart from the recursion: a non-END node needs successors, each non-empty and existing. */
  function NextErrors(w: Workflow, n: WorkflowNode): set<CheckError> {
    if n.nextNodes == map[] then {NoNextNodes(Ref(n))}
    else BranchErrors(w, n, n.nextNodes.Keys)
  }

  /** Everything checking the node with id `id` reports about it. */
  function NodeErrors(w: Workflow, id: string): set<CheckError> {
    match FindNode(w.nodes, id)
    case None => {}
    case Some(n) => TypeErrors(w, n) + (if n.ntype == Some(END) then {} else NextErrors(w, n))
  }

  function ErrorsOf(w: Workflow, ids: set<string>): set<CheckError> {
    set id, e | id in ids && e in NodeErrors(w, id) :: e
  }

  // ---------------------------------------------------------------------
  // The graph the walk follows
  // ---------------------------------------------------------------------

  /** The successors of `n` the walk descends into: non-empty ids of existing nodes. */
  function SuccOf(w: Workflow, n: WorkflowNode): set<string> {
    set k | k in n.nextNodes && n.nextNodes[k].Some? && n.nextNodes[k].value != "" &&
            FindNode(w.nodes, n.nextNodes[k].value).Some? :: n.nextNodes[k].value
  }

  /** The successors of the node with id `id`; an END node's links are not followed. */
  function Succ(w: Workflow, id: string): set<string> {
    match FindNode(w.nodes, id)
    case None => {}
    case Some(n) => if n.ntype == Some(END) then {} else SuccOf(w, n)
  }

  predicate IsPath(w: Workflow, p: seq<string>) {
    |p| >= 1 && forall i :: 0 <= i < |p| - 1 ==> p[i + 1] in Succ(w, p[i])
  }

  ghost predicate Reachable(w: Workflow, s: string, x: string) {
    exists p :: IsPath(w, p) && p[0] == s && p[|p| - 1] == x
  }

  function AllIds(w: Workflow): set<string> {
    set i | 0 <= i < |w.nodes| && w.nodes[i].id.Some? :: w.nodes[i].id.value
  }

  /** Every node has an id and a type: nothing the walk touches can throw. */
  predicate WellFormed(w: Workflow) {
    IdsPresent(w.nodes) && forall i :: 0 <= i < |w.nodes| ==> w.nodes[i].ntype.Some?
  }

  function SetOf<T>(s: seq<T>): set<T> {
    set x | x in s
  }

  predicate Distinct<T(==)>(s: seq<T>) {
    forall i, j :: 0 <= i < j < |s| ==> s[i] != s[j]
  }

  // ---------------------------------------------------------------------
  // Helper facts
  // ---------------------------------------------------------------------

  lemma FoundIsKnown(w: Workflow, id: string, n: WorkflowNode)
    requires FindNode(w.nodes, id) == Some(n)
    ensures id in AllIds(w)
  {
    var i :| 0 <= i < |w.nodes| && w.nodes[i] == n;
  }

  lemma ErrorsOfUnion(w: Workflow, a: set<string>, b: set<string>)
    ensures ErrorsOf(w, a + b) == ErrorsOf(w, a) + ErrorsOf(w, b)
  {
  }

  lemma ErrorsOfSingle(w: Workflow, id: string)
    ensures ErrorsOf(w, {id}) == NodeErrors(w, id)
  {
  }

  lemma ReachSelf(w: Workflow, s: string)
    ensures Reachable(w, s, s)
  {
    assert IsPath(w, [s]);
  }

  lemma ReachStep(w: Workflow, s: string, t: string, x: string)
    requires t in Succ(w, s) && Reachable(w, t, x)
    ensures Reachable(w, s, x)
  {
    var p :| IsPath(w, p) && p[0] == t && p[|p| - 1] == x;
    var q := [s] + p;
    assert forall i :: 1 <= i < |q| ==> q[i] == p[i - 1];
    assert IsPath(w, q);
  }

  /** A set that holds `s` and is closed under successors holds everything reachable from `s`. */
  lemma ClosedHoldsReachable(w: Workflow, c: set<string>, s: string, x: string)
    requires s in c && forall y :: y in c ==> Succ(w, y) <= c
    requires Reachable(w, s, x)
    ensures x in c
  {
    var p :| IsPath(w, p) && p[0] == s && p[|p| - 1] == x;
    var i := 0;
    while i < |p| - 1
      invariant 0 <= i <= |p| - 1 && p[i] in c
    {
      i := i + 1;
    }
  }

  /** Regrouping the error sets of one loop iteration. */
  lemma Regroup<T>(after: set<T>, before: set<T>, start: set<T>, done: set<T>, step: set<T>, done': set<T>,
                   walked: set<T>, more: set<T>, walked': set<T>)
    requires before == start + done + walked && after == before + step + more
    requires done' == done + step && walked' == walked + more
    ensures after == start + done' + walked'
  {
  }

  lemma SetOfAppend<T>(s: seq<T>, x: T)
    ensures SetOf(s + [x]) == SetOf(s) + {x}
  {
  }

  lemma DistinctAppend<T>(a: seq<T>, b: seq<T>)
    requires Distinct(a) && Distinct(b) && SetOf(a) !! SetOf(b)
    ensures Distinct(a + b) && SetOf(a + b) == SetOf(a) + SetOf(b)
  {
    forall i, j | 0 <= i < j < |a + b| ensures (a + b)[i] != (a + b)[j] {
      if j >= |a| && i < |a| {
        assert (a + b)[i] in SetOf(a);
        assert (a + b)[j] == b[j - |a|] && b[j - |a|] in SetOf(b);
      } else if i >= |a| {
        assert (a + b)[i] == b[i - |a|] && (a + b)[j] == b[j - |a|];
      }
    }
  }

  lemma ShrinkingMeasure(all: set<string>, v: set<string>, v': set<string>)
    requires v <= v'
    ensures |all - v'| <= |all - v|
  {
    assert all - v' <= all - v;
    SubsetCard(all - v', all - v);
  }

  lemma SubsetCard<T>(a: set<T>, b: set<T>)
    requires a <= b
    ensures |a| <= |b|
  {
    assert b == a + (b - a);
  }

  lemma AddingShrinks(all: set<string>, v: set<string>, id: string)
    requires id in all && id !in v
    ensures |all - (v + {id})| < |all - v|
  {
    assert all - v == (all - (v + {id})) + {id};
  }

  lemma ParamErrorsStep(w: Workflow, n: WorkflowNode, params: map<string, FieldDef>, done: set<string>, p: string)
    requires p in params
    ensures ParamErrors(w, n, params, done + {p}) ==
              ParamErrors(w, n, params, done) +
              (if ParamError(w, n, p, params[p]).Some? then {ParamError(w, n, p, params[p]).value} else {})
  {
  }

  lemma MissingBranchesStep(n: WorkflowNode, done: set<string>, k: string)
    ensures MissingBranches(n, done + {k}) ==
              MissingBranches(n, done) + (if k !in n.nextNodes then {MissingBranch(Ref(n), k)} else {})
  {
  }

  lemma BranchErrorsStep(w: Workflow, n: WorkflowNode, done: set<string>, k: string)
    requires k in n.nextNodes
    ensures BranchErrors(w, n, done + {k}) == BranchErrors(w, n, done) + AsSet(BranchError(w, n, k))
  {
  }

  // ---------------------------------------------------------------------
  // The walk
  // ---------------------------------------------------------------------

  /** `validateFunctionNode`, iterating the tool's inputs in any order. `false`: a lookup threw. */
  method ValidateFunctionNode(w: Workflow, n: WorkflowNode) returns (ok: bool, errs: seq<CheckError>)
    ensures ok ==> SetOf(errs) == FunctionErrors(w, n)
    ensures !ok ==> !IdsPresent(w.nodes)
    ensures IdsPresent(w.nodes) ==> ok
  {
    if n.toolName.None? || n.toolName.value == "" {
      return true, [NoToolName(Ref(n))];
    }
    var td := GetToolDefinition(w, n.toolName);
    if td.None? {
      return true, [UnknownTool(Ref(n), n.toolName.value)];
    }
    if td.value.inputs.None? {
      return true, [];
    }
    var params := td.value.inputs.value;
    var keys := params.Keys;
    errs := [];
    while keys != {}
      invariant keys <= params.Keys
      invariant SetOf(errs) == ParamErrors(w, n, params, params.Keys - keys)
      decreases |keys|
    {
      var p :| p in keys;
      var c := CheckParam(w, n, p, params[p]);
      if c.Err? {
        return false, errs;
      }
      ghost var done := params.Keys - keys;
      ParamErrorsStep(w, n, params, done, p);
      if c.value.Some? {
        SetOfAppend(errs, c.value.value);
        errs := errs + [c.value.value];
      }
      assert params.Keys - (keys - {p}) == done + {p};
      keys := keys - {p};
    }
    assert params.Keys - keys == params.Keys;
    return true, errs;
  }

  /** `validateConditionNode`, iterating the expected branch keys in any order. */
  method ValidateConditionNode(n: WorkflowNode) returns (errs: seq<CheckError>)
    ensures SetOf(errs) == ConditionErrors(n)
  {
    if n.conditions == [] {
      return [NoConditions(Ref(n))];
    }
    if n.nextNodes == map[] {
      return [NoBranchTargets(Ref(n))];
    }
    var expected := BranchKeys(|n.conditions|);
    var keys := expected;
    errs := [];
    while keys != {}
      invariant keys <= expected
      invariant SetOf(errs) == MissingBranches(n, expected - keys)
      decreases |keys|
    {
      var k :| k in keys;
      ghost var done := expected - keys;
      MissingBranchesStep(n, done, k);
      if k !in n.nextNodes {
        SetOfAppend(errs, MissingBranch(Ref(n), k));
        errs := errs + [MissingBranch(Ref(n), k)];
      }
      assert expected - (keys - {k}) == done + {k};
      keys := keys - {k};
    }
    assert expected - keys == expected;
  }

  /**
   * What a walk from `id` adds to the visited set, going from `visited` to
   * `cur` and listing the new nodes in `order`: each new node is reachable
   * from `id`, its successors are all visited, and it is listed once.
   */
  ghost predicate Grown(w: Workflow, id: string, visited: set<string>, cur: set<string>, order: seq<string>) {
    && visited <= cur <= AllIds(w)
    && (forall x :: x in cur - visited ==> Succ(w, x) <= cur)
    && (forall x :: x in cur - visited ==> Reachable(w, id, x))
    && Distinct(order) && SetOf(order) == cur - visited
  }

  lemma GrownNothing(w: Workflow, id: string, visited: set<string>)
    requires visited <= AllIds(w)
    ensures Grown(w, id, visited, visited, [])
  {
  }

  /** A walk from a successor `t` of `id`, continuing a walk from `id`, is part of the walk from `id`. */
  lemma GrownThrough(w: Workflow, id: string, t: string, visited: set<string>, cur: set<string>, order: seq<string>,
                     cur': set<string>, order': seq<string>)
    requires t in Succ(w, id)
    requires Grown(w, id, visited, cur, order) && Grown(w, t, cur, cur', order')
    ensures Grown(w, id, visited, cur', order + order')
  {
    forall x | x in cur' - cur ensures Reachable(w, id, x) {
      ReachStep(w, id, t, x);
    }
    DistinctAppend(order, order');
  }

  /** Marking `id` and then walking its successors is a walk from `id`. */
  lemma GrownFrom(w: Workflow, id: string, visited: set<string>, cur: set<string>, order: seq<string>)
    requires id in AllIds(w) && id !in visited
    requires Grown(w, id, visited + {id}, cur, order) && Succ(w, id) <= cur
    ensures Grown(w, id, visited, cur, [id] + order)
  {
    ReachSelf(w, id);
    assert SetOf([id]) == {id};
    DistinctAppend([id], order);
  }

  /** The errors of the nodes added by two successive walks. */
  lemma ErrorsOfGrowth(w: Workflow, a: set<string>, b: set<string>, c: set<string>)
    requires a <= b <= c
    ensures ErrorsOf(w, c - a) == ErrorsOf(w, b - a) + ErrorsOf(w, c - b)
  {
    assert c - a == (b - a) + (c - b);
    ErrorsOfUnion(w, b - a, c - b);
  }

  function AsSet(e: Option<CheckError>): set<CheckError> {
    if e.Some? then {e.value} else {}
  }

  /** The targets of the links in `done` that the walk descends into. */
  function Targets(w: Workflow, n: WorkflowNode, done: set<string>): set<string> {
    set k | k in done && k in n.nextNodes && n.nextNodes[k].Some? && n.nextNodes[k].value != "" &&
            FindNode(w.nodes, n.nextNodes[k].value).Some? :: n.nextNodes[k].value
  }

  lemma TargetsStep(w: Workflow, n: WorkflowNode, done: set<string>, k: string)
    requires k in n.nextNodes
    ensures Targets(w, n, done + {k}) ==
              Targets(w, n, done) +
              (if n.nextNodes[k].Some? && n.nextNodes[k].value != "" && FindNode(w.nodes, n.nextNodes[k].value).Some?
               then {n.nextNodes[k].value} else {})
  {
  }

  /** The `switch` in `validateNode`: FUNCTION and CONDITION nodes get their own checks. */
  method CheckNodeType(w: Workflow, n: WorkflowNode) returns (ok: bool, errs: seq<CheckError>)
    ensures ok ==> SetOf(errs) == TypeErrors(w, n)
    ensures !ok ==> !IdsPresent(w.nodes)
    ensures IdsPresent(w.nodes) ==> ok
  {
    if n.ntype == Some(FUNCTION) {
      ok, errs := ValidateFunctionNode(w, n);
    } else if n.ntype == Some(CONDITION) {
      errs := ValidateConditionNode(n);
      ok := true;
    } else {
      ok, errs := true, [];
    }
  }

  lemma NodeErrorsOf(w: Workflow, id: string, n: WorkflowNode)
    requires FindNode(w.nodes, id) == Some(n)
    ensures ErrorsOf(w, {id}) == TypeErrors(w, n) + (if n.ntype == Some(END) then {} else NextErrors(w, n))
  {
    ErrorsOfSingle(w, id);
  }

  lemma SetOfConcat<T>(a: seq<T>, b: seq<T>)
    ensures SetOf(a + b) == SetOf(a) + SetOf(b)
  {
  }

  /** Regrouping the error sets of one checked node. */
  lemma RegroupNode<T>(after: set<T>, marked: set<T>, start: set<T>, own: set<T>, next: set<T>, more: set<T>,
                       node: set<T>, all: set<T>)
    requires marked == start + own && after == marked + next + more
    requires node == own + next && all == node + more
    ensures after == start + all
  {
  }

  /**
   * `validateNode`: a node already visited is skipped; otherwise it is
   * marked, checked according to its type, and, unless it is an END node,
   * its successors are walked. `order` lists the nodes newly checked.
   */
  method ValidateNode(w: Workflow, id: string, n: WorkflowNode, visited: set<string>, errors: seq<CheckError>)
    returns (ok: bool, visited': set<string>, errors': seq<CheckError>, order: seq<string>)
    requires FindNode(w.nodes, id) == Some(n)
    requires visited <= AllIds(w)
    ensures WellFormed(w) ==> ok
    ensures !ok ==> !WellFormed(w)
    ensures ok ==> Grown(w, id, visited, visited', order) && id in visited'
    ensures ok ==> SetOf(errors') == SetOf(errors) + ErrorsOf(w, visited' - visited)
    ensures ok && id !in visited ==> |order| > 0 && order[0] == id
    decreases |AllIds(w) - visited|, 0
  {
    if id in visited {
      GrownNothing(w, id, visited);
      assert visited - visited == {};
      return true, visited, errors, [];
    }
    FoundIsKnown(w, id, n);
    var v1 := visited + {id};
    assert v1 - visited == {id};
    if n.ntype.None? {
      var i :| 0 <= i < |w.nodes| && w.nodes[i] == n;
      return false, v1, errors, [id];
    }
    var okT, typeErrs := CheckNodeType(w, n);
    if !okT {
      return false, v1, errors, [id];
    }
    var e1 := errors + typeErrs;
    SetOfConcat(errors, typeErrs);
    NodeErrorsOf(w, id, n);
    if n.ntype == Some(END) {
      GrownNothing(w, id, v1);
      GrownFrom(w, id, visited, v1, []);
      return true, v1, e1, [id];
    }
    AddingShrinks(AllIds(w), visited, id);
    var okN, v2, e2, o2 := ValidateNextNodes(w, id, n, v1, e1);
    if !okN {
      return false, v2, e2, [id] + o2;
    }
    GrownFrom(w, id, visited, v2, o2);
    ErrorsOfGrowth(w, visited, v1, v2);
    RegroupNode(SetOf(e2), SetOf(e1), SetOf(errors), TypeErrors(w, n), NextErrors(w, n), ErrorsOf(w, v2 - v1),
                ErrorsOf(w, v1 - visited), ErrorsOf(w, v2 - visited));
    return true, v2, e2, [id] + o2;
  }

  /**
   * `validateNextNodes`: a node with no successors is an error; each link
   * with an empty or dangling target is an error; every other target is
   * walked, in any order.
   */
  method ValidateNextNodes(w: Workflow, id: string, n: WorkflowNode, visited: set<string>, errors: seq<CheckError>)
    returns (ok: bool, visited': set<string>, errors': seq<CheckError>, order: seq<string>)
    requires FindNode(w.nodes, id) == Some(n) && n.ntype != Some(END)
    requires visited <= AllIds(w) && id in visited
    ensures WellFormed(w) ==> ok
    ensures !ok ==> !WellFormed(w)
    ensures ok ==> Grown(w, id, visited, visited', order) && Succ(w, id) <= visited'
    ensures ok ==> SetOf(errors') == SetOf(errors) + NextErrors(w, n) + ErrorsOf(w, visited' - visited)
    decreases |AllIds(w) - visited|, 2
  {
    GrownNothing(w, id, visited);
    if n.nextNodes == map[] {
      NoNextNodesErrors(w, n, visited, errors);
      return true, visited, errors + [NoNextNodes(Ref(n))], [];
    }
    var keys := n.nextNodes.Keys;
    var cur := visited;
    var errs := errors;
    order := [];
    while keys != {}
      invariant keys <= n.nextNodes.Keys
      invariant Grown(w, id, visited, cur, order)
      invariant SetOf(errs) == SetOf(errors) + BranchErrors(w, n, n.nextNodes.Keys - keys) + ErrorsOf(w, cur - visited)
      invariant Targets(w, n, n.nextNodes.Keys - keys) <= cur
      decreases |keys|
    {
      var k :| k in keys;
      ShrinkingMeasure(AllIds(w), visited, cur);
      var okB, c2, e2, o2 := WalkBranch(w, id, n, k, cur, errs);
      if !okB {
        return false, c2, e2, order + o2;
      }
      NextNodesStep(w, id, n, visited, errors, keys, k, cur, errs, order, c2, e2, o2);
      cur, errs, order := c2, e2, order + o2;
      keys := keys - {k};
    }
    AllTargets(w, id, n, keys);
    return true, cur, errs, order;
  }

  /** A node without links reports exactly that, and walks nothing. */
  lemma NoNextNodesErrors(w: Workflow, n: WorkflowNode, visited: set<string>, errors: seq<CheckError>)
    requires n.nextNodes == map[]
    ensures SetOf(errors + [NoNextNodes(Ref(n))]) == SetOf(errors) + NextErrors(w, n) + ErrorsOf(w, visited - visited)
  {
    assert visited - visited == {};
    SetOfAppend(errors, NoNextNodes(Ref(n)));
  }

  /**
   * Once every link is done, the targets walked are all the node's
   * successors and the link errors are all the node's own.
   */
  lemma AllTargets(w: Workflow, id: string, n: WorkflowNode, keys: set<string>)
    requires FindNode(w.nodes, id) == Some(n) && n.ntype != Some(END) && keys == {} && n.nextNodes != map[]
    ensures Succ(w, id) == Targets(w, n, n.nextNodes.Keys - keys)
    ensures BranchErrors(w, n, n.nextNodes.Keys - keys) == NextErrors(w, n)
  {
    assert n.nextNodes.Keys - keys == n.nextNodes.Keys;
  }

  /** One link of `validateNextNodes` walked: the loop's invariants hold with `k` done. */
  lemma NextNodesStep(w: Workflow, id: string, n: WorkflowNode, visited: set<string>, errors: seq<CheckError>,
                      keys: set<string>, k: string, cur: set<string>, errs: seq<CheckError>, order: seq<string>,
                      cur': set<string>, errs': seq<CheckError>, order': seq<string>)
    requires FindNode(w.nodes, id) == Some(n) && n.ntype != Some(END)
    requires k in keys && keys <= n.nextNodes.Keys
    requires Grown(w, id, visited, cur, order)
    requires SetOf(errs) == SetOf(errors) + BranchErrors(w, n, n.nextNodes.Keys - keys) + ErrorsOf(w, cur - visited)
    requires Targets(w, n, n.nextNodes.Keys - keys) <= cur
    requires (cur' == cur && order' == []) ||
             (n.nextNodes[k].Some? && n.nextNodes[k].value in Succ(w, id) && Grown(w, n.nextNodes[k].value, cur, cur', order'))
    requires cur <= cur'
    requires SetOf(errs') == SetOf(errs) + AsSet(BranchError(w, n, k)) + ErrorsOf(w, cur' - cur)
    requires n.nextNodes[k].Some? && n.nextNodes[k].value != "" && FindNode(w.nodes, n.nextNodes[k].value).Some? ==>
               n.nextNodes[k].value in cur'
    ensures Grown(w, id, visited, cur', order + order')
    ensures SetOf(errs') == SetOf(errors) + BranchErrors(w, n, n.nextNodes.Keys - (keys - {k})) + ErrorsOf(w, cur' - visited)
    ensures Targets(w, n, n.nextNodes.Keys - (keys - {k})) <= cur'
  {
    var done := n.nextNodes.Keys - keys;
    assert n.nextNodes.Keys - (keys - {k}) == done + {k};
    GrownThroughBranch(w, id, n, k, visited, cur, order, cur', order');
    assert Targets(w, n, done + {k}) <= cur' by {
      TargetsStep(w, n, done, k);
    }
    assert SetOf(errs') == SetOf(errors) + BranchErrors(w, n, done + {k}) + ErrorsOf(w, cur' - visited) by {
      BranchErrorsStep(w, n, done, k);
      ErrorsOfGrowth(w, visited, cur, cur');
      Regroup(SetOf(errs'), SetOf(errs), SetOf(errors), BranchErrors(w, n, done), AsSet(BranchError(w, n, k)),
              BranchErrors(w, n, done + {k}), ErrorsOf(w, cur - visited), ErrorsOf(w, cur' - cur), ErrorsOf(w, cur' - visited));
    }
  }

  /** A walk down one link of `id` continues the walk from `id`. */
  lemma GrownThroughBranch(w: Workflow, id: string, n: WorkflowNode, k: string, visited: set<string>,
                           cur: set<string>, order: seq<string>, cur': set<string>, order': seq<string>)
    requires FindNode(w.nodes, id) == Some(n) && n.ntype != Some(END) && k in n.nextNodes
    requires Grown(w, id, visited, cur, order)
    requires (cur' == cur && order' == []) ||
             (n.nextNodes[k].Some? && n.nextNodes[k].value in Succ(w, id) && Grown(w, n.nextNodes[k].value, cur, cur', order'))
    ensures Grown(w, id, visited, cur', order + order')
  {
    if !(cur' == cur && order' == []) {
      GrownThrough(w, id, n.nextNodes[k].value, visited, cur, order, cur', order');
    } else {
      assert order + order' == order;
    }
  }

  /** One iteration of `validateNextNodes`: checks the link `k` and walks its target if it exists. */
  method WalkBranch(w: Workflow, id: string, n: WorkflowNode, k: string, cur: set<string>, errs: seq<CheckError>)
    returns (ok: bool, cur': set<string>, errs': seq<CheckError>, order: seq<string>)
    requires FindNode(w.nodes, id) == Some(n) && n.ntype != Some(END) && k in n.nextNodes
    requires cur <= AllIds(w)
    ensures WellFormed(w) ==> ok
    ensures !ok ==> !WellFormed(w)
    ensures ok ==> (cur' == cur && order == []) ||
                   (n.nextNodes[k].Some? && n.nextNodes[k].value in Succ(w, id) && Grown(w, n.nextNodes[k].value, cur, cur', order))
    ensures ok ==> cur <= cur'
    ensures ok ==> SetOf(errs') == SetOf(errs) + AsSet(BranchError(w, n, k)) + ErrorsOf(w, cur' - cur)
    ensures ok && n.nextNodes[k].Some? && n.nextNodes[k].value != "" && FindNode(w.nodes, n.nextNodes[k].value).Some? ==>
              n.nextNodes[k].value in cur'
    decreases |AllIds(w) - cur|, 1
  {
    var t := n.nextNodes[k];
    assert cur - cur == {};
    if t.None? || t.value == "" {
      SetOfAppend(errs, EmptyNextId(Ref(n), k));
      return true, cur, errs + [EmptyNextId(Ref(n), k)], [];
    }
    var found := GetNodeById(w.nodes, t);
    if found.Err? {
      return false, cur, errs, [];
    }
    if found.value.None? {
      SetOfAppend(errs, MissingNextNode(Ref(n), t.value, k));
      return true, cur, errs + [MissingNextNode(Ref(n), t.value, k)], [];
    }
    assert t.value in Succ(w, id);
    ok, cur', errs', order := ValidateNode(w, t.value, found.value.value, cur, errs);
  }

  /** The start node the walk begins at: the argument, or the workflow's own when none is given. */
  function StartId(w: Workflow, startNodeId: Option<string>): Option<string> {
    if startNodeId.None? || startNodeId.value == "" then w.startNodeId else startNodeId
  }

  /**
   * `validateWorkflow(workflow, startNodeId)`. `checked` lists the ids of
   * the nodes checked, in order. Every node reachable from the start is
   * checked exactly once and no other node is; the errors are exactly what
   * those nodes contribute.
   */
  method ValidateWorkflow(w: Option<Workflow>, startNodeId: Option<string>)
    returns (r: Result<ValidationResult>, checked: seq<string>)
    ensures w.None? ==> r == Ok(ValidationResult(false, [NullWorkflow])) && checked == []
    ensures w.Some? && WellFormed(w.value) ==> r.Ok?
    ensures r.Err? ==> w.Some? && !WellFormed(w.value)
    ensures r.Ok? ==> Consistent(r.value)
    ensures r.Ok? && w.Some? && (StartId(w.value, startNodeId).None? || FindNode(w.value.nodes, StartId(w.value, startNodeId).value).None?) ==>
              r.value.errors == [StartNotFound(StartId(w.value, startNodeId))] && checked == []
    ensures r.Ok? && w.Some? && StartId(w.value, startNodeId).Some? && FindNode(w.value.nodes, StartId(w.value, startNodeId).value).Some? ==>
              var s := StartId(w.value, startNodeId).value;
              && |checked| > 0 && checked[0] == s
              && Distinct(checked)
              && (forall x :: x in checked <==> Reachable(w.value, s, x))
              && SetOf(r.value.errors) == ErrorsOf(w.value, SetOf(checked))
  {
    var result := NewValidationResult();
    if w.None? {
      assert [] + [NullWorkflow] == [NullWorkflow];
      return Ok(AddError(result, NullWorkflow)), [];
    }
    var wf := w.value;
    var start := StartId(wf, startNodeId);
    var found := GetNodeById(wf.nodes, start);
    if found.Err? {
      return Err(found.error), [];
    }
    if found.value.None? {
      return Ok(AddError(result, StartNotFound(start))), [];
    }
    var s := start.value;
    var n := found.value.value;
    var ok, visited, errs, order := ValidateNode(wf, s, n, {}, []);
    if !ok {
      return Err(NullPointer), order;
    }
    assert visited - {} == visited;
    forall x ensures x in order <==> Reachable(wf, s, x) {
      if Reachable(wf, s, x) {
        ClosedHoldsReachable(wf, visited, s, x);
      }
    }
    return Ok(AddAll(result, errs)), order;
  }

  // ---------------------------------------------------------------------
  // What a clean check guarantees the engine
  // ---------------------------------------------------------------------

  lemma NodeErrorsInErrorsOf(w: Workflow, ids: set<string>, id: string)
    requires id in ids
    ensures NodeErrors(w, id) <= ErrorsOf(w, ids)
  {
  }

  lemma MissingBranchesMembers(n: WorkflowNode, keys: set<string>)
    ensures forall k :: k in keys && k !in n.nextNodes ==> MissingBranch(Ref(n), k) in MissingBranches(n, keys)
  {
  }

  lemma BranchErrorsMembers(w: Workflow, n: WorkflowNode, keys: set<string>)
    ensures forall k :: k in keys && k in n.nextNodes && BranchError(w, n, k).Some? ==>
              BranchError(w, n, k).value in BranchErrors(w, n, keys)
  {
  }

  /**
   * A condition node checked without errors has a successor for every
   * branch the engine can select: whatever "caseN" or "else" its
   * evaluation returns names a non-empty link to a node that exists.
   */
  lemma CleanConditionNodeHasBranch(env: Engine.Env, ctx: Context.WorkflowContext, w: Workflow, ids: set<string>,
                                    id: string, n: WorkflowNode)
    requires id in ids && ErrorsOf(w, ids) == {}
    requires FindNode(w.nodes, id) == Some(n) && n.ntype == Some(CONDITION)
    ensures var r := Engine.EvaluateCondition(env, ctx, n);
            !HasError(r) ==>
              && r.matchedCase.Some? && r.matchedCase.value in n.nextNodes
              && n.nextNodes[r.matchedCase.value].Some? && n.nextNodes[r.matchedCase.value].value != ""
              && FindNode(w.nodes, n.nextNodes[r.matchedCase.value].value).Some?
  {
    NodeErrorsInErrorsOf(w, ids, id);
    MissingBranchesMembers(n, BranchKeys(|n.conditions|));
    BranchErrorsMembers(w, n, n.nextNodes.Keys);
  }

  /**
   * A clean check means every non-END node it reached has successors,
   * each of which names a node that exists.
   */
  lemma CleanNodeHasSuccessors(w: Workflow, ids: set<string>, id: string, n: WorkflowNode, k: string)
    requires id in ids && ErrorsOf(w, ids) == {}
    requires FindNode(w.nodes, id) == Some(n) && n.ntype != Some(END)
    ensures n.nextNodes != map[]
    ensures k in n.nextNodes ==> n.nextNodes[k].Some? && n.nextNodes[k].value != "" && FindNode(w.nodes, n.nextNodes[k].value).Some?
  {
    NodeErrorsInErrorsOf(w, ids, id);
    BranchErrorsMembers(w, n, n.nextNodes.Keys);
  }
}

=== FILE: conditions.dfy ===
/**
 * The condition evaluator that lives on the model classes themselves:
 * `Condition.evaluate`, `ConditionCase.evaluate` and
 * `WorkflowNode.evaluateConditions`. (The engine has its own evaluator,
 * with different rules; see module `Engine`.)
 *
 * `toString` of a value that is not a string, an integer or a boolean is
 * left to the `render` parameter.
 */
module ConditionEval {
  import opened Wrappers
  import opened Strings
  import opened Schema
  import opened Exceptions
  import opened WorkflowModel

  /** `value.toString()`. */
  function ToText(v: Value, render: Value -> string): string {
    match v
    case Str(s) => s
    case Int(i) => IntToString(i)
    case Bool(b) => if b then "true" else "false"
    case _ => render(v)
  }

  /**
   * `convertToAppropriateType(value, type)`: "string", "number" and
   * "boolean" (in any case) convert; a number that does not parse, a
   * null type (whose `toLowerCase` throws inside the `try`) or any other
   * type leave the value as it is.
   */
  function Convert(v: Value, t: Option<string>, render: Value -> string): (r: Value)
    ensures t.None? ==> r == v
    ensures t.Some? && ToLower(t.value) == "string" ==> r == Str(ToText(v, render))
    ensures t.Some? && ToLower(t.value) == "number" && v.IsNumber() ==> r == Dbl(v.DoubleValue())
    ensures t.Some? && ToLower(t.value) == "number" && v.Str? ==>
              r == (if ParseDouble(v.s).Some? then Dbl(ParseDouble(v.s).value) else v)
    ensures t.Some? && ToLower(t.value) == "boolean" && v.Str? ==> r == Bool(ParseBoolean(v.s))
    ensures (t.Some? && ToLower(t.value) !in {"string", "number", "boolean"}) ==> r == v
    ensures !v.Str? && !v.IsNumber() && (t.None? || ToLower(t.value) != "string") ==> r == v
  {
    if t.None? then v
    else
      var k := ToLower(t.value);
      if k == "string" then Str(ToText(v, render))
      else if k == "number" then
        if v.Str? then
          match ParseDouble(v.s)
          case Some(x) => Dbl(x)
          case None => v
        else if v.IsNumber() then Dbl(v.DoubleValue())
        else v
      else if k == "boolean" then
        if v.Str? then Bool(ParseBoolean(v.s)) else v
      else v
  }

  /** Converting twice to the same type is converting once. */
  lemma ConvertIdempotent(v: Value, t: Option<string>, render: Value -> string)
    ensures Convert(Convert(v, t, render), t, render) == Convert(v, t, render)
  {
    if t.Some? && ToLower(t.value) == "number" && v.Str? && ParseDouble(v.s).Some? {
      assert Convert(v, t, render) == Dbl(ParseDouble(v.s).value);
    }
  }

  /** Both sides are instances of the same `Comparable` class. */
  predicate SameClass(l: Value, r: Value) {
    (l.Str? && r.Str?) || (l.Int? && r.Int?) || (l.Dbl? && r.Dbl?) || (l.Bool? && r.Bool?)
  }

  /** The sign of comparing two code-unit sequences lexicographically, a proper prefix first. */
  function UnitCompare(x: seq<int>, y: seq<int>): (c: int)
    ensures -1 <= c <= 1
    ensures c == 0 <==> x == y
    decreases |x|
  {
    if x == [] && y == [] then 0
    else if x == [] then -1
    else if y == [] then 1
    else if x[0] < y[0] then -1
    else if x[0] > y[0] then 1
    else
      var c := UnitCompare(x[1..], y[1..]);
      assert c == 0 ==> x == [x[0]] + x[1..] == [y[0]] + y[1..] == y;
      c
  }

  /**
   * The sign of `String.compareTo`: the strings' UTF-16 code units compared
   * in order, so a character above U+FFFF sorts by its high surrogate.
   */
  function LexCompare(a: string, b: string): (c: int)
    ensures -1 <= c <= 1
    ensures c == 0 <==> a == b
  {
    var c := UnitCompare(Utf16(a), Utf16(b));
    assert c == 0 ==> a == b by {
      if c == 0 { Utf16Injective(a, b); }
    }
    c
  }

  /** Exchanging the sequences negates the comparison. */
  lemma {:induction false} UnitCompareAntisymmetric(x: seq<int>, y: seq<int>)
    ensures UnitCompare(x, y) == -UnitCompare(y, x)
    decreases |x|
  {
    if x != [] && y != [] && x[0] == y[0] {
      UnitCompareAntisymmetric(x[1..], y[1..]);
    }
  }

  /** Exchanging the strings negates the comparison. */
  lemma LexCompareAntisymmetric(a: string, b: string)
    ensures LexCompare(a, b) == -LexCompare(b, a)
  {
    UnitCompareAntisymmetric(Utf16(a), Utf16(b));
  }

  /**
   * Code units and code points disagree: U+FFFF sorts after U+1F600,
   * whose high surrogate U+D83D is smaller.
   */
  lemma SupplementarySortsBySurrogate()
    ensures LexCompare("\U{FFFF}", "\U{1F600}") == 1
  {
    assert Utf16("\U{FFFF}") == [0xFFFF];
    assert Units('\U{1F600}') == [0xD83D, 0xDE00];
    assert Utf16("\U{1F600}") == [0xD83D, 0xDE00];
  }

  function Sign(x: real): int {
    if x < 0.0 then -1 else if x > 0.0 then 1 else 0
  }

  /**
   * The sign of `((Comparable) l).compareTo(r)`. Two instances of different
   * classes throw a `ClassCastException` (the bridge method casts its
   * argument); booleans order `false` before `true`.
   */
  function CompareTo(l: Value, r: Value): (c: Result<int>)
    requires l.IsComparable() && r.IsComparable()
    ensures c.Err? <==> !SameClass(l, r)
    ensures c.Err? ==> c.error == ClassCast
    ensures c.Ok? ==> -1 <= c.value <= 1 && (c.value == 0 <==> l == r)
  {
    if !SameClass(l, r) then Err(ClassCast)
    else
      match l
      case Str(a) => Ok(LexCompare(a, r.s))
      case Int(a) => Ok(Sign((a - r.i) as real))
      case Dbl(a) => Ok(Sign(a - r.d))
      case Bool(a) => Ok(if a == r.b then 0 else if a then 1 else -1)
  }

  /** Exchanging the operands negates the comparison. */
  lemma CompareToAntisymmetric(l: Value, r: Value)
    requires l.IsComparable() && r.IsComparable()
    ensures CompareTo(l, r).Ok? <==> CompareTo(r, l).Ok?
    ensures CompareTo(l, r).Ok? ==> CompareTo(l, r).value == -CompareTo(r, l).value
  {
    if l.Str? && r.Str? {
      LexCompareAntisymmetric(l.s, r.s);
    }
  }

  /** The four ordering operators, as the sign of a comparison satisfies them. */
  function OrderHolds(op: string, sign: int): bool {
    if op == ">" then sign > 0
    else if op == ">=" then sign >= 0
    else if op == "<" then sign < 0
    else sign <= 0
  }

  predicate IsOrdering(op: string) {
    op == ">" || op == ">=" || op == "<" || op == "<="
  }

  /**
   * `compareValues(left, right, operator)`: `==` and `!=` are `equals`;
   * the orderings compare two `Comparable`s and are false otherwise; an
   * unknown operator is false; a null operator throws.
   */
  function CompareValues(l: Value, r: Value, op: Option<string>): (res: Result<bool>)
    ensures (l.Null? || r.Null?) ==> res == Ok(false)
    ensures !l.Null? && !r.Null? && op.None? ==> res == Err(NullPointer)
    ensures !l.Null? && !r.Null? && op == Some("==") ==> res == Ok(l == r)
    ensures !l.Null? && !r.Null? && op == Some("!=") ==> res == Ok(l != r)
    ensures op.Some? && !IsOrdering(op.value) && op.value != "==" && op.value != "!=" ==> res == Ok(false)
    ensures op.Some? && IsOrdering(op.value) && !(l.IsComparable() && r.IsComparable()) ==> res == Ok(false)
    ensures res.Err? ==> res.error in {NullPointer, ClassCast}
    ensures res.Err? && res.error == ClassCast ==> l.IsComparable() && r.IsComparable() && !SameClass(l, r)
  {
    if l.Null? || r.Null? then Ok(false)
    else if op.None? then Err(NullPointer)
    else if op.value == "==" then Ok(l == r)
    else if op.value == "!=" then Ok(l != r)
    else if IsOrdering(op.value) && l.IsComparable() && r.IsComparable() then
      match CompareTo(l, r)
      case Ok(c) => Ok(OrderHolds(op.value, c))
      case Err(e) => Err(e)
    else Ok(false)
  }

  /** `>` on (l, r) is `<` on (r, l), and `>=` is `<=` swapped; `<=` is the negation of `>`. */
  lemma CompareValuesSwap(l: Value, r: Value)
    ensures CompareValues(l, r, Some(">")) == CompareValues(r, l, Some("<"))
    ensures CompareValues(l, r, Some(">=")) == CompareValues(r, l, Some("<="))
    ensures CompareValues(l, r, Some(">")).Ok? ==>
              CompareValues(l, r, Some("<=")).Ok? &&
              (l.IsComparable() && r.IsComparable() ==>
                 CompareValues(l, r, Some("<=")).value == !CompareValues(l, r, Some(">")).value)
  {
    if !l.Null? && !r.Null? && l.IsComparable() && r.IsComparable() {
      CompareToAntisymmetric(l, r);
    }
  }

  /**
   * `Condition.evaluate()`: a missing left operand, type or right operand
   * throws; a null value on either side is false; otherwise both values are
   * converted to their operand's declared type and compared. The constant
   * and the variable branch read the right operand the same way.
   */
  function Evaluate(c: Condition, render: Value -> string): (r: Result<bool>)
    ensures (c.leftOperand.None? || c.ctype.None? || c.rightOperand.None?) ==> r == Err(NullPointer)
    ensures (c.leftOperand.Some? && c.ctype.Some? && c.rightOperand.Some? &&
             (c.leftOperand.value.value.Null? || c.rightOperand.value.value.Null?)) ==> r == Ok(false)
  {
    if c.leftOperand.None? || c.ctype.None? || c.rightOperand.None? then Err(NullPointer)
    else
      var lv := c.leftOperand.value.value;
      var rv := c.rightOperand.value.value;
      if lv.Null? || rv.Null? then Ok(false)
      else CompareValues(Convert(lv, c.leftOperand.value.vtype, render),
                         Convert(rv, c.rightOperand.value.vtype, render), c.operator)
  }

  /** The condition's type makes no difference to the outcome, as long as it is present. */
  lemma EvaluateIgnoresKind(c: Condition, k: string, render: Value -> string)
    requires c.ctype.Some?
    ensures Evaluate(c, render) == Evaluate(c.(ctype := Some(k)), render)
  {
  }

  /** Two number-typed operands compare by numeric value, whatever mix of integer and double. */
  lemma NumberTypedEquality(x: Value, y: Value, render: Value -> string)
    requires x.IsNumber() && y.IsNumber()
    ensures var c := Condition(Some(Variable(None, Some("number"), None, Null, x, None)), Some("=="),
                               Some(Variable(None, Some("NUMBER"), None, Null, y, None)), Some("CONSTANT"));
            Evaluate(c, render) == Ok(x.DoubleValue() == y.DoubleValue())
  {
    assert ToLower("NUMBER") == "number";
    assert ToLower("number") == "number";
  }

  // ---------------------------------------------------------------------
  // Condition cases
  // ---------------------------------------------------------------------

  /**
   * The loop of `ConditionCase.evaluate` from `acc` on: under "and" the
   * first false stops it, under "or" the first true; any other type runs
   * every condition and keeps `acc`.
   */
  function RunCase(cs: seq<Condition>, isAnd: bool, isOr: bool, acc: bool, render: Value -> string): Result<bool>
    decreases |cs|
  {
    if cs == [] then Ok(acc)
    else
      match Evaluate(cs[0], render)
      case Err(e) => Err(e)
      case Ok(b) =>
        if isAnd then
          if !(acc && b) then Ok(false) else RunCase(cs[1..], isAnd, isOr, acc && b, render)
        else if isOr then
          if acc || b then Ok(true) else RunCase(cs[1..], isAnd, isOr, acc || b, render)
        else RunCase(cs[1..], isAnd, isOr, acc, render)
  }

  /**
   * `ConditionCase.evaluate()`: an empty case is true; a null type throws;
   * the accumulator starts at true exactly for "and".
   */
  function CaseEvaluate(cc: ConditionCase, render: Value -> string): (r: Result<bool>)
    ensures cc.conditions == [] ==> r == Ok(true)
    ensures cc.conditions != [] && cc.ctype.None? ==> r == Err(NullPointer)
  {
    if cc.conditions == [] then Ok(true)
    else if cc.ctype.None? then Err(NullPointer)
    else
      var isAnd := EqualsIgnoreCase(cc.ctype.value, "and");
      var isOr := EqualsIgnoreCase(cc.ctype.value, "or");
      RunCase(cc.conditions, isAnd, isOr, isAnd, render)
  }

  /** Every condition of `cs` evaluates, without throwing, to `b`. */
  predicate AllAre(cs: seq<Condition>, b: bool, render: Value -> string) {
    forall i :: 0 <= i < |cs| ==> Evaluate(cs[i], render) == Ok(b)
  }

  /** Condition `i` is the first not to evaluate to `Ok(!b)`, and it evaluates to `Ok(b)`. */
  predicate FirstIs(cs: seq<Condition>, i: int, b: bool, render: Value -> string) {
    0 <= i < |cs| && AllAre(cs[..i], !b, render) && Evaluate(cs[i], render) == Ok(b)
  }

  lemma {:induction false} RunAnd(cs: seq<Condition>, render: Value -> string)
    ensures RunCase(cs, true, false, true, render) == Ok(true) <==> AllAre(cs, true, render)
    ensures RunCase(cs, true, false, true, render) == Ok(false) <==> exists i :: FirstIs(cs, i, false, render)
    decreases |cs|
  {
    if cs != [] {
      RunAnd(cs[1..], render);
      ShiftAllAre(cs, true, render);
      ShiftFirst(cs, false, render);
    }
  }

  lemma {:induction false} RunOr(cs: seq<Condition>, render: Value -> string)
    ensures RunCase(cs, false, true, false, render) == Ok(false) <==> AllAre(cs, false, render)
    ensures RunCase(cs, false, true, false, render) == Ok(true) <==> exists i :: FirstIs(cs, i, true, render)
    decreases |cs|
  {
    if cs != [] {
      RunOr(cs[1..], render);
      ShiftAllAre(cs, false, render);
      ShiftFirst(cs, true, render);
    }
  }

  lemma {:induction false} RunOther(cs: seq<Condition>, render: Value -> string)
    ensures RunCase(cs, false, false, false, render) != Ok(true)
    ensures RunCase(cs, false, false, false, render) == Ok(false) <==>
              forall i :: 0 <= i < |cs| ==> Evaluate(cs[i], render).Ok?
    decreases |cs|
  {
    if cs != [] {
      RunOther(cs[1..], render);
      assert forall i :: 1 <= i < |cs| ==> cs[i] == cs[1..][i - 1];
    }
  }

  lemma ShiftAllAre(cs: seq<Condition>, b: bool, render: Value -> string)
    requires cs != []
    ensures AllAre(cs, b, render) <==> Evaluate(cs[0], render) == Ok(b) && AllAre(cs[1..], b, render)
  {
    assert forall i :: 1 <= i < |cs| ==> cs[i] == cs[1..][i - 1];
  }

  lemma ShiftFirst(cs: seq<Condition>, b: bool, render: Value -> string)
    requires cs != []
    ensures (exists i :: FirstIs(cs, i, b, render)) <==>
              Evaluate(cs[0], render) == Ok(b) ||
              (Evaluate(cs[0], render) == Ok(!b) && exists i :: FirstIs(cs[1..], i, b, render))
  {
    if exists i :: FirstIs(cs, i, b, render) {
      var i :| FirstIs(cs, i, b, render);
      if i > 0 {
        assert cs[..i][0] == cs[0];
        assert cs[1..][..i - 1] == cs[..i][1..];
        ShiftAllAre(cs[..i], !b, render);
        assert FirstIs(cs[1..], i - 1, b, render);
      }
    }
    if Evaluate(cs[0], render) == Ok(b) {
      assert FirstIs(cs, 0, b, render);
    } else if Evaluate(cs[0], render) == Ok(!b) && exists i :: FirstIs(cs[1..], i, b, render) {
      var i :| FirstIs(cs[1..], i, b, render);
      assert cs[..i + 1][1..] == cs[1..][..i];
      ShiftAllAre(cs[..i + 1], !b, render);
      assert FirstIs(cs, i + 1, b, render);
    }
  }

  /** An "and" case (in any case) is true iff every condition is, and false iff one is false before any throws. */
  lemma AndCase(cc: ConditionCase, render: Value -> string)
    requires cc.conditions != [] && cc.ctype.Some? && EqualsIgnoreCase(cc.ctype.value, "and")
    ensures CaseEvaluate(cc, render) == Ok(true) <==> AllAre(cc.conditions, true, render)
    ensures CaseEvaluate(cc, render) == Ok(false) <==> exists i :: FirstIs(cc.conditions, i, false, render)
  {
    assert !EqualsIgnoreCase(cc.ctype.value, "or");
    RunAnd(cc.conditions, render);
  }

  /** An "or" case is true iff some condition is true before any throws, and false iff all are false. */
  lemma OrCase(cc: ConditionCase, render: Value -> string)
    requires cc.conditions != [] && cc.ctype.Some? && EqualsIgnoreCase(cc.ctype.value, "or")
    ensures CaseEvaluate(cc, render) == Ok(true) <==> exists i :: FirstIs(cc.conditions, i, true, render)
    ensures CaseEvaluate(cc, render) == Ok(false) <==> AllAre(cc.conditions, false, render)
  {
    assert !EqualsIgnoreCase(cc.ctype.value, "and");
    RunOr(cc.conditions, render);
  }

  /** A non-empty case whose type is neither "and" nor "or" is never true. */
  lemma OtherCaseNeverTrue(cc: ConditionCase, render: Value -> string)
    requires cc.conditions != [] && cc.ctype.Some?
    requires !EqualsIgnoreCase(cc.ctype.value, "and") && !EqualsIgnoreCase(cc.ctype.value, "or")
    ensures CaseEvaluate(cc, render) != Ok(true)
  {
    RunOther(cc.conditions, render);
  }

  // ---------------------------------------------------------------------
  // Whole node
  // ---------------------------------------------------------------------

  function AnyCase(cases: seq<ConditionCase>, render: Value -> string): Result<bool>
    decreases |cases|
  {
    if cases == [] then Ok(false)
    else
      match CaseEvaluate(cases[0], render)
      case Err(e) => Err(e)
      case Ok(b) => if b then Ok(true) else AnyCase(cases[1..], render)
  }

  /**
   * `WorkflowNode.evaluateConditions()`: a node that is not a condition
   * node, or has no cases, passes; otherwise the first true case passes it.
   */
  function EvaluateConditions(n: WorkflowNode, render: Value -> string): (r: Result<bool>)
    ensures n.ntype != Some(CONDITION) || n.conditions == [] ==> r == Ok(true)
  {
    if n.ntype != Some(CONDITION) || n.conditions == [] then Ok(true)
    else AnyCase(n.conditions, render)
  }

  predicate FirstTrueCase(cases: seq<ConditionCase>, i: int, render: Value -> string) {
    0 <= i < |cases| && CaseEvaluate(cases[i], render) == Ok(true) &&
    forall j :: 0 <= j < i ==> CaseEvaluate(cases[j], render) == Ok(false)
  }

  lemma {:induction false} AnyCaseTrue(cases: seq<ConditionCase>, render: Value -> string)
    ensures AnyCase(cases, render) == Ok(true) <==> exists i :: FirstTrueCase(cases, i, render)
    decreases |cases|
  {
    if cases != [] {
      AnyCaseTrue(cases[1..], render);
      if exists i :: FirstTrueCase(cases, i, render) {
        var i :| FirstTrueCase(cases, i, render);
        if i > 0 {
          FirstTrueCaseTail(cases, i, render);
        }
      }
      if CaseEvaluate(cases[0], render) == Ok(false) && exists i :: FirstTrueCase(cases[1..], i, render) {
        var i :| FirstTrueCase(cases[1..], i, render);
        FirstTrueCaseCons(cases, i, render);
      }
      if CaseEvaluate(cases[0], render) == Ok(true) {
        assert FirstTrueCase(cases, 0, render);
      }
    }
  }

  /** A first true case past the head is the first true case of the tail. */
  lemma FirstTrueCaseTail(cases: seq<ConditionCase>, i: int, render: Value -> string)
    requires FirstTrueCase(cases, i, render) && i > 0
    ensures FirstTrueCase(cases[1..], i - 1, render)
  {
    forall j | 0 <= j < i - 1 ensures CaseEvaluate(cases[1..][j], render) == Ok(false) {
      assert cases[1..][j] == cases[j + 1];
    }
  }

  /** Behind a false head, the tail's first true case is the first true case. */
  lemma FirstTrueCaseCons(cases: seq<ConditionCase>, i: int, render: Value -> string)
    requires cases != [] && CaseEvaluate(cases[0], render) == Ok(false)
    requires FirstTrueCase(cases[1..], i, render)
    ensures FirstTrueCase(cases, i + 1, render)
  {
    forall j | 0 <= j < i + 1 ensures CaseEvaluate(cases[j], render) == Ok(false) {
      if j > 0 { assert cases[j] == cases[1..][j - 1]; }
    }
  }

  /** A condition node passes iff some case is true and every case before it is false. */
  lemma EvaluateConditionsTrue(n: WorkflowNode, render: Value -> string)
    requires n.ntype == Some(CONDITION) && n.conditions != []
    ensures EvaluateConditions(n, render) == Ok(true) <==> exists i :: FirstTrueCase(n.conditions, i, render)
  {
    AnyCaseTrue(n.conditions, render);
  }

  /** A case with no conditions passes the node as soon as it is reached. */
  lemma EmptyCasePasses(n: WorkflowNode, i: int, render: Value -> string)
    requires n.ntype == Some(CONDITION) && 0 <= i < |n.conditions| && n.conditions[i].conditions == []
    requires forall j :: 0 <= j < i ==> CaseEvaluate(n.conditions[j], render) == Ok(false)
    ensures EvaluateConditions(n, render) == Ok(true)
  {
    assert FirstTrueCase(n.conditions, i, render);
    EvaluateConditionsTrue(n, render);
  }
}

=== FILE: context.dfy ===
/** The state of one workflow run: `WorkflowContext` and `WorkflowStatus`. */
module Context {
  import opened Wrappers
  import opened Schema
  import opened Exceptions
  import opened WorkflowModel

  datatype WorkflowStatus = RUNNING | COMPLETED | FAILED | SUSPENDED

  /**
   * `WorkflowContext`. The execution id, a random UUID in the source, is
   * supplied by the caller; start and end times are left out.
   */
  datatype WorkflowContext = WorkflowContext(
    executionId: string,
    workflowId: Option<string>,
    workflow: Option<Workflow>,
    variables: map<string, Variable>,
    currentNodeId: Option<string>,
    status: WorkflowStatus)

  /** The `(workflowId)` constructor: no variables, no workflow attached, running. */
  function NewContext(executionId: string, workflowId: Option<string>): (c: WorkflowContext)
    ensures c.executionId == executionId && c.workflowId == workflowId
    ensures c.variables == map[] && c.workflow.None? && c.currentNodeId.None?
    ensures c.status == RUNNING
  {
    WorkflowContext(executionId, workflowId, None, map[], None, RUNNING)
  }

  /** The `(Workflow)` constructor: as above, with the workflow and its id attached. */
  function ContextFor(executionId: string, w: Workflow): (c: WorkflowContext)
    ensures c.executionId == executionId && c.workflowId == w.id && c.workflow == Some(w)
    ensures c.variables == map[] && c.currentNodeId.None? && c.status == RUNNING
  {
    NewContext(executionId, w.id).(workflow := Some(w))
  }

  /** `setVariable(key, value)`: inserts or replaces one entry. */
  function SetVariable(c: WorkflowContext, key: string, v: Variable): (r: WorkflowContext)
    ensures r.variables.Keys == c.variables.Keys + {key}
    ensures r.variables[key] == v
    ensures forall k :: k in c.variables && k != key ==> r.variables[k] == c.variables[k]
    ensures r == c.(variables := r.variables)
  {
    c.(variables := c.variables[key := v])
  }

  /** `getVariable(key)`: the entry stored under `key`, null if none (a null key finds nothing). */
  function GetVariable(c: WorkflowContext, key: Option<string>): (r: Option<Variable>)
    ensures r.Some? <==> key.Some? && key.value in c.variables
    ensures r.Some? ==> r.value == c.variables[key.value]
  {
    if key.Some? then Get(c.variables, key.value) else None
  }

  lemma SetThenGetVariable(c: WorkflowContext, key: string, other: string, v: Variable)
    requires other != key
    ensures GetVariable(SetVariable(c, key, v), Some(key)) == Some(v)
    ensures GetVariable(SetVariable(c, key, v), Some(other)) == GetVariable(c, Some(other))
  {
  }

  /** `name.equals(...)` and `parent.equals(...)` both hold for a variable with a name and a parent. */
  predicate InScope(v: Variable, name: Option<string>, parent: Option<string>) {
    name.Some? && v.name == name && v.parent.Some? && v.parent == parent
  }

  /** Looking at `v` throws: its name is null, or its name matches and its parent is null. */
  predicate Throws(v: Variable, name: Option<string>) {
    v.name.None? || (v.name == name && v.parent.None?)
  }

  /**
   * `getVariable(name, parent)`: scans the stored variables in the map's
   * (unspecified) order for one with that name and parent. The scan calls
   * `equals` on each variable's name, and on its parent once the name
   * matches, so a null there throws.
   */
  method GetVariableInScope(c: WorkflowContext, name: Option<string>, parent: Option<string>)
    returns (r: Result<Option<Variable>>)
    ensures r.Ok? && r.value.Some? ==> r.value.value in c.variables.Values && InScope(r.value.value, name, parent)
    ensures r.Ok? && r.value.None? ==> forall v :: v in c.variables.Values ==> !InScope(v, name, parent)
    ensures r.Err? ==> r.error == NullPointer && exists v :: v in c.variables.Values && Throws(v, name)
    ensures (forall v :: v in c.variables.Values ==> !Throws(v, name)) ==> r.Ok?
  {
    var rest := c.variables.Values;
    while rest != {}
      invariant rest <= c.variables.Values
      invariant forall v :: v in c.variables.Values && v !in rest ==> !InScope(v, name, parent) && !Throws(v, name)
      decreases |rest|
    {
      var v :| v in rest;
      if v.name.None? {
        return Err(NullPointer);
      }
      if Some(v.name.value) == name {
        if v.parent.None? {
          return Err(NullPointer);
        }
        if v.parent == parent {
          return Ok(Some(v));
        }
      }
      rest := rest - {v};
    }
    return Ok(None);
  }
}

=== FILE: debug_store.dfy ===
/**
 * The Vue editor's debug store (`stores/debug.ts`): whether a debug
 * session is open, the node events received so far, and the node shown as
 * running. The event stream and the window listeners are reduced to two
 * flags: `connected` (`eventSource` is set) and `listening` (the two
 * handlers are registered). The request for the workflow's inputs is a
 * parameter: its answer, or none when it fails. The actions close the
 * stream as evidently intended; `StopDebugAsWritten` shows what the
 * call on `eventSource` does instead.
 */
module DebugStore {
  import opened Wrappers
  import opened JsonValues
  import opened WorkflowModel
  import opened Context
  import opened Exceptions
  import Engine

  /** A `NodeExecutionEvent` as the page reads it. */
  datatype ClientEvent = ClientEvent(eventType: string, nodeId: Option<string>, nodeName: Option<string>)

  datatype DebugState = DebugState(
    isDebugging: bool,
    debugEvents: seq<ClientEvent>,
    workflowInputs: map<string, Json>,
    connected: bool,
    currentWorkflowId: Option<string>,
    listening: bool,
    runningNodeId: Option<string>,
    showInputForm: bool)

  const InitialDebugState := DebugState(false, [], map[], false, None, false, None, true)

  /** What `if (!id)` rejects: null or the empty string. */
  predicate Truthy(s: Option<string>) {
    s.Some? && s.value != ""
  }

  /** `canTest`: a workflow must be open, and it needs both a start and an end node. */
  function CanTest(s: DebugState, startNodeExists: bool, endNodeExists: bool): (r: bool)
    ensures r ==> Truthy(s.currentWorkflowId)
    ensures Truthy(s.currentWorkflowId) ==> (r <==> startNodeExists && endNodeExists)
  {
    if !Truthy(s.currentWorkflowId) then false else startNodeExists && endNodeExists
  }

  /**
   * The node-event handler `startDebug` registers: ENTER marks the node as
   * running, COMPLETE clears it only when it names the running node, and
   * every event is kept in order.
   */
  function HandleNodeExecution(s: DebugState, e: ClientEvent): (r: DebugState)
    ensures r.debugEvents == s.debugEvents + [e]
    ensures e.eventType == "ENTER" ==> r.runningNodeId == e.nodeId
    ensures e.eventType == "COMPLETE" ==>
              r.runningNodeId == (if s.runningNodeId == e.nodeId then None else s.runningNodeId)
    ensures e.eventType != "ENTER" && e.eventType != "COMPLETE" ==> r.runningNodeId == s.runningNodeId
    ensures r == s.(debugEvents := r.debugEvents, runningNodeId := r.runningNodeId)
  {
    var running :=
      if e.eventType == "ENTER" then e.nodeId
      else if e.eventType == "COMPLETE" && s.runningNodeId == e.nodeId then None
      else s.runningNodeId;
    s.(runningNodeId := running, debugEvents := s.debugEvents + [e])
  }

  /** The handler applied to each event of a stream in turn. */
  function Replay(s: DebugState, es: seq<ClientEvent>): (r: DebugState)
    ensures r.debugEvents == s.debugEvents + es
    ensures r == s.(debugEvents := r.debugEvents, runningNodeId := r.runningNodeId)
    decreases |es|
  {
    if es == [] then s else Replay(HandleNodeExecution(s, es[0]), es[1..])
  }

  /** A node entered and completed under the same id is no longer shown as running. */
  lemma EnterThenCompleteClears(s: DebugState, id: string, middle: seq<ClientEvent>, name: Option<string>)
    requires forall i :: 0 <= i < |middle| ==> middle[i].eventType != "ENTER" && middle[i].eventType != "COMPLETE"
    ensures Replay(s, [ClientEvent("ENTER", Some(id), name)] + middle + [ClientEvent("COMPLETE", Some(id), name)]).runningNodeId.None?
  {
    var s1 := HandleNodeExecution(s, ClientEvent("ENTER", Some(id), name));
    ReplayQuiet(s1, middle);
    ReplayAppend(s1, middle, [ClientEvent("COMPLETE", Some(id), name)]);
    assert [ClientEvent("ENTER", Some(id), name)] + middle + [ClientEvent("COMPLETE", Some(id), name)]
        == [ClientEvent("ENTER", Some(id), name)] + (middle + [ClientEvent("COMPLETE", Some(id), name)]);
  }

  /** Events other than ENTER and COMPLETE leave the running node alone. */
  lemma {:induction false} ReplayQuiet(s: DebugState, es: seq<ClientEvent>)
    requires forall i :: 0 <= i < |es| ==> es[i].eventType != "ENTER" && es[i].eventType != "COMPLETE"
    ensures Replay(s, es).runningNodeId == s.runningNodeId
    decreases |es|
  {
    if es != [] {
      ReplayQuiet(HandleNodeExecution(s, es[0]), es[1..]);
    }
  }

  lemma {:induction false} ReplayAppend(s: DebugState, a: seq<ClientEvent>, b: seq<ClientEvent>)
    ensures Replay(s, a + b) == Replay(Replay(s, a), b)
    decreases |a|
  {
    if a == [] {
      assert a + b == b;
    } else {
      assert (a + b)[0] == a[0] && (a + b)[1..] == a[1..] + b;
      ReplayAppend(HandleNodeExecution(s, a[0]), a[1..], b);
    }
  }

  /** `stopDebug`: the stream and listeners go, the session ends, the input form shows again. */
  function StopDebug(s: DebugState): (r: DebugState)
    ensures !r.isDebugging && r.runningNodeId.None? && r.showInputForm && !r.connected
    ensures s.connected ==> !r.listening
    ensures !s.connected ==> r.listening == s.listening
    ensures r.debugEvents == s.debugEvents && r.workflowInputs == s.workflowInputs
    ensures r.currentWorkflowId == s.currentWorkflowId
  {
    var s1 := if s.connected then s.(listening := false, connected := false) else s;
    s1.(isDebugging := false, runningNodeId := None, showInputForm := true)
  }

  /**
   * `stopDebug` as written: `eventSource` holds the `EventSource` object
   * that `debugWorkflow` returns, not a cleanup function, so once the
   * listeners are removed, calling it throws a TypeError and the rest of
   * the action never runs. The second component is true when it throws.
   */
  function StopDebugAsWritten(s: DebugState): (r: (DebugState, bool))
    ensures r.1 <==> s.connected
    ensures r.1 ==> && r.0.connected && !r.0.listening
                    && r.0.isDebugging == s.isDebugging && r.0.runningNodeId == s.runningNodeId
                    && r.0.showInputForm == s.showInputForm && r.0.debugEvents == s.debugEvents
    ensures !r.1 ==> r.0 == StopDebug(s)
  {
    if s.connected then (s.(listening := false), true) else (StopDebug(s), false)
  }

  /**
   * As written, stopping a session that `startDebug` opened throws: the
   * session stays open, the stream stays open, and the input form stays hidden.
   */
  lemma StartThenStopAsWrittenThrows(s: DebugState)
    requires s.isDebugging && Truthy(s.currentWorkflowId)
    ensures var r := StopDebugAsWritten(StartDebug(s));
            r.1 && r.0.isDebugging && r.0.connected && !r.0.showInputForm
  {
  }

  /** With the stream closed as intended, stopping a started session ends it. */
  lemma StartThenStopEnds(s: DebugState)
    requires Truthy(s.currentWorkflowId)
    ensures var r := StopDebug(StartDebug(s));
            !r.isDebugging && !r.connected && !r.listening && r.showInputForm
  {
  }

  /**
   * `resetDebugEvents`: closes the stream like `stopDebug` but keeps the
   * session open; the events are dropped and the form shows again.
   */
  function ResetDebugEvents(s: DebugState): (r: DebugState)
    ensures r.debugEvents == [] && r.runningNodeId.None? && r.showInputForm && !r.connected
    ensures r.isDebugging == s.isDebugging
    ensures r.workflowInputs == s.workflowInputs && r.currentWorkflowId == s.currentWorkflowId
    ensures s.connected ==> !r.listening
  {
    var s1 := if s.connected then s.(listening := false, connected := false) else s;
    s1.(debugEvents := [], runningNodeId := None, showInputForm := true)
  }

  /** `resetDebug`: `stopDebug`, and the events, inputs and workflow id are cleared too. */
  function ResetDebug(s: DebugState): (r: DebugState)
    ensures r == StopDebug(s).(debugEvents := [], workflowInputs := map[], currentWorkflowId := None)
    ensures !r.isDebugging && r.debugEvents == [] && r.currentWorkflowId.None? && r.runningNodeId.None?
  {
    StopDebug(s).(debugEvents := [], workflowInputs := map[], currentWorkflowId := None,
                  runningNodeId := None, showInputForm := true)
  }

  /** Resetting is the same whether or not the events were reset first. */
  lemma ResetDebugAbsorbs(s: DebugState)
    ensures ResetDebug(ResetDebugEvents(s)) == ResetDebug(s)
  {
  }

  /**
   * `initDebug(workflowId)`: nothing for an empty id; otherwise the id is
   * recorded, and a session that is open is stopped, while a closed one is
   * opened with the inputs fetched (`fetched`). The second component is
   * true when the call rejects because the fetch failed.
   */
  function InitDebug(s: DebugState, workflowId: string, fetched: Option<map<string, Json>>): (r: (DebugState, bool))
    ensures workflowId == "" ==> r == (s, false)
    ensures workflowId != "" && s.isDebugging ==> r == (StopDebug(s.(currentWorkflowId := Some(workflowId))), false)
    ensures workflowId != "" && !s.isDebugging && fetched.None? ==> r == (s.(currentWorkflowId := Some(workflowId)), true)
    ensures workflowId != "" && !s.isDebugging && fetched.Some? ==>
              && !r.1 && r.0.isDebugging && r.0.debugEvents == [] && r.0.runningNodeId.None? && r.0.showInputForm
              && r.0.workflowInputs == fetched.value && r.0.currentWorkflowId == Some(workflowId)
  {
    if workflowId == "" then (s, false)
    else
      var s1 := s.(currentWorkflowId := Some(workflowId));
      if s1.isDebugging then (StopDebug(s1), false)
      else if fetched.None? then (s1, true)
      else (s1.(workflowInputs := fetched.value, isDebugging := true, debugEvents := [], runningNodeId := None,
                showInputForm := true), false)
  }

  /** Calling `initDebug` twice with the same id opens a session and then closes it again. */
  lemma InitDebugToggles(s: DebugState, workflowId: string, inputs: map<string, Json>, again: Option<map<string, Json>>)
    requires workflowId != "" && !s.isDebugging
    ensures var s1 := InitDebug(s, workflowId, Some(inputs)).0;
            s1.isDebugging && !InitDebug(s1, workflowId, again).0.isDebugging
  {
  }

  /**
   * `startDebug`: without a workflow id nothing happens; otherwise the
   * form is hidden, the handlers are registered and the stream is opened.
   */
  function StartDebug(s: DebugState): (r: DebugState)
    ensures !Truthy(s.currentWorkflowId) ==> r == s
    ensures Truthy(s.currentWorkflowId) ==> r == s.(showInputForm := false, listening := true, connected := true)
  {
    if !Truthy(s.currentWorkflowId) then s
    else s.(showInputForm := false, listening := true, connected := true)
  }

  /** The error handler: the running node is cleared and the session stopped. */
  function HandleDebugError(s: DebugState): (r: DebugState)
    ensures r == StopDebug(s)
  {
    StopDebug(s.(runningNodeId := None))
  }

  // ---------------------------------------------------------------------
  // The engine's events as the page receives them
  // ---------------------------------------------------------------------

  function KindName(k: Engine.EventKind): string {
    match k
    case ENTER => "ENTER"
    case EXIT => "EXIT"
    case COMPLETE => "COMPLETE"
  }

  /** The node event the debug service forwards, as the page reads it. */
  function ClientEventOf(e: Engine.DebugEvent): (c: ClientEvent)
    requires e.NodeEvent?
    ensures c.nodeId == e.nodeId && c.nodeName == e.nodeName
    ensures c.eventType == "ENTER" <==> e.kind == Engine.ENTER
    ensures c.eventType == "COMPLETE" <==> e.kind == Engine.COMPLETE
  {
    ClientEvent(KindName(e.kind), e.nodeId, e.nodeName)
  }

  function ClientEvents(es: seq<Engine.DebugEvent>): (r: seq<ClientEvent>)
    requires forall i :: 0 <= i < |es| ==> es[i].NodeEvent?
    ensures |r| == |es| && forall i :: 0 <= i < |es| ==> r[i] == ClientEventOf(es[i])
  {
    seq(|es|, i requires 0 <= i < |es| && es[i].NodeEvent? => ClientEventOf(es[i]))
  }

  /**
   * As written, the engine's COMPLETE event carries the node's name where
   * ENTER carries its id, so after a node whose name is not its id
   * completes, the page still shows it as running.
   */
  lemma StepLeavesNodeRunning(env: Engine.Env, w: Workflow, ctx: WorkflowContext, id: string, n: WorkflowNode,
                              s: DebugState)
    requires GetNodeById(w.nodes, Some(id)) == Ok(Some(n)) && Engine.Step(env, w, ctx, id).Next?
    requires n.name != Some(id)
    ensures Replay(s, ClientEvents(Engine.Step(env, w, ctx, id).events)).runningNodeId == Some(id)
  {
    var es := Engine.Step(env, w, ctx, id).events;
    Engine.CompleteEventCarriesName(env, w, ctx, id, n);
    ReplayThree(s, ClientEvents(es));
  }

  /**
   * The events of a step as evidently intended: the COMPLETE event names
   * the node by its id, like ENTER and EXIT.
   */
  function IntendedStepEvents(env: Engine.Env, w: Workflow, ctx: WorkflowContext, id: string): (r: seq<Engine.DebugEvent>)
    ensures var step := Engine.Step(env, w, ctx, id);
            && |r| == |step.events|
            && (forall i :: 0 <= i < |r| ==> r[i].NodeEvent? && r[i].kind == step.events[i].kind)
            && (step.Next? ==> r[2].nodeId == step.events[0].nodeId && r[..2] == step.events[..2])
  {
    var es := Engine.Step(env, w, ctx, id).events;
    if |es| == 3 then es[2 := es[2].(nodeId := es[0].nodeId)] else es
  }

  /** With the intended events, a completed step leaves no node shown as running. */
  lemma IntendedStepClearsRunning(env: Engine.Env, w: Workflow, ctx: WorkflowContext, id: string, s: DebugState)
    requires Engine.Step(env, w, ctx, id).Next?
    ensures Replay(s, ClientEvents(IntendedStepEvents(env, w, ctx, id))).runningNodeId.None?
  {
    ReplayThree(s, ClientEvents(IntendedStepEvents(env, w, ctx, id)));
  }

  /** Three events are handled one after another. */
  lemma ReplayThree(s: DebugState, cs: seq<ClientEvent>)
    requires |cs| == 3
    ensures Replay(s, cs) == HandleNodeExecution(HandleNodeExecution(HandleNodeExecution(s, cs[0]), cs[1]), cs[2])
  {
    assert cs == [cs[0]] + [cs[1]] + [cs[2]];
    ReplayAppend(s, [cs[0]] + [cs[1]], [cs[2]]);
    ReplayAppend(s, [cs[0]], [cs[1]]);
  }
}

=== FILE: editor_history.dfy ===
/**
 * The static editor's version history: the newest version first, at most
 * five kept, and a change check against the serialization last recorded.
 * Versions are kept as workflow values of any type `W`; `JSON.stringify`
 * is the parameter `stringify`, and the deep copy through
 * `JSON.parse(JSON.stringify(...))` is the identity on them. The timestamp
 * of a version comes from the clock and is a parameter.
 */
module EditorHistory {
  import opened Wrappers

  const MaxHistoryVersions: nat := 5

  datatype Version<W> = Version(timestamp: string, workflow: W)

  datatype History<W> = History(versions: seq<Version<W>>, lastSavedVersion: Option<string>)

  /** `addToHistory`: the new version goes in front, and only the newest five are kept. */
  function AddToHistory<W>(h: History<W>, w: W, timestamp: string): (r: History<W>)
    ensures |r.versions| == if |h.versions| + 1 <= MaxHistoryVersions then |h.versions| + 1 else MaxHistoryVersions
    ensures r.versions[0] == Version(timestamp, w)
    ensures forall i :: 1 <= i < |r.versions| ==> r.versions[i] == h.versions[i - 1]
    ensures r.lastSavedVersion == h.lastSavedVersion
  {
    var vs := [Version(timestamp, w)] + h.versions;
    h.(versions := if |vs| > MaxHistoryVersions then vs[..MaxHistoryVersions] else vs)
  }

  /** `initWorkflowHistory`: one version, and the initial workflow's text recorded. */
  function InitWorkflowHistory<W>(stringify: W -> string, w: W, timestamp: string): (r: History<W>)
    ensures r.versions == [Version(timestamp, w)]
    ensures r.lastSavedVersion == Some(stringify(w))
  {
    AddToHistory(History([], Some(stringify(w))), w, timestamp)
  }

  /** `forceHistoryUpdate`: records the workflow only if its text differs from the last one recorded. */
  function ForceHistoryUpdate<W>(stringify: W -> string, h: History<W>, w: W, timestamp: string): (r: History<W>)
    ensures r.lastSavedVersion == Some(stringify(w))
    ensures h.lastSavedVersion == Some(stringify(w)) ==> r == h
    ensures h.lastSavedVersion != Some(stringify(w)) ==> r.versions == AddToHistory(h, w, timestamp).versions
  {
    if Some(stringify(w)) != h.lastSavedVersion then
      AddToHistory(h, w, timestamp).(lastSavedVersion := Some(stringify(w)))
    else h
  }

  /**
   * `checkForChanges`, run by the five-second timer: the same check on the
   * editor's current workflow, except that what is stored is a copy made
   * through its text.
   */
  function CheckForChanges<W>(stringify: W -> string, h: History<W>, current: W, timestamp: string): (r: History<W>)
    ensures r == ForceHistoryUpdate(stringify, h, current, timestamp)
  {
    var text := stringify(current);
    if Some(text) != h.lastSavedVersion then
      AddToHistory(h, current, timestamp).(lastSavedVersion := Some(text))
    else h
  }

  /**
   * `restoreFromHistory(index)`: the version at an index in range, whose
   * text becomes the last recorded; otherwise null and nothing changes.
   */
  function RestoreFromHistory<W>(stringify: W -> string, h: History<W>, index: int): (r: (Option<W>, History<W>))
    ensures 0 <= index < |h.versions| ==>
              r.0 == Some(h.versions[index].workflow) && r.1 == h.(lastSavedVersion := Some(stringify(h.versions[index].workflow)))
    ensures !(0 <= index < |h.versions|) ==> r == (None, h)
  {
    if 0 <= index < |h.versions| then
      var w := h.versions[index].workflow;
      (Some(w), h.(lastSavedVersion := Some(stringify(w))))
    else (None, h)
  }

  /** Forcing an update twice with the same workflow adds at most one version. */
  lemma ForceTwiceAddsOnce<W>(stringify: W -> string, h: History<W>, w: W, t1: string, t2: string)
    ensures var h1 := ForceHistoryUpdate(stringify, h, w, t1);
            ForceHistoryUpdate(stringify, h1, w, t2) == h1
  {
  }

  /** A restored workflow is not recorded again until it is changed. */
  lemma RestoreThenForceIsQuiet<W>(stringify: W -> string, h: History<W>, index: int, t: string)
    requires 0 <= index < |h.versions|
    ensures var (w, h1) := RestoreFromHistory(stringify, h, index);
            ForceHistoryUpdate(stringify, h1, w.value, t) == h1
  {
  }

  /** Whatever is added, the history never holds more than five versions and never empties. */
  lemma {:induction false} HistoryBounded<W>(stringify: W -> string, h: History<W>, ws: seq<W>, t: string)
    requires |h.versions| <= MaxHistoryVersions
    ensures var r := ForceAll(stringify, h, ws, t);
            && |r.versions| <= MaxHistoryVersions
            && (ws != [] ==> r.lastSavedVersion == Some(stringify(ws[|ws| - 1])))
            && (ws != [] && h.versions != [] ==> r.versions != [])
    decreases |ws|
  {
    if ws != [] {
      HistoryBounded(stringify, h, ws[..|ws| - 1], t);
    }
  }

  /** A run of forced updates, oldest first. */
  function ForceAll<W>(stringify: W -> string, h: History<W>, ws: seq<W>, t: string): History<W>
    decreases |ws|
  {
    if ws == [] then h else ForceHistoryUpdate(stringify, ForceAll(stringify, h, ws[..|ws| - 1], t), ws[|ws| - 1], t)
  }
}

=== FILE: editor_state.dfy ===
/**
 * `WorkflowState` of the static editor: the workflow being edited, the
 * counter behind generated node ids and the node open in the editor.
 * A node's `nextNodes` object is kept as its entries in `Object.entries`
 * order; every other property of a node is a JSON value under its name.
 */
module EditorState {
  import opened Wrappers
  import opened Strings
  import opened JsonValues

  datatype Node = Node(
    id: string,
    ntype: string,
    nextNodes: Option<seq<(string, string)>>,
    others: map<string, Json>)

  datatype EditorWorkflow = EditorWorkflow(
    id: Option<string>,
    name: string,
    description: string,
    nodes: seq<Node>,
    startNodeId: Option<string>,
    globalVariables: map<string, Json>,
    isActive: bool)

  /**
   * What `currentEditingNode` refers to. The editor opens the very object
   * `getNodeById` returned, so the reference is to a node of the list, and
   * whatever changes that node in place changes the node being edited. Once
   * the list no longer holds it (the node was removed, or another workflow
   * was installed) the reference keeps the object as it last was.
   */
  datatype Editing = NotEditing | InList(index: nat) | Detached(node: Node)

  datatype RawState = State(workflow: EditorWorkflow, nodeIdCounter: nat, editing: Editing)

  /** A state whose editing reference, if it is into the list, is to a node the list has. */
  type State = s: RawState | s.editing.InList? ==> s.editing.index < |s.workflow.nodes|
    witness State(EmptyWorkflow, 1, NotEditing)

  /** The node `currentEditingNode` holds, none for null. */
  function EditingNode(s: State): Option<Node> {
    match s.editing
    case NotEditing => None
    case InList(i) => Some(s.workflow.nodes[i])
    case Detached(n) => Some(n)
  }

  /** The reference once the list it pointed into is gone: the object as it was. */
  function Release(s: State): (e: Editing)
    ensures !e.InList?
  {
    if s.editing.InList? then Detached(s.workflow.nodes[s.editing.index]) else s.editing
  }

  /** The properties `Object.assign` copies onto a node: each present one replaces the node's own. */
  datatype NodePatch = NodePatch(
    id: Option<string>,
    ntype: Option<string>,
    nextNodes: Option<Option<seq<(string, string)>>>,
    others: map<string, Json>)

  const EmptyWorkflow := EditorWorkflow(None, "", "", [], None, map[], true)

  /** `resetWorkflow`: an empty, active workflow, the counter back at 1, nothing being edited. */
  function ResetWorkflow(): (s: State)
    ensures s.workflow.nodes == [] && s.workflow.startNodeId.None? && s.workflow.id.None?
    ensures s.workflow.isActive && s.nodeIdCounter == 1 && EditingNode(s).None?
  {
    State(EmptyWorkflow, 1, NotEditing)
  }

  // ---------------------------------------------------------------------
  // Node ids: node.id.match(/node_(\d+)/) and generateNodeId
  // ---------------------------------------------------------------------

  const Prefix := "node_"

  /** The unanchored pattern `node_\d+` matches at index `i` of `id`. */
  predicate MatchesAt(id: string, i: nat) {
    i + |Prefix| < |id| && id[i..i + |Prefix|] == Prefix && IsDigit(id[i + |Prefix|])
  }

  /** Where the first match starts, searching from `from`. */
  function FirstMatch(id: string, from: nat): (r: Option<nat>)
    ensures r.Some? ==> from <= r.value && MatchesAt(id, r.value)
    ensures r.Some? ==> forall j :: from <= j < r.value ==> !MatchesAt(id, j)
    ensures r.None? ==> forall j :: from <= j ==> !MatchesAt(id, j)
    decreases |id| - from
  {
    if from + |Prefix| >= |id| then None
    else if MatchesAt(id, from) then Some(from)
    else FirstMatch(id, from + 1)
  }

  /**
   * The number `setWorkflow` reads from an id: `parseInt` of the digits
   * the leftmost match captures (the greedy `\d+`), or none without a match.
   */
  function NodeNumber(id: string): (r: Option<nat>)
    ensures r.Some? <==> exists i :: MatchesAt(id, i)
  {
    match FirstMatch(id, 0)
    case None => None
    case Some(i) => Some(DigitsValue(LeadingDigits(id[i + |Prefix|..])))
  }

  /** The id `generateNodeId` returns for counter value `n`. */
  function GeneratedId(n: nat): (id: string)
    ensures |id| > |Prefix| && id[..|Prefix|] == Prefix
  {
    Prefix + NatToString(n)
  }

  /** A generated id reads back as the counter value it was made from. */
  lemma NodeNumberOfGenerated(n: nat)
    ensures NodeNumber(GeneratedId(n)) == Some(n)
  {
    var id := GeneratedId(n);
    assert MatchesAt(id, 0);
    assert id[|Prefix|..] == NatToString(n);
    LeadingDigitsOfDigits(NatToString(n));
    DigitsValueOfNatToString(n);
  }

  /** Different counter values give different ids. */
  lemma GeneratedIdInjective(m: nat, n: nat)
    requires GeneratedId(m) == GeneratedId(n)
    ensures m == n
  {
    NodeNumberOfGenerated(m);
    NodeNumberOfGenerated(n);
  }

  /** Some node's id reads as the number `m`. */
  ghost predicate NumberUsed(nodes: seq<Node>, m: nat) {
    exists i :: 0 <= i < |nodes| && NodeNumber(nodes[i].id) == Some(m)
  }

  /** The largest number read from the ids of `nodes`, 0 if none has one. */
  function MaxNodeNumber(nodes: seq<Node>): (m: nat)
    ensures forall i :: 0 <= i < |nodes| && NodeNumber(nodes[i].id).Some? ==> NodeNumber(nodes[i].id).value <= m
    ensures m == 0 || NumberUsed(nodes, m)
    decreases |nodes|
  {
    if nodes == [] then 0
    else
      var rest := MaxNodeNumber(nodes[1..]);
      var here := NodeNumber(nodes[0].id);
      if here.Some? && here.value > rest then here.value else rest
  }

  /**
   * `setWorkflow`: installs the workflow and restarts the counter above
   * every numbered id. The node being edited stays the object it was, now
   * outside the installed list.
   */
  function SetWorkflow(s: State, w: EditorWorkflow): (r: State)
    ensures r.workflow == w
    ensures EditingNode(r) == EditingNode(s) && !r.editing.InList?
    ensures r.nodeIdCounter >= 1
    ensures forall i :: 0 <= i < |w.nodes| && NodeNumber(w.nodes[i].id).Some? ==>
              NodeNumber(w.nodes[i].id).value < r.nodeIdCounter
    ensures r.nodeIdCounter == 1 || NumberUsed(w.nodes, r.nodeIdCounter - 1)
  {
    var top := MaxNodeNumber(w.nodes);
    State(w, top + 1, Release(s))
  }

  /** `generateNodeId`: "node_" and the counter, which then moves on by one. */
  function GenerateNodeId(s: State): (r: (string, State))
    ensures NodeNumber(r.0) == Some(s.nodeIdCounter)
    ensures r.1 == s.(nodeIdCounter := s.nodeIdCounter + 1)
  {
    NodeNumberOfGenerated(s.nodeIdCounter);
    (GeneratedId(s.nodeIdCounter), s.(nodeIdCounter := s.nodeIdCounter + 1))
  }

  /** `k` calls of `generateNodeId` in a row. */
  function GenerateIds(s: State, k: nat): (r: (seq<string>, State))
    ensures |r.0| == k && r.1 == s.(nodeIdCounter := s.nodeIdCounter + k)
    ensures forall j :: 0 <= j < k ==> r.0[j] == GeneratedId(s.nodeIdCounter + j)
    decreases k
  {
    if k == 0 then ([], s)
    else
      var (id, s1) := GenerateNodeId(s);
      var (ids, s2) := GenerateIds(s1, k - 1);
      ([id] + ids, s2)
  }

  /**
   * After `setWorkflow`, generated ids are pairwise distinct and none of
   * them is the id of a node already in the workflow.
   */
  lemma GeneratedIdsFresh(s: State, w: EditorWorkflow, k: nat)
    ensures var ids := GenerateIds(SetWorkflow(s, w), k).0;
            && (forall a, b :: 0 <= a < b < k ==> ids[a] != ids[b])
            && (forall j, i :: 0 <= j < k && 0 <= i < |w.nodes| ==> ids[j] != w.nodes[i].id)
  {
    var r := SetWorkflow(s, w);
    var c := r.nodeIdCounter;
    var ids := GenerateIds(r, k).0;
    forall a, b | 0 <= a < b < k ensures ids[a] != ids[b] {
      assert ids[a] == GeneratedId(c + a) && ids[b] == GeneratedId(c + b);
      GeneratedIdDiffers(c + a, c + b);
    }
    forall j, i | 0 <= j < k && 0 <= i < |w.nodes| ensures ids[j] != w.nodes[i].id {
      assert ids[j] == GeneratedId(c + j);
      assert NodeNumber(w.nodes[i].id).Some? ==> NodeNumber(w.nodes[i].id).value < c;
      GeneratedIdAbove(c + j, w.nodes[i].id);
    }
  }

  lemma GeneratedIdDiffers(m: nat, n: nat)
    requires m != n
    ensures GeneratedId(m) != GeneratedId(n)
  {
    if GeneratedId(m) == GeneratedId(n) {
      GeneratedIdInjective(m, n);
    }
  }

  /** An id without a number, or with a smaller one, is not the id generated from `n`. */
  lemma GeneratedIdAbove(n: nat, id: string)
    requires NodeNumber(id).Some? ==> NodeNumber(id).value < n
    ensures GeneratedId(n) != id
  {
    NodeNumberOfGenerated(n);
  }

  // ---------------------------------------------------------------------
  // Editing the node list
  // ---------------------------------------------------------------------

  /** `addNode`: appends the node; a START node becomes the start node. */
  function AddNode(s: State, n: Node): (r: State)
    ensures r.workflow.nodes == s.workflow.nodes + [n]
    ensures r.workflow.startNodeId == (if n.ntype == "START" then Some(n.id) else s.workflow.startNodeId)
    ensures r == s.(workflow := r.workflow)
    ensures r.workflow == s.workflow.(nodes := r.workflow.nodes, startNodeId := r.workflow.startNodeId)
    ensures EditingNode(r) == EditingNode(s)
  {
    var w := s.workflow.(nodes := s.workflow.nodes + [n]);
    s.(workflow := if n.ntype == "START" then w.(startNodeId := Some(n.id)) else w)
  }

  /** The index of the first node with id `id` (`findIndex`), none for -1. */
  function FindIndex(nodes: seq<Node>, id: string): (r: Option<nat>)
    ensures r.Some? ==> r.value < |nodes| && nodes[r.value].id == id
    ensures r.Some? ==> forall j :: 0 <= j < r.value ==> nodes[j].id != id
    ensures r.None? ==> forall j :: 0 <= j < |nodes| ==> nodes[j].id != id
  {
    IndexWhere(nodes, (n: Node) => n.id == id)
  }

  /** `Object.assign(node, properties)`. */
  function Assign(n: Node, p: NodePatch): (r: Node)
    ensures r.id == p.id.GetOr(n.id) && r.ntype == p.ntype.GetOr(n.ntype)
    ensures r.nextNodes == p.nextNodes.GetOr(n.nextNodes)
    ensures r.others.Keys == n.others.Keys + p.others.Keys
    ensures forall k :: k in r.others ==> r.others[k] == if k in p.others then p.others[k] else n.others[k]
  {
    Node(p.id.GetOr(n.id), p.ntype.GetOr(n.ntype), p.nextNodes.GetOr(n.nextNodes), n.others + p.others)
  }

  /**
   * `updateNode`: the first node with that id takes the properties; an
   * unknown id changes nothing. When that node is the one being edited, the
   * edited node shows the properties too.
   */
  function UpdateNode(s: State, id: string, p: NodePatch): (r: State)
    ensures FindIndex(s.workflow.nodes, id).None? ==> r == s
    ensures FindIndex(s.workflow.nodes, id).Some? ==>
              var i := FindIndex(s.workflow.nodes, id).value;
              r == s.(workflow := s.workflow.(nodes := s.workflow.nodes[i := Assign(s.workflow.nodes[i], p)]))
    ensures s.editing.InList? && FindIndex(s.workflow.nodes, id) == Some(s.editing.index) ==>
              EditingNode(r) == Some(Assign(EditingNode(s).value, p))
    ensures !(s.editing.InList? && FindIndex(s.workflow.nodes, id) == Some(s.editing.index)) ==>
              EditingNode(r) == EditingNode(s)
  {
    match FindIndex(s.workflow.nodes, id)
    case None => s
    case Some(i) => s.(workflow := s.workflow.(nodes := s.workflow.nodes[i := Assign(s.workflow.nodes[i], p)]))
  }

  /** The `nextNodes` entries that do not point at `target`. */
  function DropTarget(entries: seq<(string, string)>, target: string): (r: seq<(string, string)>)
    ensures forall e :: e in r <==> e in entries && e.1 != target
    ensures |r| <= |entries|
    decreases |entries|
  {
    if entries == [] then []
    else (if entries[0].1 == target then [] else [entries[0]]) + DropTarget(entries[1..], target)
  }

  function DropLinks(n: Node, target: string): (r: Node)
    ensures r.id == n.id && r.ntype == n.ntype && r.others == n.others
    ensures r.nextNodes.Some? <==> n.nextNodes.Some?
  {
    if n.nextNodes.Some? then n.(nextNodes := Some(DropTarget(n.nextNodes.value, target))) else n
  }

  /**
   * `removeNode`: the first node with that id is removed, the start node
   * is cleared if it was that id, and every `nextNodes` entry pointing at
   * the id is deleted from the nodes that remain. A node being edited that
   * stays in the list loses those links as well; the removed node itself,
   * if it was being edited, is kept as it was, links included.
   */
  function RemoveNode(s: State, id: string): (r: State)
    ensures FindIndex(s.workflow.nodes, id).None? ==> r == s
    ensures FindIndex(s.workflow.nodes, id).Some? ==>
              var i := FindIndex(s.workflow.nodes, id).value;
              var nodes := s.workflow.nodes[..i] + s.workflow.nodes[i + 1..];
              && |r.workflow.nodes| == |nodes|
              && (forall j :: 0 <= j < |nodes| ==> r.workflow.nodes[j] == DropLinks(nodes[j], id))
              && r.workflow.startNodeId == (if s.workflow.startNodeId == Some(id) then None else s.workflow.startNodeId)
              && r.workflow == s.workflow.(nodes := r.workflow.nodes, startNodeId := r.workflow.startNodeId)
              && r.nodeIdCounter == s.nodeIdCounter
              && (s.editing == InList(i) ==> EditingNode(r) == EditingNode(s) && !r.editing.InList?)
              && (s.editing.InList? && s.editing.index != i ==>
                    r.editing.InList? && EditingNode(r) == Some(DropLinks(EditingNode(s).value, id)))
              && (!s.editing.InList? ==> r.editing == s.editing)
  {
    match FindIndex(s.workflow.nodes, id)
    case None => s
    case Some(i) =>
      var nodes := s.workflow.nodes[..i] + s.workflow.nodes[i + 1..];
      var start := if s.workflow.startNodeId == Some(id) then None else s.workflow.startNodeId;
      var cleaned := seq(|nodes|, j requires 0 <= j < |nodes| => DropLinks(nodes[j], id));
      State(s.workflow.(nodes := cleaned, startNodeId := start), s.nodeIdCounter, AfterSplice(s, i))
  }

  /** The editing reference once the node at `i` is spliced out of the list. */
  function AfterSplice(s: State, i: nat): (e: Editing)
    requires i < |s.workflow.nodes|
    ensures e.InList? ==> e.index < |s.workflow.nodes| - 1
    ensures s.editing == InList(i) ==> e == Release(s)
    ensures s.editing.InList? && s.editing.index != i ==>
              e.InList? && (s.workflow.nodes[..i] + s.workflow.nodes[i + 1..])[e.index] == s.workflow.nodes[s.editing.index]
    ensures !s.editing.InList? ==> e == s.editing
  {
    match s.editing
    case InList(k) => if k == i then Release(s) else if k < i then InList(k) else InList(k - 1)
    case _ => s.editing
  }

  /**
   * `setEditingNode(getNodeById(id))`, as the editor opens a node: the
   * first node with that id, or nothing when no node has it.
   */
  function SetEditingNode(s: State, id: string): (r: State)
    ensures r.workflow == s.workflow && r.nodeIdCounter == s.nodeIdCounter
    ensures FindIndex(s.workflow.nodes, id).None? ==> EditingNode(r).None?
    ensures FindIndex(s.workflow.nodes, id).Some? ==>
              r.editing.InList? && EditingNode(r) == Some(s.workflow.nodes[FindIndex(s.workflow.nodes, id).value])
  {
    match FindIndex(s.workflow.nodes, id)
    case None => s.(editing := NotEditing)
    case Some(i) => s.(editing := InList(i))
  }

  /** `clearEditingNode`. */
  function ClearEditingNode(s: State): (r: State)
    ensures r.workflow == s.workflow && r.nodeIdCounter == s.nodeIdCounter && EditingNode(r).None?
  {
    s.(editing := NotEditing)
  }

  /**
   * Opening a node and then updating it through the list: the node being
   * edited is the updated one, as the shared object is in JavaScript.
   */
  lemma OpenThenUpdateShows(s: State, id: string, p: NodePatch)
    requires FindIndex(s.workflow.nodes, id).Some?
    ensures var r := UpdateNode(SetEditingNode(s, id), id, p);
            EditingNode(r) == Some(r.workflow.nodes[FindIndex(s.workflow.nodes, id).value])
            && EditingNode(r) == Some(Assign(s.workflow.nodes[FindIndex(s.workflow.nodes, id).value], p))
  {
  }

  /** No entry of any node's `nextNodes` points at `target`. */
  predicate Untargeted(nodes: seq<Node>, target: string) {
    forall j, e :: 0 <= j < |nodes| && nodes[j].nextNodes.Some? && e in nodes[j].nextNodes.value ==> e.1 != target
  }

  /** After `removeNode` of a known id, nothing points at it any more. */
  lemma RemoveNodeUnlinks(s: State, id: string)
    requires FindIndex(s.workflow.nodes, id).Some?
    ensures Untargeted(RemoveNode(s, id).workflow.nodes, id)
    ensures |RemoveNode(s, id).workflow.nodes| == |s.workflow.nodes| - 1
  {
  }

  lemma DropTargetUntargeted(entries: seq<(string, string)>, target: string)
    requires forall e :: e in entries ==> e.1 != target
    ensures DropTarget(entries, target) == entries
    decreases |entries|
  {
    if entries != [] {
      DropTargetUntargeted(entries[1..], target);
    }
  }

  /**
   * Adding a node under a fresh id that is not a START node and that
   * nothing points at, then removing it, gives back the state before.
   */
  lemma AddThenRemove(s: State, n: Node)
    requires forall j :: 0 <= j < |s.workflow.nodes| ==> s.workflow.nodes[j].id != n.id
    requires n.ntype != "START" && s.workflow.startNodeId != Some(n.id)
    requires Untargeted(s.workflow.nodes, n.id)
    ensures RemoveNode(AddNode(s, n), n.id) == s
  {
    var s1 := AddNode(s, n);
    var nodes := s.workflow.nodes;
    assert FindIndex(s1.workflow.nodes, n.id) == Some(|nodes|) by {
      assert s1.workflow.nodes[|nodes|].id == n.id;
    }
    assert s1.workflow.nodes[..|nodes|] + s1.workflow.nodes[|nodes| + 1..] == nodes;
    forall j | 0 <= j < |nodes| ensures DropLinks(nodes[j], n.id) == nodes[j] {
      if nodes[j].nextNodes.Some? {
        DropTargetUntargeted(nodes[j].nextNodes.value, n.id);
      }
    }
    assert RemoveNode(s1, n.id).workflow.nodes == nodes;
  }
}

=== FILE: engine.dfy ===
/**
 * The workflow engine, `WorkflowManager`: running a workflow node by node,
 * executing tool nodes through the registry, choosing branches at
 * condition nodes, and reporting debug events.
 *
 * Three helpers the engine calls are not defined anywhere in the
 * repository (`getParentContext`, `WorkflowNode.getFromContext`, and the
 * conversion of workflow input fields into stored variables); they, the
 * tools' `execute` code and the stack-trace rendering are parameters of
 * the model, collected in `Env`.
 */
module Engine {
  import opened Wrappers
  import opened Strings
  import opened Schema
  import opened Exceptions
  import opened Tools
  import opened WorkflowModel
  import opened Context

  datatype Env = Env(
    registry: Registry,
    execute: (Handler, map<string, Value>) -> Invocation,
    parentContext: (string, WorkflowContext) -> Option<map<string, Value>>,
    fromContext: (WorkflowNode, Option<string>) -> Value,
    inputRecord: (string, FieldDef) -> Variable,
    stackTrace: Exc -> string)

  // ---------------------------------------------------------------------
  // Single conditions
  // ---------------------------------------------------------------------

  datatype ConditionOperator =
    | EQUALS | NOT_EQUALS | GREATER_THAN | LESS_THAN | GREATER_THAN_OR_EQUALS | LESS_THAN_OR_EQUALS

  function OperatorName(o: ConditionOperator): string {
    match o
    case EQUALS => "EQUALS"
    case NOT_EQUALS => "NOT_EQUALS"
    case GREATER_THAN => "GREATER_THAN"
    case LESS_THAN => "LESS_THAN"
    case GREATER_THAN_OR_EQUALS => "GREATER_THAN_OR_EQUALS"
    case LESS_THAN_OR_EQUALS => "LESS_THAN_OR_EQUALS"
  }

  /** `ConditionOperator.valueOf(s)`: exact names; `None` is the `IllegalArgumentException`. */
  function OperatorValueOf(s: string): (r: Option<ConditionOperator>)
    ensures forall o :: OperatorName(o) == s ==> r == Some(o)
    ensures r.Some? ==> OperatorName(r.value) == s
  {
    if s == "EQUALS" then Some(EQUALS)
    else if s == "NOT_EQUALS" then Some(NOT_EQUALS)
    else if s == "GREATER_THAN" then Some(GREATER_THAN)
    else if s == "LESS_THAN" then Some(LESS_THAN)
    else if s == "GREATER_THAN_OR_EQUALS" then Some(GREATER_THAN_OR_EQUALS)
    else if s == "LESS_THAN_OR_EQUALS" then Some(LESS_THAN_OR_EQUALS)
    else None
  }

  /** The message `Enum.valueOf` gives an unknown name. */
  const UnknownOperatorPrefix := "No enum constant cn.yafex.workflow.service.ConditionOperator."

  /** An ordering between two numbers, compared as doubles. */
  function NumericOrder(o: ConditionOperator, x: real, y: real): bool {
    match o
    case GREATER_THAN => x > y
    case LESS_THAN => x < y
    case GREATER_THAN_OR_EQUALS => x >= y
    case LESS_THAN_OR_EQUALS => x <= y
    case _ => false
  }

  /**
   * `evaluateSingleCondition(condition)`: a missing operand throws; a null
   * value on either side is false; the operator must name a
   * `ConditionOperator` exactly; EQUALS and NOT_EQUALS are `equals`, and
   * the four orderings hold only between two `Number`s.
   */
  function EvaluateSingle(c: Condition): (r: Result<bool>)
    ensures c.leftOperand.None? || c.rightOperand.None? ==> r == Err(NullPointer)
    ensures (c.leftOperand.Some? && c.rightOperand.Some? &&
             (c.leftOperand.value.value.Null? || c.rightOperand.value.value.Null?)) ==> r == Ok(false)
    ensures r.Err? ==> r.error == NullPointer ||
                       (c.operator.Some? && OperatorValueOf(c.operator.value).None? &&
                        r.error == IllegalArgument(UnknownOperatorPrefix + c.operator.value))
    ensures r == Ok(true) && c.operator.Some? && c.operator.value !in {"EQUALS", "NOT_EQUALS"} ==>
              c.leftOperand.value.value.IsNumber() && c.rightOperand.value.value.IsNumber()
    ensures r.Ok? && c.operator == Some("EQUALS") && !c.leftOperand.value.value.Null? && !c.rightOperand.value.value.Null? ==>
              r.value == (c.leftOperand.value.value == c.rightOperand.value.value)
    ensures r.Ok? && c.operator == Some("NOT_EQUALS") && !c.leftOperand.value.value.Null? && !c.rightOperand.value.value.Null? ==>
              r.value == (c.leftOperand.value.value != c.rightOperand.value.value)
    ensures c.leftOperand.Some? && c.rightOperand.Some? && c.operator.Some? &&
            OperatorValueOf(c.operator.value).Some? && OperatorValueOf(c.operator.value).value !in {EQUALS, NOT_EQUALS} ==>
              var (l, o, rv) := (c.leftOperand.value.value, OperatorValueOf(c.operator.value).value, c.rightOperand.value.value);
              r == Ok(l.IsNumber() && rv.IsNumber() && NumericOrder(o, l.DoubleValue(), rv.DoubleValue()))
  {
    if c.leftOperand.None? || c.rightOperand.None? then Err(NullPointer)
    else
      var l := c.leftOperand.value.value;
      var r := c.rightOperand.value.value;
      if l.Null? || r.Null? then Ok(false)
      else if c.operator.None? then Err(NullPointer)
      else
        match OperatorValueOf(c.operator.value)
        case None => Err(IllegalArgument(UnknownOperatorPrefix + c.operator.value))
        case Some(o) =>
          if o == EQUALS then Ok(l == r)
          else if o == NOT_EQUALS then Ok(l != r)
          else if l.IsNumber() && r.IsNumber() then Ok(NumericOrder(o, l.DoubleValue(), r.DoubleValue()))
          else Ok(false)
  }

  /** An integer and a double never compare EQUALS, whatever their values: `equals` checks the class. */
  lemma IntegerNeverEqualsDouble(c: Condition, i: int, d: real)
    requires c.leftOperand.Some? && c.rightOperand.Some? && c.operator == Some("EQUALS")
    requires c.leftOperand.value.value == Int(i) && c.rightOperand.value.value == Dbl(d)
    ensures EvaluateSingle(c) == Ok(false)
  {
  }

  /**
   * With both values present, EQUALS and NOT_EQUALS on the same operands
   * disagree, and swapping the operands turns GREATER_THAN into LESS_THAN.
   */
  lemma EqualsNotEqualsComplement(c: Condition)
    requires c.leftOperand.Some? && c.rightOperand.Some?
    requires !c.leftOperand.value.value.Null? && !c.rightOperand.value.value.Null?
    ensures EvaluateSingle(c.(operator := Some("EQUALS"))).Ok?
    ensures EvaluateSingle(c.(operator := Some("NOT_EQUALS"))) == Ok(!EvaluateSingle(c.(operator := Some("EQUALS"))).value)
    ensures EvaluateSingle(c.(operator := Some("GREATER_THAN"))) ==
            EvaluateSingle(c.(operator := Some("LESS_THAN"), leftOperand := c.rightOperand, rightOperand := c.leftOperand))
  {
    assert OperatorValueOf("EQUALS") == Some(EQUALS);
    assert OperatorValueOf("NOT_EQUALS") == Some(NOT_EQUALS);
    assert OperatorValueOf("GREATER_THAN") == Some(GREATER_THAN);
    assert OperatorValueOf("LESS_THAN") == Some(LESS_THAN);
  }

  // ---------------------------------------------------------------------
  // Operand resolution and condition cases
  // ---------------------------------------------------------------------

  /**
   * The value a condition operand with a parent is refreshed from: for the
   * parent "global", the stored variable itself (a `VariableDefinition`
   * object, not its value); for any other parent, the named node's context
   * value, read through the context's workflow.
   */
  function ResolveOperand(env: Env, ctx: WorkflowContext, op: Variable): (r: Result<Value>)
    requires op.parent.Some?
    ensures op.parent == Some("global") ==>
              r == Ok(if GetVariable(ctx, op.name).Some? then Record(GetVariable(ctx, op.name).value) else Null)
    ensures op.parent != Some("global") && ctx.workflow.None? ==> r == Err(NullPointer)
    ensures r.Err? ==> r.error == NullPointer
  {
    if op.parent.value == "global" then
      match GetVariable(ctx, op.name)
      case Some(v) => Ok(Record(v))
      case None => Ok(Null)
    else if ctx.workflow.None? then Err(NullPointer)
    else
      match GetNodeById(ctx.workflow.value.nodes, op.parent)
      case Err(e) => Err(e)
      case Ok(None) => Ok(Null)
      case Ok(Some(n)) => Ok(env.fromContext(n, op.name))
  }

  /**
   * The operands as `evaluateCondition` leaves them before evaluating: a
   * left operand with a parent is refreshed, and so is a right operand with
   * a parent when the condition's type is "VARIABLE".
   */
  function RefreshOperands(env: Env, ctx: WorkflowContext, c: Condition): (r: Result<Condition>)
    ensures r.Ok? ==> r.value.operator == c.operator && r.value.ctype == c.ctype
    ensures r.Ok? ==> (r.value.leftOperand.Some? <==> c.leftOperand.Some?) && (r.value.rightOperand.Some? <==> c.rightOperand.Some?)
    ensures r.Ok? && c.leftOperand.Some? ==> r.value.leftOperand.value == c.leftOperand.value.(value := r.value.leftOperand.value.value)
    ensures r.Ok? && c.rightOperand.Some? ==> r.value.rightOperand.value == c.rightOperand.value.(value := r.value.rightOperand.value.value)
    ensures c.rightOperand.Some? && c.ctype != Some("VARIABLE") && r.Ok? ==> r.value.rightOperand == c.rightOperand
    ensures r.Err? ==> r.error == NullPointer
  {
    var left :=
      if c.leftOperand.Some? && c.leftOperand.value.parent.Some? then
        match ResolveOperand(env, ctx, c.leftOperand.value)
        case Ok(v) => Ok(Some(c.leftOperand.value.(value := v)))
        case Err(e) => Err(e)
      else Ok(c.leftOperand);
    if left.Err? then Err(left.error)
    else
      var right :=
        if c.rightOperand.Some? && c.ctype == Some("VARIABLE") && c.rightOperand.value.parent.Some? then
          match ResolveOperand(env, ctx, c.rightOperand.value)
          case Ok(v) => Ok(Some(c.rightOperand.value.(value := v)))
          case Err(e) => Err(e)
        else Ok(c.rightOperand);
      if right.Err? then Err(right.error)
      else Ok(c.(leftOperand := left.value, rightOperand := right.value))
  }

  /** One condition as the engine evaluates it: refresh, then `evaluateSingleCondition`. */
  function EvalCondition(env: Env, ctx: WorkflowContext, c: Condition): Result<bool> {
    match RefreshOperands(env, ctx, c)
    case Err(e) => Err(e)
    case Ok(c') => EvaluateSingle(c')
  }

  predicate IsAnd(kind: Option<string>) {
    kind.Some? && EqualsIgnoreCase(kind.value, "and")
  }

  predicate IsOr(kind: Option<string>) {
    kind.Some? && EqualsIgnoreCase(kind.value, "or")
  }

  /**
   * The inner loop of `evaluateCondition` from accumulator `acc` (true at
   * the start): "and" stops at the first false, "or" at the first true;
   * any other type runs every condition and keeps `acc`.
   */
  function RunCase(env: Env, ctx: WorkflowContext, cs: seq<Condition>, kind: Option<string>, acc: bool): Result<bool>
    decreases |cs|
  {
    if cs == [] then Ok(acc)
    else
      match EvalCondition(env, ctx, cs[0])
      case Err(e) => Err(e)
      case Ok(b) =>
        if IsAnd(kind) then
          if !(acc && b) then Ok(false) else RunCase(env, ctx, cs[1..], kind, acc && b)
        else if IsOr(kind) then
          if acc || b then Ok(true) else RunCase(env, ctx, cs[1..], kind, acc || b)
        else RunCase(env, ctx, cs[1..], kind, acc)
  }

  /** Every condition in `cs` evaluates to true, none throwing. */
  predicate AllTrue(env: Env, ctx: WorkflowContext, cs: seq<Condition>) {
    forall i :: 0 <= i < |cs| ==> EvalCondition(env, ctx, cs[i]) == Ok(true)
  }

  /** An "and" case holds iff every condition holds. */
  lemma {:induction false} AndCaseHolds(env: Env, ctx: WorkflowContext, cs: seq<Condition>, kind: Option<string>)
    requires IsAnd(kind)
    ensures RunCase(env, ctx, cs, kind, true) == Ok(true) <==> AllTrue(env, ctx, cs)
    decreases |cs|
  {
    if cs != [] {
      AndCaseHolds(env, ctx, cs[1..], kind);
      assert forall i :: 1 <= i < |cs| ==> cs[i] == cs[1..][i - 1];
    }
  }

  /**
   * The accumulator starts at true, so an "or" case is decided by its first
   * condition alone, and holds unless that condition throws.
   */
  lemma OrCaseHoldsAtOnce(env: Env, ctx: WorkflowContext, cs: seq<Condition>, kind: Option<string>)
    requires IsOr(kind) && cs != []
    ensures RunCase(env, ctx, cs, kind, true) ==
              (if EvalCondition(env, ctx, cs[0]).Err? then Err(EvalCondition(env, ctx, cs[0]).error) else Ok(true))
  {
    assert !IsAnd(kind);
  }

  /** A case of any other type holds unless a condition throws. */
  lemma {:induction false} OtherCaseHolds(env: Env, ctx: WorkflowContext, cs: seq<Condition>, kind: Option<string>)
    requires !IsAnd(kind) && !IsOr(kind)
    ensures RunCase(env, ctx, cs, kind, true) != Ok(false)
    decreases |cs|
  {
    if cs != [] {
      OtherCaseHolds(env, ctx, cs[1..], kind);
    }
  }

  /**
   * The outer loop of `evaluateCondition` from case `i`: empty cases are
   * skipped; the index of the first case that holds, `None` if none does.
   */
  function ScanCases(env: Env, ctx: WorkflowContext, cases: seq<ConditionCase>, i: nat): (r: Result<Option<nat>>)
    requires i <= |cases|
    ensures r.Ok? && r.value.Some? ==> i <= r.value.value < |cases| && cases[r.value.value].conditions != []
    ensures r.Ok? && r.value.Some? ==>
              RunCase(env, ctx, cases[r.value.value].conditions, cases[r.value.value].ctype, true) == Ok(true)
    ensures r.Ok? ==> forall j :: i <= j < |cases| && cases[j].conditions != [] && (r.value.None? || j < r.value.value) ==>
                        RunCase(env, ctx, cases[j].conditions, cases[j].ctype, true) == Ok(false)
    decreases |cases| - i
  {
    if i == |cases| then Ok(None)
    else if cases[i].conditions == [] then ScanCases(env, ctx, cases, i + 1)
    else
      match RunCase(env, ctx, cases[i].conditions, cases[i].ctype, true)
      case Err(e) => Err(e)
      case Ok(b) => if b then Ok(Some(i)) else ScanCases(env, ctx, cases, i + 1)
  }

  /** The branch key for case index `i`: "case1", "case2", … */
  function CaseKey(i: nat): string {
    "case" + NatToString(i + 1)
  }

  /** The error result a caught exception becomes: its simple class name is the error code. */
  function CaughtError(env: Env, t: Option<NodeType>, e: Exc): (r: NodeResult)
    ensures HasError(r) && r.nodeType == t && r.outputs.None?
    ensures r.errorCode == Some(SimpleName(e)) && r.errorMessage == Message(e)
  {
    ErrorResult(t, Some(SimpleName(e)), Message(e), Some(env.stackTrace(e)))
  }

  /**
   * `evaluateCondition(node, context)`: the first non-empty case that holds
   * selects "caseN" (N counting from 1, empty cases included); none
   * selects "else"; an exception becomes an error result.
   */
  function EvaluateCondition(env: Env, ctx: WorkflowContext, n: WorkflowNode): (r: NodeResult)
    ensures r.nodeType == Some(CONDITION)
    ensures n.ntype != Some(CONDITION) ==> r == ConditionResult(Some(CONDITION), None, false)
    ensures !HasError(r) && n.ntype == Some(CONDITION) ==>
              || (r.matchedCase == Some("else") && FalseBefore(env, ctx, n.conditions, |n.conditions|))
              || exists i :: && 0 <= i < |n.conditions| && r.matchedCase == Some(CaseKey(i))
                             && Holds(env, ctx, n.conditions[i]) && FalseBefore(env, ctx, n.conditions, i)
    ensures !HasError(r) ==> (r.evaluated <==> r.matchedCase.Some? && r.matchedCase != Some("else"))
  {
    if n.ntype != Some(CONDITION) then ConditionResult(Some(CONDITION), None, false)
    else
      match ScanCases(env, ctx, n.conditions, 0)
      case Err(e) => CaughtError(env, Some(CONDITION), e)
      case Ok(None) => ConditionResult(Some(CONDITION), Some("else"), false)
      case Ok(Some(i)) => ConditionResult(Some(CONDITION), Some(CaseKey(i)), true)
  }

  /** A non-empty case whose conditions hold. */
  predicate Holds(env: Env, ctx: WorkflowContext, c: ConditionCase) {
    c.conditions != [] && RunCase(env, ctx, c.conditions, c.ctype, true) == Ok(true)
  }

  /** A case the scan passes over: empty, or evaluating to false without throwing. */
  predicate CaseFalse(env: Env, ctx: WorkflowContext, c: ConditionCase) {
    c.conditions == [] || RunCase(env, ctx, c.conditions, c.ctype, true) == Ok(false)
  }

  /** Every case before index `i` is passed over. */
  predicate FalseBefore(env: Env, ctx: WorkflowContext, cases: seq<ConditionCase>, i: nat)
    requires i <= |cases|
  {
    forall j :: 0 <= j < i ==> CaseFalse(env, ctx, cases[j])
  }

  /** A chain of equal neighbours makes its two ends equal. */
  lemma {:induction false} Telescope<R>(f: nat -> R, k: nat, i: nat)
    requires k <= i && forall m :: k <= m < i ==> f(m) == f(m + 1)
    ensures f(k) == f(i)
    decreases i - k
  {
    if k < i {
      Telescope(f, k + 1, i);
    }
  }

  /** The scan from `k` passes over cases that are empty or false up to `i`, and `i` decides. */
  lemma ScanReaches(env: Env, ctx: WorkflowContext, cases: seq<ConditionCase>, k: nat, i: nat)
    requires k <= i <= |cases| && FalseBefore(env, ctx, cases, i)
    ensures ScanCases(env, ctx, cases, k) == ScanCases(env, ctx, cases, i)
  {
    var f := (m: nat) => if m <= |cases| then ScanCases(env, ctx, cases, m) else Ok(None);
    forall m | k <= m < i
      ensures f(m) == f(m + 1)
    {
      assert CaseFalse(env, ctx, cases[m]);
      ScanSkips(env, ctx, cases, m);
    }
    Telescope(f, k, i);
  }

  /** An empty case, or one that evaluates to false, passes the scan on to the next. */
  lemma ScanSkips(env: Env, ctx: WorkflowContext, cases: seq<ConditionCase>, k: nat)
    requires k < |cases|
    requires CaseFalse(env, ctx, cases[k])
    ensures ScanCases(env, ctx, cases, k) == ScanCases(env, ctx, cases, k + 1)
  {
  }

  /**
   * When case `i` is the first non-empty case that does not evaluate to
   * false, it decides the node: "caseN" if it holds, the caught error if
   * it throws.
   */
  lemma EvaluateConditionAt(env: Env, ctx: WorkflowContext, n: WorkflowNode, i: nat)
    requires n.ntype == Some(CONDITION) && i < |n.conditions| && n.conditions[i].conditions != []
    requires FalseBefore(env, ctx, n.conditions, i)
    ensures var c := n.conditions[i];
            RunCase(env, ctx, c.conditions, c.ctype, true) == Ok(true) ==>
              EvaluateCondition(env, ctx, n) == ConditionResult(Some(CONDITION), Some(CaseKey(i)), true)
    ensures var c := n.conditions[i];
            RunCase(env, ctx, c.conditions, c.ctype, true).Err? ==>
              EvaluateCondition(env, ctx, n) == CaughtError(env, Some(CONDITION), RunCase(env, ctx, c.conditions, c.ctype, true).error)
  {
    ScanReaches(env, ctx, n.conditions, 0, i);
  }

  /** When every non-empty case evaluates to false, the node selects "else". */
  lemma EvaluateConditionElse(env: Env, ctx: WorkflowContext, n: WorkflowNode)
    requires n.ntype == Some(CONDITION) && FalseBefore(env, ctx, n.conditions, |n.conditions|)
    ensures EvaluateCondition(env, ctx, n) == ConditionResult(Some(CONDITION), Some("else"), false)
  {
    ScanReaches(env, ctx, n.conditions, 0, |n.conditions|);
  }

  /** "caseN" is never "else". */
  lemma CaseKeyNotElse(i: nat)
    ensures CaseKey(i) != "else"
  {
    assert CaseKey(i)[0] == 'c';
  }

  /** A case with no conditions never matches: it is skipped, and the next case is tried. */
  lemma EmptyCaseSkipped(env: Env, ctx: WorkflowContext, n: WorkflowNode)
    requires n.ntype == Some(CONDITION) && forall j :: 0 <= j < |n.conditions| ==> n.conditions[j].conditions == []
    ensures EvaluateCondition(env, ctx, n) == ConditionResult(Some(CONDITION), Some("else"), false)
  {
    SkipEmpty(env, ctx, n.conditions, 0);
  }

  lemma {:induction false} SkipEmpty(env: Env, ctx: WorkflowContext, cases: seq<ConditionCase>, i: nat)
    requires i <= |cases| && forall j :: i <= j < |cases| ==> cases[j].conditions == []
    ensures ScanCases(env, ctx, cases, i) == Ok(None)
    decreases |cases| - i
  {
    if i < |cases| {
      SkipEmpty(env, ctx, cases, i + 1);
    }
  }

  /**
   * A "global" left operand is refreshed to the stored variable object,
   * which is not a `Number`: an ordering against it is always false.
   */
  lemma GlobalOperandNeverOrders(env: Env, ctx: WorkflowContext, c: Condition)
    requires c.leftOperand.Some? && c.leftOperand.value.parent == Some("global")
    requires c.operator.Some? && c.operator.value in {"GREATER_THAN", "LESS_THAN", "GREATER_THAN_OR_EQUALS", "LESS_THAN_OR_EQUALS"}
    ensures EvalCondition(env, ctx, c) != Ok(true)
  {
  }

  /**
   * The run's context never has a workflow attached, so a condition operand
   * whose parent is a node id throws as soon as its case is reached.
   */
  lemma NodeParentWithoutWorkflowFails(env: Env, ctx: WorkflowContext, n: WorkflowNode)
    requires ctx.workflow.None? && n.ntype == Some(CONDITION) && |n.conditions| > 0
    requires n.conditions[0].conditions != []
    requires var c := n.conditions[0].conditions[0];
             c.leftOperand.Some? && c.leftOperand.value.parent.Some? && c.leftOperand.value.parent != Some("global")
    ensures EvaluateCondition(env, ctx, n) == CaughtError(env, Some(CONDITION), NullPointer)
    ensures EvaluateCondition(env, ctx, n).errorCode == Some("NullPointerException")
  {
    var c := n.conditions[0].conditions[0];
    assert ResolveOperand(env, ctx, c.leftOperand.value) == Err(NullPointer);
    assert RefreshOperands(env, ctx, c) == Err(NullPointer);
    assert RunCase(env, ctx, n.conditions[0].conditions, n.conditions[0].ctype, true) == Err(NullPointer);
    assert ScanCases(env, ctx, n.conditions, 0) == Err(NullPointer);
  }

  // ---------------------------------------------------------------------
  // Tool nodes
  // ---------------------------------------------------------------------

  /**
   * What one input mapping feeds the tool: a constant's own value (even
   * null); otherwise the named entry of the parent context when the
   * mapping has a non-empty parent, else the stored variable of that name;
   * `None` when nothing is put.
   */
  function MappedInput(env: Env, ctx: WorkflowContext, v: Option<Variable>): (r: Option<Value>)
    ensures v.None? ==> r.None?
    ensures v.Some? && v.value.name == Some("CONSTANT") ==> r == Some(v.value.value)
    ensures v.Some? && v.value.name != Some("CONSTANT") && r.Some? ==> !r.value.Null?
  {
    if v.None? then None
    else if v.value.name == Some("CONSTANT") then Some(v.value.value)
    else if v.value.parent.Some? && v.value.parent.value != "" then
      match env.parentContext(v.value.parent.value, ctx)
      case Some(m) =>
        if v.value.name.Some? && v.value.name.value in m && !m[v.value.name.value].Null?
        then Some(m[v.value.name.value]) else None
      case None => None
    else if v.value.name.Some? && v.value.name.value in ctx.variables then Some(Record(ctx.variables[v.value.name.value]))
    else None
  }

  /**
   * `prepareToolInputs(node, context)`: without mappings every stored
   * variable is passed; with mappings, exactly the parameters whose mapping
   * yields something.
   */
  function PrepareToolInputs(env: Env, ctx: WorkflowContext, n: WorkflowNode): (r: map<string, Value>)
    ensures n.inputMap == map[] ==> r.Keys == ctx.variables.Keys
    ensures n.inputMap == map[] ==> forall k :: k in r ==> r[k] == Record(ctx.variables[k])
    ensures n.inputMap != map[] ==> forall p :: p in r <==> p in n.inputMap && MappedInput(env, ctx, n.inputMap[p]).Some?
    ensures n.inputMap != map[] ==> forall p :: p in r ==> r[p] == MappedInput(env, ctx, n.inputMap[p]).value
  {
    if n.inputMap == map[] then map k | k in ctx.variables :: Record(ctx.variables[k])
    else map p | p in n.inputMap && MappedInput(env, ctx, n.inputMap[p]).Some? :: MappedInput(env, ctx, n.inputMap[p]).value
  }

  /**
   * The values `executeTool` hands the tool: the value of each non-null
   * input, read as a `VariableDefinition` (which a null value still is).
   */
  function InputValues(inputs: map<string, Value>): (r: map<string, Value>)
    ensures forall k :: k in r <==> k in inputs && inputs[k].Record?
    ensures forall k :: k in r ==> r[k] == inputs[k].v.value
  {
    map k | k in inputs && inputs[k].Record? :: inputs[k].v.value
  }

  /** A non-null input that is not a `VariableDefinition` fails the lambda's cast. */
  predicate Uncastable(inputs: map<string, Value>) {
    exists k :: k in inputs && !inputs[k].Null? && !inputs[k].Record?
  }

  /** The `ToolException` an unexpected exception is wrapped into. */
  function ExecutionError(e: Exc): (r: Exc)
    ensures IsToolException(r) && Message(r) == Some("Tool execution failed: " + NameText(Message(e)))
  {
    Tool(NewToolException(Some("Tool execution failed: " + NameText(Message(e))), Some("EXECUTION_ERROR")))
  }

  function ToolNotFound(name: string): (r: Exc)
    ensures IsToolException(r) && r.te.errorCode == Some("TOOL_NOT_FOUND")
  {
    Tool(NewToolException(Some("Tool not found: " + name), Some("TOOL_NOT_FOUND")))
  }

  /**
   * `executeTool(toolName, inputs)`: looks the handler up, hands it the
   * values of the non-null inputs, and returns its data map (`None` for
   * null data). The inputs are declared as `VariableDefinition`s, so an
   * input of any other class fails the cast in the copying lambda before
   * the tool runs. A failed response becomes a `ToolException` with the
   * response's message and code; a `ToolException` the tool throws passes
   * through; anything else, including the failed cast and data that is not
   * a map, becomes EXECUTION_ERROR.
   */
  function ExecuteTool(env: Env, name: string, inputs: map<string, Value>): (r: Result<Option<map<string, Value>>>)
    ensures name !in env.registry ==> r == Err(ToolNotFound(name))
    ensures r.Err? ==> IsToolException(r.error)
    ensures r.Ok? ==> name in env.registry && !Uncastable(inputs)
    ensures name in env.registry && Uncastable(inputs) ==> r == Err(ExecutionError(ClassCast))
    ensures name in env.registry && !Uncastable(inputs) ==>
              var inv := env.execute(env.registry[name], InputValues(inputs));
              (r.Ok? <==> inv.Responded? && inv.response.success && (inv.response.data.MapV? || inv.response.data.Null?))
    ensures r.Ok? && r.value.Some? ==>
              env.execute(env.registry[name], InputValues(inputs)).response.data == MapV(r.value.value)
  {
    match GetHandler(env.registry, name)
    case None => Err(ToolNotFound(name))
    case Some(h) =>
      if Uncastable(inputs) then Err(ExecutionError(ClassCast))
      else
        var values := InputValues(inputs);
        match env.execute(h, values)
        case Threw(e) => if IsToolException(e) then Err(e) else Err(ExecutionError(e))
        case Responded(resp) =>
          if !resp.success then Err(Tool(NewToolException(resp.message, resp.errorCode)))
          else if resp.data.MapV? then Ok(Some(resp.data.entries))
          else if resp.data.Null? then Ok(None)
          else Err(ExecutionError(ClassCast))
  }

  /** Whether turning one tool result entry into a variable throws: the output schema or the field's type is null. */
  predicate OutputThrows(data: map<string, Value>, schema: Option<map<string, FieldDef>>, k: string)
    requires k in data
  {
    !data[k].Null? && (schema.None? || (k in schema.value && schema.value[k].ftype.None?))
  }

  /**
   * The tool results as stored variables: each non-null entry with an
   * output definition becomes that definition's variable, named by the
   * bare key, with the node as parent and the entry as value.
   */
  function OutputVariables(data: map<string, Value>, schema: Option<map<string, FieldDef>>, nodeId: Option<string>)
    : (r: Result<map<string, Variable>>)
    ensures r.Err? <==> exists k :: k in data && OutputThrows(data, schema, k)
    ensures r.Err? ==> r.error == NullPointer
    ensures r.Ok? ==> forall k :: k in r.value <==> k in data && !data[k].Null? && schema.Some? && k in schema.value
    ensures r.Ok? ==> forall k :: k in r.value ==>
              r.value[k].name == Some(k) && r.value[k].value == data[k] && r.value[k].parent == nodeId &&
              r.value[k].vtype == Some(FieldTypeName(schema.value[k].ftype.value)) &&
              r.value[k].description == schema.value[k].description
  {
    if exists k :: k in data && OutputThrows(data, schema, k) then Err(NullPointer)
    else if schema.None? then Ok(map[])
    else
      Ok(map k | k in data && !data[k].Null? && k in schema.value ::
           FromFieldDefinition(schema.value[k], nodeId).value.(name := Some(k), value := data[k]))
  }

  /**
   * `executeToolNode(node, context)`: a missing tool name, a tool failure,
   * null data or an output that cannot be converted all end in an error
   * result (code: the exception's simple class name); otherwise the
   * outputs are the converted results.
   */
  function ExecuteToolNode(env: Env, ctx: WorkflowContext, n: WorkflowNode): (r: NodeResult)
    ensures r.nodeType == Some(FUNCTION)
    ensures (n.toolName.None? || n.toolName == Some("")) ==> r == CaughtError(env, Some(FUNCTION), Runtime("Tool name is empty"))
    ensures !HasError(r) ==> n.toolName.Some? && n.toolName.value in env.registry && r.outputs.Some?
    ensures !HasError(r) ==> forall k :: k in r.outputs.value ==> r.outputs.value[k].name == Some(k) && r.outputs.value[k].parent == n.id
  {
    if n.toolName.None? || n.toolName.value == "" then CaughtError(env, Some(FUNCTION), Runtime("Tool name is empty"))
    else
      var name := n.toolName.value;
      match ExecuteTool(env, name, PrepareToolInputs(env, ctx, n))
      case Err(e) => CaughtError(env, Some(FUNCTION), e)
      case Ok(None) => CaughtError(env, Some(FUNCTION), NullPointer)
      case Ok(Some(data)) =>
        match OutputVariables(data, env.registry[name].definition.outputs, n.id)
        case Err(e) => CaughtError(env, Some(FUNCTION), e)
        case Ok(vars) => FunctionResult(Some(FUNCTION), Some(vars))
  }

  /**
   * A tool node that maps a parameter to a non-null constant never reaches
   * its tool: the constant is not a `VariableDefinition`, so the copy into
   * the tool's arguments fails and the node reports EXECUTION_ERROR's
   * exception, whose message starts "Tool execution failed: ".
   */
  lemma MappedConstantFailsCast(env: Env, ctx: WorkflowContext, n: WorkflowNode, param: string, c: Value)
    requires n.toolName.Some? && n.toolName.value != "" && n.toolName.value in env.registry
    requires param in n.inputMap && n.inputMap[param] == Some(NewVariable().(name := Some("CONSTANT"), value := c))
    requires !c.Null? && !c.Record?
    ensures ExecuteToolNode(env, ctx, n).errorCode == Some("ToolException")
    ensures ExecuteToolNode(env, ctx, n).errorMessage.Some?
    ensures "Tool execution failed: " <= ExecuteToolNode(env, ctx, n).errorMessage.value
  {
    var inputs := PrepareToolInputs(env, ctx, n);
    assert n.inputMap != map[];
    assert MappedInput(env, ctx, n.inputMap[param]) == Some(c);
    assert param in inputs && inputs[param] == c;
    assert Uncastable(inputs);
    assert ExecuteTool(env, n.toolName.value, inputs) == Err(ExecutionError(ClassCast));
    assert Message(ExecutionError(ClassCast)) == Some("Tool execution failed: " + "null");
    assert "Tool execution failed: " + "null" == "Tool execution failed: null";
    assert ExecuteToolNode(env, ctx, n) == CaughtError(env, Some(FUNCTION), ExecutionError(ClassCast));
  }

  /**
   * The error code of a missing tool is the class name "ToolException"; the
   * tool's own code (TOOL_NOT_FOUND) survives only inside the message-less
   * exception object, which the result drops.
   */
  lemma MissingToolReportsClassName(env: Env, ctx: WorkflowContext, n: WorkflowNode)
    requires n.toolName.Some? && n.toolName.value != "" && n.toolName.value !in env.registry
    ensures ExecuteToolNode(env, ctx, n).errorCode == Some("ToolException")
    ensures ExecuteToolNode(env, ctx, n).errorMessage == Some("Tool not found: " + n.toolName.value)
  {
  }

  /**
   * `executeNode(node, context)`: dispatches on the node type; a null type
   * is caught as a `NullPointerException`.
   */
  function ExecuteNode(env: Env, ctx: WorkflowContext, n: WorkflowNode): (r: NodeResult)
    ensures n.ntype.None? ==> r == CaughtError(env, None, NullPointer)
    ensures n.ntype.Some? ==> r.nodeType == n.ntype
    ensures n.ntype == Some(START) || n.ntype == Some(END) ==> r == PlainResult(n.ntype)
    ensures n.ntype == Some(FUNCTION) ==> r == ExecuteToolNode(env, ctx, n)
    ensures n.ntype == Some(CONDITION) ==> r == EvaluateCondition(env, ctx, n)
  {
    match n.ntype
    case None => CaughtError(env, None, NullPointer)
    case Some(START) => PlainResult(Some(START))
    case Some(END) => PlainResult(Some(END))
    case Some(FUNCTION) => ExecuteToolNode(env, ctx, n)
    case Some(CONDITION) => EvaluateCondition(env, ctx, n)
  }

  // ---------------------------------------------------------------------
  // Debug events and the run loop
  // ---------------------------------------------------------------------

  datatype EventKind = ENTER | EXIT | COMPLETE

  /**
   * What the debug service is sent: node events (`NodeExecutionEvent`,
   * serialized when sent, so the variables are a snapshot) and the end of
   * the session.
   */
  datatype DebugEvent =
    | NodeEvent(executionId: string, nodeId: Option<string>, nodeName: Option<string>, nodeType: NodeType,
                kind: EventKind, variables: Option<map<string, Variable>>, result: Option<NodeResult>)
    | SessionComplete(executionId: string)

  /** The entry of `nextNodes` under `key`, null when the key is null or absent. */
  function Successor(n: WorkflowNode, key: Option<string>): (r: Option<string>)
    ensures r.Some? ==> key.Some? && key.value in n.nextNodes && n.nextNodes[key.value] == r
  {
    if key.Some? && key.value in n.nextNodes then n.nextNodes[key.value] else None
  }

  datatype StepOutcome =
    | Next(ctx: WorkflowContext, events: seq<DebugEvent>, next: Option<string>)
    | Failed(ctx: WorkflowContext, events: seq<DebugEvent>)

  /**
   * One iteration of the loop in `executeWorkflow` at node `id`: look the
   * node up, mark it current, send ENTER, execute it, stop on an error,
   * store its outputs, send EXIT and COMPLETE, and pick the successor: the
   * matched case's entry after a condition node, "default" after any other.
   */
  function Step(env: Env, w: Workflow, ctx: WorkflowContext, id: string): (r: StepOutcome)
    ensures r.ctx == ctx || r.ctx.currentNodeId == Some(id)
    ensures r.ctx.executionId == ctx.executionId && r.ctx.status == ctx.status
    ensures ctx.variables.Keys <= r.ctx.variables.Keys
    ensures r.Failed? ==> |r.events| <= 1
    ensures r.Next? ==> |r.events| == 3 && r.events[0].NodeEvent? && r.events[0].kind == ENTER
                        && r.events[1].NodeEvent? && r.events[1].kind == EXIT
                        && r.events[2].NodeEvent? && r.events[2].kind == COMPLETE
                        && r.events[1].variables == Some(r.ctx.variables)
    ensures forall e :: e in r.events ==> e.NodeEvent? && e.executionId == ctx.executionId
  {
    match GetNodeById(w.nodes, Some(id))
    case Err(_) => Failed(ctx, [])
    case Ok(None) => Failed(ctx, [])
    case Ok(Some(n)) =>
      var ctx1 := ctx.(currentNodeId := Some(id));
      if n.ntype.None? then Failed(ctx1, [])
      else
        var t := n.ntype.value;
        var enter := NodeEvent(ctx.executionId, n.id, n.name, t, ENTER, Some(ctx1.variables), None);
        var res := ExecuteNode(env, ctx1, n);
        if HasError(res) then Failed(ctx1, [enter])
        else
          var ctx2 := if res.outputs.Some? then ctx1.(variables := ctx1.variables + res.outputs.value) else ctx1;
          var exit := NodeEvent(ctx.executionId, n.id, n.name, t, EXIT, Some(ctx2.variables), None);
          var complete := NodeEvent(ctx.executionId, n.name, n.name, t, COMPLETE, None, Some(res));
          var next := if res.nodeType == Some(CONDITION) then Successor(n, res.matchedCase) else Successor(n, Some("default"));
          Next(ctx2, [enter, exit, complete], next)
  }

  /** A node's outputs are stored under their bare names: they replace any variable already stored there. */
  lemma StepStoresOutputs(env: Env, w: Workflow, ctx: WorkflowContext, id: string, n: WorkflowNode)
    requires GetNodeById(w.nodes, Some(id)) == Ok(Some(n)) && n.ntype.Some?
    requires var res := ExecuteNode(env, ctx.(currentNodeId := Some(id)), n); !HasError(res) && res.outputs.Some?
    ensures var res := ExecuteNode(env, ctx.(currentNodeId := Some(id)), n);
            Step(env, w, ctx, id).Next? &&
            forall k :: k in res.outputs.value ==> Step(env, w, ctx, id).ctx.variables[k] == res.outputs.value[k]
  {
  }

  /** An END node is not a stop: the run goes on to its "default" successor if it has one. */
  lemma EndNodeContinues(env: Env, w: Workflow, ctx: WorkflowContext, id: string, n: WorkflowNode, succ: string)
    requires GetNodeById(w.nodes, Some(id)) == Ok(Some(n)) && n.ntype == Some(END)
    requires "default" in n.nextNodes && n.nextNodes["default"] == Some(succ)
    ensures Step(env, w, ctx, id).Next? && Step(env, w, ctx, id).next == Some(succ)
  {
  }

  /** The COMPLETE event names the node by its name in both fields; ENTER and EXIT carry its id. */
  lemma CompleteEventCarriesName(env: Env, w: Workflow, ctx: WorkflowContext, id: string, n: WorkflowNode)
    requires GetNodeById(w.nodes, Some(id)) == Ok(Some(n)) && Step(env, w, ctx, id).Next?
    ensures Step(env, w, ctx, id).events[0].nodeId == n.id
    ensures Step(env, w, ctx, id).events[2].nodeId == n.name
    ensures n.id == Some(id)
  {
  }

  datatype RunOutcome = Finished(ctx: WorkflowContext, events: seq<DebugEvent>) | OutOfFuel

  /**
   * The loop of `executeWorkflow` from node `cur`, for at most `fuel` more
   * nodes: a null successor ends the run COMPLETED, any exception FAILED.
   */
  function Run(env: Env, w: Workflow, ctx: WorkflowContext, cur: Option<string>, fuel: nat): (r: RunOutcome)
    ensures r.Finished? ==> r.ctx.status in {COMPLETED, FAILED} && r.ctx.executionId == ctx.executionId
    ensures r.Finished? ==> ctx.variables.Keys <= r.ctx.variables.Keys
    ensures r.Finished? ==> forall e :: e in r.events ==> e.NodeEvent? && e.executionId == ctx.executionId
    ensures r.Finished? && cur.None? ==> r.ctx == ctx.(status := COMPLETED) && r.events == []
    decreases fuel
  {
    if cur.None? then Finished(ctx.(status := COMPLETED), [])
    else if fuel == 0 then OutOfFuel
    else
      match Step(env, w, ctx, cur.value)
      case Failed(c, ev) => Finished(c.(status := FAILED), ev)
      case Next(c, ev, nxt) =>
        match Run(env, w, c, nxt, fuel - 1)
        case OutOfFuel => OutOfFuel
        case Finished(c', ev') => Finished(c', ev + ev')
  }

  /**
   * The stored variables a run starts from: one per workflow input field.
   * The source hands field definitions over where stored variables are
   * expected, so each field goes through the parameter `inputRecord`.
   */
  function InitialVariables(env: Env, w: Workflow): (r: map<string, Variable>)
    ensures r.Keys == w.inputs.Keys
  {
    map k | k in w.inputs :: env.inputRecord(k, w.inputs[k])
  }

  /**
   * `executeWorkflow(workflow, context)`: the stored variables are replaced
   * by the workflow's inputs, the loop runs from the start node, and the
   * debug session is closed whatever the outcome.
   */
  function ExecuteWorkflow(env: Env, w: Workflow, ctx: WorkflowContext, fuel: nat): (r: RunOutcome)
    ensures r.Finished? ==> r.ctx.status in {COMPLETED, FAILED} && r.ctx.executionId == ctx.executionId
    ensures r.Finished? ==> |r.events| >= 1 && r.events[|r.events| - 1] == SessionComplete(ctx.executionId)
    ensures r.Finished? ==> forall i :: 0 <= i < |r.events| - 1 ==> r.events[i].NodeEvent? && r.events[i].executionId == ctx.executionId
    ensures r.Finished? ==> w.inputs.Keys <= r.ctx.variables.Keys
  {
    match Run(env, w, ctx.(variables := InitialVariables(env, w)), w.startNodeId, fuel)
    case OutOfFuel => OutOfFuel
    case Finished(c, ev) =>
      assert forall i :: 0 <= i < |ev| ==> ev[i] in ev;
      Finished(c, ev + [SessionComplete(ctx.executionId)])
  }

  /** A workflow without a start node completes at once, with the inputs stored and no node events. */
  lemma NoStartNodeCompletes(env: Env, w: Workflow, ctx: WorkflowContext, fuel: nat)
    requires w.startNodeId.None?
    ensures ExecuteWorkflow(env, w, ctx, fuel) ==
              Finished(ctx.(variables := InitialVariables(env, w), status := COMPLETED), [SessionComplete(ctx.executionId)])
  {
  }

  /** Variables the context already held, and its status, make no difference to the run. */
  lemma RunIgnoresPriorVariables(env: Env, w: Workflow, ctx: WorkflowContext, vars: map<string, Variable>, fuel: nat)
    ensures ExecuteWorkflow(env, w, ctx.(variables := vars), fuel) == ExecuteWorkflow(env, w, ctx, fuel)
  {
  }

  // ---------------------------------------------------------------------
  // The manager
  // ---------------------------------------------------------------------

  /** The manager's table of active runs, by execution id. */
  datatype Manager = Manager(active: map<string, WorkflowContext>)

  /**
   * `startWorkflow(workflowId, initialVariables)`: `loaded` is the result
   * of loading the workflow (`None`: the load failed). The new context gets
   * the caller's variables when given and is registered as active; the run
   * itself is `RunWorkflow`.
   */
  function StartWorkflow(m: Manager, executionId: string, workflowId: Option<string>, loaded: Option<Workflow>,
                         initial: Option<map<string, Variable>>): (r: Result<Manager>)
    requires executionId !in m.active
    ensures loaded.None? <==> r.Err?
    ensures r.Err? ==> r.error == Runtime("Failed to start workflow: " + NameText(workflowId))
    ensures r.Ok? ==> r.value.active.Keys == m.active.Keys + {executionId}
    ensures r.Ok? ==> forall k :: k in m.active ==> r.value.active[k] == m.active[k]
    ensures r.Ok? ==> var c := r.value.active[executionId];
                      c.status == RUNNING && c.workflow.None? && c.workflowId == workflowId &&
                      c.variables == (if initial.Some? then initial.value else map[])
  {
    if loaded.None? then Err(Runtime("Failed to start workflow: " + NameText(workflowId)))
    else
      var c := NewContext(executionId, workflowId).(variables := if initial.Some? then initial.value else map[]);
      Ok(Manager(m.active[executionId := c]))
  }

  /**
   * The asynchronous run of an active execution, to its end: the context
   * is finished and then removed from the table.
   */
  function RunWorkflow(m: Manager, env: Env, w: Workflow, executionId: string, fuel: nat): (r: Option<(Manager, RunOutcome)>)
    requires executionId in m.active
    ensures r.Some? ==> r.value.1.Finished? && r.value.0.active == m.active - {executionId}
    ensures r.None? <==> ExecuteWorkflow(env, w, m.active[executionId], fuel).OutOfFuel?
  {
    match ExecuteWorkflow(env, w, m.active[executionId], fuel)
    case OutOfFuel => None
    case Finished(c, ev) => Some((Manager(m.active - {executionId}), Finished(c, ev)))
  }

  /** `getWorkflowStatus(executionId)`: null once the run is over (or never started). */
  function GetWorkflowStatus(m: Manager, executionId: string): (r: Option<WorkflowStatus>)
    ensures r.Some? <==> executionId in m.active
    ensures r.Some? ==> r.value == m.active[executionId].status
  {
    if executionId in m.active then Some(m.active[executionId].status) else None
  }

  /** `stopWorkflow(executionId)`: marks an active run SUSPENDED; nothing else stops it. */
  function StopWorkflow(m: Manager, executionId: string): (r: (bool, Manager))
    ensures r.0 <==> executionId in m.active
    ensures r.1.active.Keys == m.active.Keys
    ensures r.0 ==> r.1.active[executionId] == m.active[executionId].(status := SUSPENDED)
    ensures forall k :: k in m.active && k != executionId ==> r.1.active[k] == m.active[k]
  {
    if executionId in m.active then (true, Manager(m.active[executionId := m.active[executionId].(status := SUSPENDED)]))
    else (false, m)
  }

  /**
   * Stopping does not stop: a SUSPENDED run that is then carried out
   * finishes COMPLETED or FAILED, and its status can no longer be read.
   */
  lemma StopThenRun(m: Manager, env: Env, w: Workflow, executionId: string, fuel: nat)
    requires executionId in m.active
    requires RunWorkflow(StopWorkflow(m, executionId).1, env, w, executionId, fuel).Some?
    ensures var r := RunWorkflow(StopWorkflow(m, executionId).1, env, w, executionId, fuel).value;
            r.1.ctx.status in {COMPLETED, FAILED} && GetWorkflowStatus(r.0, executionId).None?
  {
  }
}

=== FILE: layout.dfy ===
/**
 * Where the Vue canvas draws a node's ports (`PositionManager`). Positions
 * are whole pixels: the layout constants are integers and node positions
 * are kept as integers, so the arithmetic here is exact. A port's condition
 * is the key of the connection leaving it: "case1", "case2", ... for the
 * branches of a condition node, "else" for its fallback, and "default" for
 * the plain successor.
 */
module PortLayout {
  import opened Wrappers
  import opened Strings
  import opened AppTypes

  const Width: int := 200
  const BaseHeight: int := 80
  const ConditionPortSpacing: int := 24
  const InputPortX: int := 0
  const OutputPortX: int := 200
  const StandardPortY: int := 40
  const ConditionFirstPortY: int := 70
  const ConditionExpressionHeight: int := 24

  datatype PortType = Input | Output

  datatype Point = Point(x: int, y: int)

  /** The "case" prefix of a branch key, and the key of the `n`-th branch. */
  const CasePrefix := "case"

  function CaseKey(n: nat): string {
    CasePrefix + NatToString(n)
  }

  /**
   * `getNodeHeight`: a condition node grows by one spacing per condition
   * (an empty array is still present); every other node has the base height.
   */
  function NodeHeight(node: AppNode): (h: int)
    ensures h >= BaseHeight
    ensures node.ntype != ConditionType || node.conditionCount.None? ==> h == BaseHeight
  {
    if node.ntype == ConditionType && node.conditionCount.Some? then
      BaseHeight + node.conditionCount.value * ConditionPortSpacing
    else BaseHeight
  }

  /**
   * `getConditionIndex`: "case" followed by a number n gives n - 1, "else"
   * gives -2, and anything else -1. `None` is `NaN`, which is what
   * `parseInt` returns when no number follows "case".
   */
  function ConditionIndex(condition: Option<string>): (r: Option<int>)
    ensures condition.None? || condition == Some("") ==> r == Some(-1)
    ensures condition == Some("else") ==> r == Some(-2)
    ensures r.None? ==> condition.Some? && StartsWith(condition.value, CasePrefix)
    ensures condition.Some? && condition.value != "else" && !StartsWith(condition.value, CasePrefix) ==> r == Some(-1)
    ensures condition.Some? && StartsWith(condition.value, CasePrefix) ==>
              r == (if JsParseInt(condition.value[|CasePrefix|..]).Some?
                    then Some(JsParseInt(condition.value[|CasePrefix|..]).value - 1) else None)
  {
    ElseIsNotCase();
    if condition.Some? && condition.value != "" && StartsWith(condition.value, CasePrefix) then
      match JsParseInt(condition.value[|CasePrefix|..])
      case Some(n) => Some(n - 1)
      case None => None
    else if condition == Some("else") then Some(-2)
    else Some(-1)
  }

  /** `isConditionOutputPort`: an output port of a condition node with conditions, keyed by anything but "default". */
  function IsConditionOutputPort(node: AppNode, portType: PortType, condition: Option<string>): (b: bool)
    ensures b ==> portType == Output && node.ntype == ConditionType
    ensures condition == Some("default") || condition.None? || node.conditionCount.None? ==> !b
  {
    && portType == Output
    && node.ntype == ConditionType
    && node.conditionCount.Some?
    && condition.Some?
    && condition.value != "default"
  }

  /** The port every node has: the input at the left edge, the output at the right, both 40 below the top. */
  function StandardPort(node: AppNode, portType: PortType): (p: Point)
    ensures p.y == node.position.y + StandardPortY
    ensures portType == Input ==> p.x == node.position.x
    ensures portType == Output ==> p.x == node.position.x + Width
  {
    match portType
    case Input => Point(node.position.x + InputPortX, node.position.y + StandardPortY)
    case Output => Point(node.position.x + OutputPortX, node.position.y + StandardPortY)
  }

  /**
   * `getPortPosition`: a branch port of a condition node sits on the right
   * edge at its own row; the "else" port shares the row of the last
   * condition; every other port is the standard one.
   */
  function PortPosition(node: AppNode, portType: PortType, condition: Option<string>): (p: Point)
    ensures !IsConditionOutputPort(node, portType, condition) ==> p == StandardPort(node, portType)
    ensures portType == Output ==> p.x == node.position.x + Width
    ensures portType == Input ==> p == StandardPort(node, Input)
  {
    if IsConditionOutputPort(node, portType, condition) then
      var index := ConditionIndex(condition);
      if index.Some? && index.value >= 0 then
        Point(node.position.x + OutputPortX, node.position.y + ConditionFirstPortY + index.value * ConditionExpressionHeight)
      else if index == Some(-2) then
        Point(node.position.x + OutputPortX,
              node.position.y + ConditionFirstPortY + (node.conditionCount.value - 1) * ConditionExpressionHeight)
      else StandardPort(node, portType)
    else StandardPort(node, portType)
  }

  lemma ElseIsNotCase()
    ensures !StartsWith("else", CasePrefix)
  {
    assert "else"[..4][0] != CasePrefix[0];
  }

  lemma CaseKeyParts(n: nat)
    ensures StartsWith(CaseKey(n), CasePrefix) && CaseKey(n) != ""
    ensures CaseKey(n)[|CasePrefix|..] == NatToString(n)
  {
    assert CaseKey(n)[..|CasePrefix|] == CasePrefix;
  }

  /** The key of the n-th branch is read back as index n - 1. */
  lemma CaseKeyIndex(n: nat)
    ensures ConditionIndex(Some(CaseKey(n))) == Some(n - 1)
  {
    CaseKeyParts(n);
    JsParseIntOfNat(n);
  }

  /** "case-1" parses as -1, so its index is -2 and the layout puts it at the "else" port. */
  lemma CaseMinusOneIsElse()
    ensures ConditionIndex(Some("case-1")) == ConditionIndex(Some("else")) == Some(-2)
  {
    var c := "case-1";
    assert StartsWith(c, CasePrefix) by { assert c[..4] == CasePrefix; }
    assert c[4..] == "-1";
    assert TrimStartJs("-1") == "-1";
    assert "-1"[1..] == "1";
    assert LeadingDigits("1") == "1" by { assert "1"[1..] == []; }
    assert ParseMagnitude("1") == Some(1);
  }

  /** `parseInt` skips a no-break space, so "case\u00A01" is read as the first branch. */
  lemma NoBreakSpaceBeforeDigits()
    ensures ConditionIndex(Some("case\U{A0}1")) == Some(0)
  {
    var c := "case\U{A0}1";
    assert StartsWith(c, CasePrefix) by { assert c[..4] == CasePrefix; }
    assert c[4..] == "\U{A0}1";
    assert TrimStartJs("\U{A0}1") == "1" by { assert "\U{A0}1"[1..] == "1"; }
    assert LeadingDigits("1") == "1" by { assert "1"[1..] == []; }
    assert ParseMagnitude("1") == Some(1);
  }

  /** The n-th branch port (n >= 1) of a condition node is on the right edge, 70 + 24(n - 1) below the top. */
  lemma CasePortPosition(node: AppNode, n: nat)
    requires node.ntype == ConditionType && node.conditionCount.Some?
    requires n >= 1
    ensures PortPosition(node, Output, Some(CaseKey(n)))
         == Point(node.position.x + Width, node.position.y + ConditionFirstPortY + (n - 1) * ConditionExpressionHeight)
  {
    CaseKeyIndex(n);
    CaseKeyParts(n);
  }

  /** The "else" port is drawn at the same place as the port of the last branch. */
  lemma ElsePortMatchesLastCase(node: AppNode)
    requires node.ntype == ConditionType && node.conditionCount.Some? && node.conditionCount.value >= 1
    ensures PortPosition(node, Output, Some("else")) == PortPosition(node, Output, Some(CaseKey(node.conditionCount.value)))
  {
    CasePortPosition(node, node.conditionCount.value);
  }

  /** Distinct branches get distinct ports: a later branch is strictly lower. */
  lemma CasePortsOrdered(node: AppNode, m: nat, n: nat)
    requires node.ntype == ConditionType && node.conditionCount.Some?
    requires 1 <= m < n
    ensures PortPosition(node, Output, Some(CaseKey(m))).y < PortPosition(node, Output, Some(CaseKey(n))).y
  {
    CasePortPosition(node, m);
    CasePortPosition(node, n);
  }

  /** Every branch port of a condition node lies within the node's drawn height. */
  lemma CasePortsInsideNode(node: AppNode, n: nat)
    requires node.ntype == ConditionType && node.conditionCount.Some?
    requires 1 <= n <= node.conditionCount.value
    ensures node.position.y < PortPosition(node, Output, Some(CaseKey(n))).y < node.position.y + NodeHeight(node)
  {
    CasePortPosition(node, n);
  }

  /** The "default" key, a missing key, an input port and a node that is not a condition node all use the standard port. */
  lemma StandardPortFallback(node: AppNode, portType: PortType, condition: Option<string>)
    requires || condition.None? || condition == Some("default") || portType == Input
             || node.ntype != ConditionType || node.conditionCount.None?
    ensures PortPosition(node, portType, condition) == StandardPort(node, portType)
  {
  }
}

/**
 * The colours and labels of nodes and connection labels (`nodeColors.ts`).
 * Label widths count characters as the label's `length`.
 */
module NodeColors {
  import opened Strings
  import opened AppTypes

  const StartColor := "#4CAF50"
  const FunctionColor := "#2196F3"
  const ConditionColor := "#FF9800"
  const EndColor := "#F44336"
  const DefaultColor := "#757575"
  const PlainLabelColor := "#666666"
  const MinLabelWidth: int := 40

  predicate KnownType(t: string) {
    t == StartType || t == FunctionType || t == ConditionType || t == EndType
  }

  /** `getNodeColor`: one fixed colour per node type and grey for any other string. */
  function NodeColor(t: string): (c: string)
    ensures c in {StartColor, FunctionColor, ConditionColor, EndColor, DefaultColor}
    ensures !KnownType(t) <==> c == DefaultColor
  {
    if t == StartType then StartColor
    else if t == FunctionType then FunctionColor
    else if t == ConditionType then ConditionColor
    else if t == EndType then EndColor
    else DefaultColor
  }

  /** The four node types are told apart by colour. */
  lemma NodeColorsDistinct(t1: string, t2: string)
    requires KnownType(t1) && KnownType(t2) && t1 != t2
    ensures NodeColor(t1) != NodeColor(t2)
  {
  }

  /** `getLabelColor`: the condition colour for labels leaving a condition node, grey otherwise. */
  function LabelColor(t: string, condition: string): (c: string)
    ensures t == ConditionType ==> c == NodeColor(t)
    ensures t != ConditionType ==> c == PlainLabelColor && c != NodeColor(t)
  {
    if t == ConditionType then ConditionColor else PlainLabelColor
  }

  /** A label's colour does not depend on the connection's condition. */
  lemma LabelColorIgnoresCondition(t: string, c1: string, c2: string)
    ensures LabelColor(t, c1) == LabelColor(t, c2)
  {
  }

  /** `getDisplayLabel`: "case" + s is shown as "Case " + s, "else" as "ELSE", anything else as it is. */
  function DisplayLabel(condition: string): (shown: string)
    ensures StartsWith(condition, "case") ==> |shown| == |condition| + 1
    ensures !StartsWith(condition, "case") && condition != "else" ==> shown == condition
  {
    if StartsWith(condition, "case") then "Case " + condition[4..]
    else if condition == "else" then "ELSE"
    else condition
  }

  /** The display label of a branch key keeps the branch's suffix after "Case ". */
  lemma DisplayLabelOfCase(s: string)
    ensures DisplayLabel("case" + s) == "Case " + s
    ensures DisplayLabel("else") == "ELSE"
  {
    assert ("case" + s)[..4] == "case";
    assert ("case" + s)[4..] == s;
    assert "else"[..4][0] != "case"[0];
  }

  /** Two different conditions can share a label: "case1" and "Case 1" are both shown as "Case 1". */
  lemma DisplayLabelNotInjective()
    ensures DisplayLabel("case1") == DisplayLabel("Case 1") == "Case 1"
  {
    DisplayLabelOfCase("1");
    assert "case" + "1" == "case1";
    assert "Case 1"[..4][0] != "case"[0];
  }

  /** `getLabelWidth`: eight pixels per character plus sixteen, and never under forty. */
  function LabelWidth(condition: string): (w: int)
    ensures w >= MinLabelWidth
    ensures w >= |DisplayLabel(condition)| * 8 + 16
    ensures w == MinLabelWidth || w == |DisplayLabel(condition)| * 8 + 16
  {
    var shown := DisplayLabel(condition);
    if |shown| * 8 + 16 > MinLabelWidth then |shown| * 8 + 16 else MinLabelWidth
  }

  /** A branch label is always wider than the minimum: "Case " alone already takes 56 pixels. */
  lemma LabelWidthOfCase(s: string)
    ensures LabelWidth("case" + s) == (|s| + 5) * 8 + 16
  {
    DisplayLabelOfCase(s);
  }
}

=== FILE: loader.dfy ===
/**
 * `WorkflowLoader`: the JSON side of saving and loading workflows. The file
 * system is a map from file name to the stored JSON document, and fastjson's
 * conversions between text and objects are left to parameters; what is
 * modelled is the loader's own logic over JSON values.
 */
module Loader {
  import opened Wrappers
  import opened Strings
  import opened JsonValues
  import opened Schema
  import opened Exceptions
  import WorkflowModel

  // ---------------------------------------------------------------------
  // cleanupTypeInfo
  // ---------------------------------------------------------------------

  const TypeKey := "@type"

  /**
   * `cleanupTypeInfo(json)` on an object: "@type" is removed, object values
   * are cleaned recursively, and so are the objects directly inside array
   * values. Arrays inside arrays are not entered.
   */
  function CleanObject(m: map<string, Json>): (r: map<string, Json>)
    ensures r.Keys == m.Keys - {TypeKey}
    decreases JObj(m), 1
  {
    map k | k in m && k != TypeKey :: CleanEntry(m[k])
  }

  /** What the loop in `cleanupTypeInfo` does to one value of the object. */
  function CleanEntry(v: Json): (r: Json)
    ensures !v.JObj? && !v.JArr? ==> r == v
    ensures v.JObj? ==> r.JObj? && r.fields.Keys == v.fields.Keys - {TypeKey}
    ensures v.JArr? ==> r.JArr? && |r.items| == |v.items| &&
                        forall i :: 0 <= i < |v.items| && !v.items[i].JObj? ==> r.items[i] == v.items[i]
    decreases v, 3
  {
    match v
    case JObj(f) => JObj(CleanObject(f))
    case JArr(items) => JArr(seq(|items|, i requires 0 <= i < |items| => CleanElement(items[i])))
    case _ => v
  }

  /** An array element: an object is cleaned, anything else (a nested array included) is kept. */
  function CleanElement(e: Json): (r: Json)
    ensures !e.JObj? ==> r == e
    decreases e, 2
  {
    if e.JObj? then JObj(CleanObject(e.fields)) else e
  }

  /** No "@type" key anywhere `cleanupTypeInfo` looks. */
  predicate ScrubbedObject(m: map<string, Json>)
    decreases JObj(m), 1
  {
    TypeKey !in m && forall k :: k in m ==> ScrubbedEntry(m[k])
  }

  predicate ScrubbedEntry(v: Json)
    decreases v, 3
  {
    match v
    case JObj(f) => ScrubbedObject(f)
    case JArr(items) => forall i :: 0 <= i < |items| ==> ScrubbedElement(items[i])
    case _ => true
  }

  predicate ScrubbedElement(e: Json)
    decreases e, 2
  {
    e.JObj? ==> ScrubbedObject(e.fields)
  }

  /** After cleaning, no "@type" key is left where the scrubber looks. */
  lemma {:induction false} CleanObjectScrubs(m: map<string, Json>)
    ensures ScrubbedObject(CleanObject(m))
    decreases JObj(m), 1
  {
    forall k | k in CleanObject(m) ensures ScrubbedEntry(CleanObject(m)[k]) {
      CleanEntryScrubs(m[k]);
    }
  }

  lemma {:induction false} CleanEntryScrubs(v: Json)
    ensures ScrubbedEntry(CleanEntry(v))
    decreases v, 3
  {
    match v
    case JObj(f) => CleanObjectScrubs(f);
    case JArr(items) =>
      forall i | 0 <= i < |items| ensures ScrubbedElement(CleanEntry(v).items[i]) {
        if items[i].JObj? {
          CleanObjectScrubs(items[i].fields);
        }
      }
    case _ =>
  }

  /** A document with nothing to scrub is left exactly as it is. */
  lemma {:induction false} ScrubbedObjectUnchanged(m: map<string, Json>)
    requires ScrubbedObject(m)
    ensures CleanObject(m) == m
    decreases JObj(m), 1
  {
    forall k | k in m ensures CleanEntry(m[k]) == m[k] {
      ScrubbedEntryUnchanged(m[k]);
    }
  }

  lemma {:induction false} ScrubbedEntryUnchanged(v: Json)
    requires ScrubbedEntry(v)
    ensures CleanEntry(v) == v
    decreases v, 3
  {
    match v
    case JObj(f) => ScrubbedObjectUnchanged(f);
    case JArr(items) =>
      forall i | 0 <= i < |items| ensures CleanElement(items[i]) == items[i] {
        if items[i].JObj? {
          ScrubbedObjectUnchanged(items[i].fields);
        }
      }
      assert CleanEntry(v).items == items;
    case _ =>
  }

  /** Cleaning twice is cleaning once. */
  lemma CleanIdempotent(m: map<string, Json>)
    ensures CleanObject(CleanObject(m)) == CleanObject(m)
  {
    CleanObjectScrubs(m);
    ScrubbedObjectUnchanged(CleanObject(m));
  }

  /** An object inside an array inside an array keeps its "@type": the scrubber does not look there. */
  lemma NestedArrayKeepsType()
    ensures var inner := map[TypeKey := JStr("cn.yafex.tools.schema.FieldDef")];
            var doc := map["items" := JArr([JArr([JObj(inner)])])];
            CleanObject(doc) == doc && TypeKey in CleanObject(doc)["items"].items[0].items[0].fields
  {
    var inner := map[TypeKey := JStr("cn.yafex.tools.schema.FieldDef")];
    var arr := JArr([JObj(inner)]);
    var doc := map["items" := JArr([arr])];
    assert CleanElement(arr) == arr;
    assert CleanEntry(doc["items"]).items == [arr];
  }

  // ---------------------------------------------------------------------
  // FieldDefDeserializer
  // ---------------------------------------------------------------------

  /**
   * The fastjson conversions the deserializer relies on and whose code is
   * not part of this model: the JSON text of an array or object (what
   * `toString` gives), the cast of a value other than null or a boolean
   * to `Boolean` (`None`: the cast throws), and `JSON.parseObject` of a
   * text (`None`: it throws; `Some(None)`: it gives null).
   */
  datatype JsonConversions = JsonConversions(
    text: Json -> string,
    castBoolean: Json -> Option<bool>,
    parseObject: string -> Option<Option<map<string, Json>>>)

  /**
   * How deep a JSON value goes, counting a string as deep as it is long.
   * Every level of an object or array takes at least its two brackets in
   * the text, and a string its quotes, so a value is never deeper than the
   * text it was parsed from is long.
   */
  ghost function Rank(v: Json): nat
    decreases v
  {
    match v
    case JStr(str) => |str| + 1
    case JArr(items) => 1 + Sup(set i | 0 <= i < |items| :: Rank(items[i]))
    case JObj(fields) => 1 + Sup(set k | k in fields :: Rank(fields[k]))
    case _ => 0
  }

  /** The largest element of a finite set of naturals, 0 for the empty set. */
  ghost function Sup(xs: set<nat>): (r: nat)
    ensures forall x :: x in xs ==> x <= r
    decreases |xs|
  {
    if xs == {} then 0
    else
      var x :| x in xs;
      var rest := Sup(xs - {x});
      assert forall y :: y in xs ==> y == x || y in xs - {x};
      if x > rest then x else rest
  }

  /** Each entry of an object is shallower than the object. */
  lemma EntriesRankBelow(fields: map<string, Json>)
    ensures forall k :: k in fields ==> Rank(fields[k]) < Rank(JObj(fields))
  {
    var ranks := set j | j in fields :: Rank(fields[j]);
    assert Rank(JObj(fields)) == 1 + Sup(ranks);
    forall k | k in fields ensures Rank(fields[k]) < Rank(JObj(fields)) {
      assert Rank(fields[k]) in ranks;
    }
  }

  /**
   * The conversions as fastjson performs them: a parsed object is no deeper
   * than its text is long, and the empty text parses to null.
   */
  ghost predicate Faithful(c: JsonConversions) {
    c.parseObject("") == Some(None) && forall t :: ParsedWithin(c, t)
  }

  /** What `parseObject` makes of the text `t` is no deeper than `t` is long. */
  ghost predicate ParsedWithin(c: JsonConversions, t: string) {
    c.parseObject(t).Some? && c.parseObject(t).value.Some? ==> Rank(JObj(c.parseObject(t).value.value)) <= |t|
  }

  type JsonLib = c: JsonConversions | Faithful(c)
    witness JsonConversions(v => "", v => None, t => Some(None))

  /** `parseFieldType(type)`: null and unknown names give null; names are case-sensitive. */
  function ParseFieldType(t: Option<string>): (r: Option<FieldType>)
    ensures r.Some? ==> t == Some(FieldTypeName(r.value))
    ensures t.None? ==> r.None?
  {
    if t.None? then None else FieldTypeValueOf(t.value)
  }

  lemma ParseFieldTypeExact(t: FieldType)
    ensures ParseFieldType(Some(FieldTypeName(t))) == Some(t)
    ensures ParseFieldType(Some(ToLower(FieldTypeName(t)))).None?
  {
    FieldTypeNameRoundTrip(t);
    var lower := ToLower(FieldTypeName(t));
    assert lower[0] == LowerChar(FieldTypeName(t)[0]);
    assert 'a' <= lower[0] <= 'z';
  }

  /** `JSONObject.getString(key)`: null when absent or null, otherwise the value's `toString()`. */
  function GetString(lib: JsonLib, obj: map<string, Json>, key: string): (r: Option<string>)
    ensures key in obj && obj[key].JStr? ==> r == Some(obj[key].s)
    ensures r.None? <==> key !in obj || obj[key].JNull?
  {
    if key !in obj then None
    else
      match obj[key]
      case JNull => None
      case JStr(s) => Some(s)
      case JNum(n) => Some(IntToString(n))
      case JBool(b) => Some(if b then "true" else "false")
      case _ => Some(lib.text(obj[key]))
  }

  /** `JSONObject.getBooleanValue(key)`: false when absent or null. `None`: the cast throws. */
  function GetBooleanValue(lib: JsonLib, obj: map<string, Json>, key: string): (r: Option<bool>)
    ensures key !in obj || obj[key].JNull? ==> r == Some(false)
    ensures key in obj && obj[key].JBool? ==> r == Some(obj[key].b)
  {
    if key !in obj then Some(false)
    else
      match obj[key]
      case JNull => Some(false)
      case JBool(b) => Some(b)
      case _ => lib.castBoolean(obj[key])
  }

  /**
   * `JSONObject.getJSONObject(key)`: an object as it is, absent or null as
   * null, a string parsed by `JSON.parseObject`, and any other value a
   * failed cast (`None`).
   */
  function GetObject(lib: JsonLib, obj: map<string, Json>, key: string): (r: Option<Option<map<string, Json>>>)
    ensures key !in obj || obj[key].JNull? ==> r == Some(None)
    ensures key in obj && obj[key].JObj? ==> r == Some(Some(obj[key].fields))
    ensures key in obj && obj[key].JStr? ==> r == lib.parseObject(obj[key].s)
    ensures key in obj && obj[key] == JStr("") ==> r == Some(None)
    ensures key in obj && (obj[key].JNum? || obj[key].JBool? || obj[key].JArr?) ==> r.None?
  {
    if key !in obj || obj[key].JNull? then Some(None)
    else if obj[key].JObj? then Some(Some(obj[key].fields))
    else if obj[key].JStr? then lib.parseObject(obj[key].s)
    else None
  }

  /** An object `getJSONObject` reads is shallower than the object it is read from. */
  lemma GetObjectRank(lib: JsonLib, obj: map<string, Json>, key: string)
    ensures var r := GetObject(lib, obj, key);
            r.Some? && r.value.Some? ==> Rank(JObj(r.value.value)) < Rank(JObj(obj))
  {
    EntriesRankBelow(obj);
    if key in obj && obj[key].JStr? {
      assert ParsedWithin(lib, obj[key].s);
    }
  }

  /**
   * `FieldDefDeserializer.deserialze`: the scalar fields by key ("required"
   * defaulting to false), "constraints" as a map of plain values, the
   * object-valued entries of "properties" deserialized recursively, and
   * "itemDefinition" likewise. `None`: something threw.
   */
  function Deserialize(lib: JsonLib, obj: map<string, Json>): (r: Option<FieldDef>)
    ensures r.Some? ==> r.value.name == GetString(lib, obj, "name")
    ensures r.Some? ==> r.value.description == GetString(lib, obj, "description")
    ensures r.Some? ==> r.value.ftype == ParseFieldType(GetString(lib, obj, "type"))
    ensures r.Some? ==> r.value.defaultValue == GetString(lib, obj, "defaultValue")
    ensures r.Some? ==> Some(r.value.required) == GetBooleanValue(lib, obj, "required")
    ensures r.Some? && ("properties" !in obj || obj["properties"].JNull?) ==> r.value.properties == map[]
    ensures r.Some? && "properties" in obj && obj["properties"].JObj? ==>
              r.value.properties.Keys == set k | k in obj["properties"].fields && obj["properties"].fields[k].JObj?
    decreases Rank(JObj(obj)), 2
  {
    var required := GetBooleanValue(lib, obj, "required");
    var constraints := GetObject(lib, obj, "constraints");
    var properties := GetObject(lib, obj, "properties");
    var item := GetObject(lib, obj, "itemDefinition");
    GetObjectRank(lib, obj, "properties");
    GetObjectRank(lib, obj, "itemDefinition");
    if required.None? || constraints.None? || properties.None? || item.None? then None
    else
      var props := if properties.value.None? then Some(map[]) else DeserializeProperties(lib, properties.value.value);
      var itemDef: Option<Option<FieldDef>> :=
        if item.value.None? then Some(None)
        else
          var d := Deserialize(lib, item.value.value);
          if d.None? then None else Some(d);
      if props.None? || itemDef.None? then None
      else
        Some(FieldDef(
          GetString(lib, obj, "name"),
          GetString(lib, obj, "description"),
          ParseFieldType(GetString(lib, obj, "type")),
          required.value,
          GetString(lib, obj, "defaultValue"),
          if constraints.value.Some? then ConstraintValues(constraints.value.value) else map[],
          props.value,
          itemDef.value))
  }

  /**
   * What a successful deserialization made of the three object-valued keys:
   * each was read by `getJSONObject` without throwing; the constraints are
   * the entries of the object read, the properties its object-valued
   * entries, and there is an item definition exactly when one was read, so
   * a string holding JSON text counts as the object it parses to.
   */
  lemma DeserializeObjects(lib: JsonLib, obj: map<string, Json>)
    requires Deserialize(lib, obj).Some?
    ensures var r := Deserialize(lib, obj).value;
            var g := GetObject(lib, obj, "constraints");
            g.Some? && r.constraints.Keys == (if g.value.Some? then g.value.value.Keys else {})
    ensures var r := Deserialize(lib, obj).value;
            var g := GetObject(lib, obj, "properties");
            g.Some? && r.properties.Keys == (if g.value.Some? then set k | k in g.value.value && g.value.value[k].JObj? else {})
    ensures var r := Deserialize(lib, obj).value;
            var g := GetObject(lib, obj, "itemDefinition");
            g.Some? && (r.itemDefinition.Some? <==> g.value.Some?)
  {
  }

  /** `constraints.getInnerMap()`: the objects fastjson made of the JSON values. */
  function ConstraintValues(c: map<string, Json>): (r: map<string, Value>)
    ensures r.Keys == c.Keys
  {
    map k | k in c :: JsonToValue(c[k])
  }

  /** The loop over "properties": object-valued entries are deserialized, the others dropped. */
  function DeserializeProperties(lib: JsonLib, p: map<string, Json>): (r: Option<map<string, FieldDef>>)
    ensures r.Some? ==> r.value.Keys == set k | k in p && p[k].JObj?
    decreases Rank(JObj(p)), 1
  {
    EntriesRankBelow(p);
    if exists k :: k in p && p[k].JObj? && Deserialize(lib, p[k].fields).None? then None
    else Some(map k | k in p && p[k].JObj? :: Deserialize(lib, p[k].fields).value)
  }

  /** A missing "required" reads as false, and a non-object "properties" entry is dropped. */
  lemma DeserializeDefaults(lib: JsonLib, name: string)
    ensures var obj := map["name" := JStr(name), "properties" := JObj(map["a" := JStr("x"), "b" := JObj(map[])])];
            var r := Deserialize(lib, obj);
            r.Some? && !r.value.required && r.value.properties.Keys == {"b"} && r.value.name == Some(name)
  {
    var inner: map<string, Json> := map[];
    assert Deserialize(lib, inner) == Some(FieldDef(None, None, None, false, None, map[], map[], None));
    var p := map["a" := JStr("x"), "b" := JObj(inner)];
    assert (set k | k in p && p[k].JObj?) == {"b"};
  }

  /** JSON text held in a string is read as the object it parses to. */
  lemma StringItemDefinitionParses(lib: JsonLib, t: string, name: string)
    requires lib.parseObject(t) == Some(Some(map["name" := JStr(name)]))
    ensures var r := Deserialize(lib, map["itemDefinition" := JStr(t)]);
            r.Some? && r.value.itemDefinition == Some(NewFieldDef().(name := Some(name)))
  {
    var inner := map["name" := JStr(name)];
    assert GetObject(lib, map["itemDefinition" := JStr(t)], "itemDefinition") == Some(Some(inner));
    assert Deserialize(lib, inner) == Some(NewFieldDef().(name := Some(name)));
  }

  /** An empty string under an object-valued key reads as null. */
  lemma EmptyStringReadsAsNull(lib: JsonLib)
    ensures Deserialize(lib, map["properties" := JStr(""), "itemDefinition" := JStr("")]) == Some(NewFieldDef())
  {
  }

  // ---------------------------------------------------------------------
  // An encoder the deserializer inverts
  // ---------------------------------------------------------------------

  /** The plain values JSON can carry: no doubles, records or other objects. */
  predicate JsonLike(v: Value)
    decreases v
  {
    match v
    case Null => true
    case Str(_) => true
    case Int(_) => true
    case Bool(_) => true
    case ListV(items) => forall i :: 0 <= i < |items| ==> JsonLike(items[i])
    case MapV(entries) => forall k :: k in entries ==> JsonLike(entries[k])
    case _ => false
  }

  function ToJson(v: Value): Json
    requires JsonLike(v)
    decreases v
  {
    match v
    case Null => JNull
    case Str(s) => JStr(s)
    case Int(i) => JNum(i)
    case Bool(b) => JBool(b)
    case ListV(items) => JArr(seq(|items|, i requires 0 <= i < |items| => ToJson(items[i])))
    case MapV(entries) => JObj(map k | k in entries :: ToJson(entries[k]))
  }

  lemma {:induction false} ToJsonRoundTrip(v: Value)
    requires JsonLike(v)
    ensures JsonToValue(ToJson(v)) == v
    decreases v
  {
    match v
    case ListV(items) =>
      forall i | 0 <= i < |items| ensures JsonToValue(ToJson(items[i])) == items[i] {
        ToJsonRoundTrip(items[i]);
      }
      assert JsonToValue(ToJson(v)).items == items;
    case MapV(entries) =>
      forall k | k in entries ensures JsonToValue(ToJson(entries[k])) == entries[k] {
        ToJsonRoundTrip(entries[k]);
      }
      assert JsonToValue(ToJson(v)).entries == entries;
    case _ =>
  }

  /** A field definition whose constraints JSON can carry, all the way down. */
  predicate Encodable(f: FieldDef)
    decreases f
  {
    && (forall k :: k in f.constraints ==> JsonLike(f.constraints[k]))
    && (forall k :: k in f.properties ==> Encodable(f.properties[k]))
    && (f.itemDefinition.Some? ==> Encodable(f.itemDefinition.value))
  }

  function OptString(s: Option<string>): Json {
    if s.Some? then JStr(s.value) else JNull
  }

  /** A JSON object holding each field under the key the deserializer reads it from. */
  function Encode(f: FieldDef): map<string, Json>
    requires Encodable(f)
    decreases f, 1
  {
    map[
      "name" := OptString(f.name),
      "description" := OptString(f.description),
      "type" := if f.ftype.Some? then JStr(FieldTypeName(f.ftype.value)) else JNull,
      "required" := JBool(f.required),
      "defaultValue" := OptString(f.defaultValue),
      "constraints" := JObj(EncodeConstraints(f.constraints)),
      "properties" := JObj(EncodeProperties(f)),
      "itemDefinition" := if f.itemDefinition.Some? then JObj(Encode(f.itemDefinition.value)) else JNull]
  }

  function EncodeConstraints(c: map<string, Value>): map<string, Json>
    requires forall k :: k in c ==> JsonLike(c[k])
  {
    map k | k in c :: ToJson(c[k])
  }

  function EncodeProperties(f: FieldDef): map<string, Json>
    requires Encodable(f)
    decreases f, 0
  {
    map k | k in f.properties :: JObj(Encode(f.properties[k]))
  }

  /** `Deserialize` assembled from what it reads under each key. */
  lemma DeserializeParts(lib: JsonLib, obj: map<string, Json>, required: bool, c: map<string, Json>,
                         p: map<string, Json>, props: map<string, FieldDef>, item: Option<FieldDef>)
    requires GetBooleanValue(lib, obj, "required") == Some(required)
    requires GetObject(lib, obj, "constraints") == Some(Some(c))
    requires GetObject(lib, obj, "properties") == Some(Some(p))
    requires DeserializeProperties(lib, p) == Some(props)
    requires item.None? ==> GetObject(lib, obj, "itemDefinition") == Some(None)
    requires item.Some? ==> "itemDefinition" in obj && obj["itemDefinition"].JObj?
                            && Deserialize(lib, obj["itemDefinition"].fields) == item
    ensures Deserialize(lib, obj) == Some(FieldDef(
              GetString(lib, obj, "name"), GetString(lib, obj, "description"),
              ParseFieldType(GetString(lib, obj, "type")), required,
              GetString(lib, obj, "defaultValue"), ConstraintValues(c), props, item))
  {
  }

  /** What the deserializer reads from the scalar keys of an encoded definition. */
  lemma EncodeScalars(lib: JsonLib, f: FieldDef)
    requires Encodable(f)
    ensures GetString(lib, Encode(f), "name") == f.name
    ensures GetString(lib, Encode(f), "description") == f.description
    ensures GetString(lib, Encode(f), "defaultValue") == f.defaultValue
    ensures ParseFieldType(GetString(lib, Encode(f), "type")) == f.ftype
    ensures GetBooleanValue(lib, Encode(f), "required") == Some(f.required)
  {
    var e := Encode(f);
    EncodeEntries(f);
    ReadOptString(lib, e, "name", f.name);
    ReadOptString(lib, e, "description", f.description);
    ReadOptString(lib, e, "defaultValue", f.defaultValue);
    if f.ftype.Some? {
      FieldTypeNameRoundTrip(f.ftype.value);
    }
  }

  /** The scalar entries of an encoded definition. */
  lemma EncodeEntries(f: FieldDef)
    requires Encodable(f)
    ensures "name" in Encode(f) && Encode(f)["name"] == OptString(f.name)
    ensures "description" in Encode(f) && Encode(f)["description"] == OptString(f.description)
    ensures "defaultValue" in Encode(f) && Encode(f)["defaultValue"] == OptString(f.defaultValue)
    ensures "type" in Encode(f) && Encode(f)["type"] == (if f.ftype.Some? then JStr(FieldTypeName(f.ftype.value)) else JNull)
    ensures "required" in Encode(f) && Encode(f)["required"] == JBool(f.required)
  {
  }

  lemma ReadOptString(lib: JsonLib, obj: map<string, Json>, key: string, s: Option<string>)
    requires key in obj && obj[key] == OptString(s)
    ensures GetString(lib, obj, key) == s
  {
  }

  /** What the deserializer reads from the object-valued keys of an encoded definition. */
  lemma EncodeObjects(lib: JsonLib, f: FieldDef)
    requires Encodable(f)
    ensures GetObject(lib, Encode(f), "constraints") == Some(Some(EncodeConstraints(f.constraints)))
    ensures GetObject(lib, Encode(f), "properties") == Some(Some(EncodeProperties(f)))
    ensures f.itemDefinition.None? ==> GetObject(lib, Encode(f), "itemDefinition") == Some(None)
    ensures f.itemDefinition.Some? ==> Encode(f)["itemDefinition"] == JObj(Encode(f.itemDefinition.value))
  {
  }

  /** The deserializer reads back every field definition it could have been given. */
  lemma {:induction false} DeserializeEncode(lib: JsonLib, f: FieldDef)
    requires Encodable(f)
    ensures Deserialize(lib, Encode(f)) == Some(f)
    decreases f, 1
  {
    EncodeScalars(lib, f);
    EncodeObjects(lib, f);
    DeserializePropertiesEncode(lib, f);
    if f.itemDefinition.Some? {
      DeserializeEncode(lib, f.itemDefinition.value);
    }
    ConstraintsRoundTrip(f.constraints);
    DeserializeParts(lib, Encode(f), f.required, EncodeConstraints(f.constraints),
                     EncodeProperties(f), f.properties, f.itemDefinition);
  }

  /** `DeserializeProperties` of an object whose entries all deserialize. */
  lemma DeserializePropertiesAll(lib: JsonLib, p: map<string, Json>, props: map<string, FieldDef>)
    requires p.Keys == props.Keys
    requires forall k :: k in p ==> p[k].JObj? && Deserialize(lib, p[k].fields) == Some(props[k])
    ensures DeserializeProperties(lib, p) == Some(props)
  {
    DeserializePropertiesSome(lib, p);
    var m := DeserializeProperties(lib, p).value;
    assert m == props by {
      assert m.Keys == props.Keys;
    }
  }

  /** When no object-valued entry fails, `DeserializeProperties` deserializes each of them. */
  lemma DeserializePropertiesSome(lib: JsonLib, p: map<string, Json>)
    requires forall k :: k in p && p[k].JObj? ==> Deserialize(lib, p[k].fields).Some?
    ensures DeserializeProperties(lib, p).Some?
    ensures forall k :: k in p && p[k].JObj? ==> DeserializeProperties(lib, p).value[k] == Deserialize(lib, p[k].fields).value
  {
  }

  lemma {:induction false} DeserializePropertiesEncode(lib: JsonLib, f: FieldDef)
    requires Encodable(f)
    ensures DeserializeProperties(lib, EncodeProperties(f)) == Some(f.properties)
    decreases f, 0
  {
    var p := EncodeProperties(f);
    forall k | k in p ensures p[k].JObj? && Deserialize(lib, p[k].fields) == Some(f.properties[k]) {
      assert p[k] == JObj(Encode(f.properties[k]));
      DeserializeEncode(lib, f.properties[k]);
    }
    DeserializePropertiesAll(lib, p, f.properties);
  }

  lemma ConstraintsRoundTrip(c: map<string, Value>)
    requires forall k :: k in c ==> JsonLike(c[k])
    ensures ConstraintValues(EncodeConstraints(c)) == c
  {
    var m := EncodeConstraints(c);
    forall k | k in c ensures ConstraintValues(m)[k] == c[k] {
      ToJsonRoundTrip(c[k]);
    }
  }

  // ---------------------------------------------------------------------
  // The workflow directory
  // ---------------------------------------------------------------------

  /** The files of the workflow directory: name to stored document. */
  type Directory = map<string, map<string, Json>>

  const Extension := ".json"

  /** The file a workflow id is stored in. */
  function FileName(id: string): string {
    id + Extension
  }

  /** The id a listed file name stands for: the name without its last five characters. */
  function StripExtension(name: string): (id: string)
    requires EndsWith(name, Extension)
    ensures FileName(id) == name
  {
    assert name == name[..|name| - 5] + name[|name| - 5..];
    name[..|name| - 5]
  }

  lemma StripFileName(id: string)
    ensures StripExtension(FileName(id)) == id
  {
    assert FileName(id)[|id|..] == Extension;
    assert FileName(id)[..|id|] == id;
  }

  /** `listWorkflows`: every ".json" file, as an id. The listing order is the file system's. */
  function ListWorkflows(dir: Directory): (ids: set<string>)
    ensures forall id :: id in ids <==> FileName(id) in dir
  {
    var r := set name | name in dir && EndsWith(name, Extension) :: StripExtension(name);
    assert forall id :: FileName(id) in dir ==> id in r by {
      forall id | FileName(id) in dir ensures id in r {
        assert EndsWith(FileName(id), Extension) by { assert FileName(id)[|id|..] == Extension; }
        StripFileName(id);
      }
    }
    r
  }

  /**
   * `saveWorkflow`: a null workflow or id is an `IllegalArgumentException`;
   * otherwise the serialized document, scrubbed by `cleanupTypeInfo`, is
   * written to "<id>.json". `doc` is fastjson's serialization of the workflow.
   */
  function SaveWorkflow(dir: Directory, w: Option<WorkflowModel.Workflow>, doc: map<string, Json>): (r: Result<Directory>)
    ensures r.Err? <==> w.None? || w.value.id.None?
    ensures r.Err? ==> r.error == IllegalArgument("Workflow or workflow ID cannot be null")
    ensures r.Ok? ==> r.value == dir[FileName(w.value.id.value) := CleanObject(doc)]
  {
    if w.None? || w.value.id.None? then Err(IllegalArgument("Workflow or workflow ID cannot be null"))
    else Ok(dir[FileName(w.value.id.value) := CleanObject(doc)])
  }

  /**
   * `loadWorkflow`, up to parsing: a null id is an `IllegalArgumentException`,
   * a missing file an `IOException`; otherwise the stored document. The
   * directory has no path here, so the `IOException` names the file, where
   * Java names the file's absolute path.
   */
  function LoadDocument(dir: Directory, id: Option<string>): (r: Result<map<string, Json>>)
    ensures id.None? ==> r == Err(IllegalArgument("Workflow ID cannot be null"))
    ensures id.Some? && r.Err? ==> r.error.IO?
    ensures id.Some? ==> (r.Ok? <==> FileName(id.value) in dir)
    ensures r.Ok? ==> r.value == dir[FileName(id.value)]
  {
    if id.None? then Err(IllegalArgument("Workflow ID cannot be null"))
    else if FileName(id.value) !in dir then Err(IO("Workflow file does not exist: " + FileName(id.value)))
    else Ok(dir[FileName(id.value)])
  }

  /** `deleteWorkflow`: false for a null id; otherwise whether the file existed, which is then gone. */
  function DeleteWorkflow(dir: Directory, id: Option<string>): (r: (bool, Directory))
    ensures id.None? ==> r == (false, dir)
    ensures id.Some? ==> r.0 == (FileName(id.value) in dir) && r.1 == dir - {FileName(id.value)}
  {
    if id.None? then (false, dir) else (FileName(id.value) in dir, dir - {FileName(id.value)})
  }

  /** A saved workflow is listed, loads back scrubbed, and is unlisted once deleted. */
  lemma SaveListLoadDelete(dir: Directory, w: WorkflowModel.Workflow, doc: map<string, Json>)
    requires w.id.Some?
    ensures var d := SaveWorkflow(dir, Some(w), doc).value;
            && w.id.value in ListWorkflows(d)
            && LoadDocument(d, w.id) == Ok(CleanObject(doc))
            && ScrubbedObject(LoadDocument(d, w.id).value)
            && DeleteWorkflow(d, w.id).0
            && w.id.value !in ListWorkflows(DeleteWorkflow(d, w.id).1)
            && ListWorkflows(DeleteWorkflow(d, w.id).1) == ListWorkflows(dir) - {w.id.value}
  {
    CleanObjectScrubs(doc);
    var d := SaveWorkflow(dir, Some(w), doc).value;
    var d' := DeleteWorkflow(d, w.id).1;
    forall id ensures id in ListWorkflows(d') <==> id in ListWorkflows(dir) - {w.id.value} {
      if FileName(id) == FileName(w.id.value) {
        assert id == FileName(id)[..|id|] == FileName(w.id.value)[..|w.id.value|] == w.id.value;
      }
    }
  }
}

=== FILE: model.dfy ===
/**
 * The workflow definition records: nodes, condition cases, the workflow
 * itself and the result a node execution produces.
 */
module WorkflowModel {
  import opened Wrappers
  import opened Strings
  import opened Schema
  import opened Exceptions
  import opened Tools

  datatype NodeType = START | CONDITION | FUNCTION | END

  function NodeTypeName(t: NodeType): string {
    match t
    case START => "START"
    case CONDITION => "CONDITION"
    case FUNCTION => "FUNCTION"
    case END => "END"
  }

  /** `NodeType.valueOf(s)`: exact names only; `None` is the `IllegalArgumentException`. */
  function NodeTypeValueOf(s: string): (r: Option<NodeType>)
    ensures r.Some? ==> NodeTypeName(r.value) == s
  {
    if s == "START" then Some(START)
    else if s == "CONDITION" then Some(CONDITION)
    else if s == "FUNCTION" then Some(FUNCTION)
    else if s == "END" then Some(END)
    else None
  }

  // ---------------------------------------------------------------------
  // Conditions
  // ---------------------------------------------------------------------

  /** A single comparison; `ctype` is "VARIABLE" or "CONSTANT" by convention. */
  datatype Condition = Condition(
    leftOperand: Option<Variable>,
    operator: Option<string>,
    rightOperand: Option<Variable>,
    ctype: Option<string>)

  /** A group of conditions joined by `ctype` ("and" or "or" by convention). */
  datatype ConditionCase = ConditionCase(conditions: seq<Condition>, ctype: Option<string>, hint: Option<string>)

  /** The constructors: an empty condition list, with or without a type. */
  function NewConditionCase(ctype: Option<string>): (c: ConditionCase)
    ensures c.conditions == [] && c.ctype == ctype && c.hint.None?
  {
    ConditionCase([], ctype, None)
  }

  /** `setConditions`: null becomes an empty list. */
  function SetCaseConditions(c: ConditionCase, cs: Option<seq<Condition>>): (r: ConditionCase)
    ensures cs.None? ==> r.conditions == []
    ensures cs.Some? ==> r.conditions == cs.value
    ensures r.ctype == c.ctype && r.hint == c.hint
  {
    c.(conditions := if cs.Some? then cs.value else [])
  }

  /** `addCondition`: appends a non-null condition; null is ignored. */
  function AddCondition(c: ConditionCase, cond: Option<Condition>): (r: ConditionCase)
    ensures cond.None? ==> r == c
    ensures cond.Some? ==> r.conditions == c.conditions + [cond.value] && r.ctype == c.ctype && r.hint == c.hint
  {
    if cond.Some? then c.(conditions := c.conditions + [cond.value]) else c
  }

  // ---------------------------------------------------------------------
  // Nodes
  // ---------------------------------------------------------------------

  datatype Position = Position(x: real, y: real)

  /**
   * `WorkflowNode`. `nextNodes` maps a branch key ("default", "caseN",
   * "else") to a node id, which may be null; `inputMap` maps a tool
   * parameter to the variable that feeds it, which may be null.
   */
  datatype WorkflowNode = WorkflowNode(
    id: Option<string>,
    name: Option<string>,
    description: Option<string>,
    ntype: Option<NodeType>,
    nextNodes: map<string, Option<string>>,
    position: Position,
    toolName: Option<string>,
    conditions: seq<ConditionCase>,
    inputMap: map<string, Option<Variable>>)

  /** The constructor: empty successor, condition and input maps, position (0, 0), everything else null. */
  function NewNode(): (n: WorkflowNode)
    ensures n.nextNodes == map[] && n.conditions == [] && n.inputMap == map[]
    ensures n.position == Position(0.0, 0.0)
    ensures n.id.None? && n.name.None? && n.description.None? && n.ntype.None? && n.toolName.None?
  {
    WorkflowNode(None, None, None, None, map[], Position(0.0, 0.0), None, [], map[])
  }

  /**
   * `setType(String)`: upper-cased and looked up; an unknown name falls
   * back to FUNCTION. A null name throws a `NullPointerException`.
   */
  function SetNodeType(n: WorkflowNode, s: Option<string>): (r: Result<WorkflowNode>)
    ensures r.Err? <==> s.None?
    ensures r.Err? ==> r.error == NullPointer
    ensures r.Ok? ==> r.value == n.(ntype := r.value.ntype) && r.value.ntype.Some?
    ensures r.Ok? ==> r.value.ntype.value == (if NodeTypeValueOf(ToUpper(s.value)).Some?
                                             then NodeTypeValueOf(ToUpper(s.value)).value else FUNCTION)
  {
    if s.None? then Err(NullPointer)
    else
      var t := NodeTypeValueOf(ToUpper(s.value));
      Ok(n.(ntype := Some(if t.Some? then t.value else FUNCTION)))
  }

  lemma UpperOfLower(s: string)
    ensures ToUpper(ToLower(s)) == ToUpper(s)
  {
  }

  /** `setType` ignores case: two names equal ignoring case set the same type. */
  lemma SetNodeTypeIgnoresCase(n: WorkflowNode, a: string, b: string)
    requires EqualsIgnoreCase(a, b)
    ensures SetNodeType(n, Some(a)) == SetNodeType(n, Some(b))
  {
    UpperOfLower(a);
    UpperOfLower(b);
  }

  /** Each type's own name, in any case, sets that type; a name that is no type sets FUNCTION. */
  lemma SetNodeTypeByName(n: WorkflowNode, t: NodeType, s: string)
    ensures EqualsIgnoreCase(s, NodeTypeName(t)) ==> SetNodeType(n, Some(s)) == Ok(n.(ntype := Some(t)))
    ensures NodeTypeValueOf(ToUpper(s)).None? ==> SetNodeType(n, Some(s)) == Ok(n.(ntype := Some(FUNCTION)))
  {
    if EqualsIgnoreCase(s, NodeTypeName(t)) {
      SetNodeTypeIgnoresCase(n, s, NodeTypeName(t));
      TypeNameIsUpper(t);
    }
  }

  /** A type's name is already upper case and is read back as that type. */
  lemma TypeNameIsUpper(t: NodeType)
    ensures ToUpper(NodeTypeName(t)) == NodeTypeName(t)
    ensures NodeTypeValueOf(NodeTypeName(t)) == Some(t)
  {
    var name := NodeTypeName(t);
    assert forall i :: 0 <= i < |name| ==> ToUpper(name)[i] == name[i];
  }

  /** `setConditions`: null becomes an empty list. */
  function SetNodeConditions(n: WorkflowNode, cs: Option<seq<ConditionCase>>): (r: WorkflowNode)
    ensures r.conditions == (if cs.Some? then cs.value else [])
    ensures r == n.(conditions := r.conditions)
  {
    n.(conditions := if cs.Some? then cs.value else [])
  }

  /** `setInputMap`: null becomes an empty map. */
  function SetInputMap(n: WorkflowNode, m: Option<map<string, Option<Variable>>>): (r: WorkflowNode)
    ensures r.inputMap == (if m.Some? then m.value else map[])
    ensures r == n.(inputMap := r.inputMap)
  {
    n.(inputMap := if m.Some? then m.value else map[])
  }

  /** `getInputMapping`: the mapping for a parameter, null when absent. */
  function GetInputMapping(n: WorkflowNode, param: string): (r: Option<Variable>)
    ensures r.Some? ==> param in n.inputMap && n.inputMap[param] == r
    ensures param !in n.inputMap ==> r.None?
  {
    if param in n.inputMap then n.inputMap[param] else None
  }

  /** `addInputMapping`: a null name or definition is ignored; otherwise the key is overwritten. */
  function AddInputMapping(n: WorkflowNode, param: Option<string>, v: Option<Variable>): (r: WorkflowNode)
    ensures (param.None? || v.None?) ==> r == n
    ensures param.Some? && v.Some? ==> r.inputMap == n.inputMap[param.value := v]
    ensures r == n.(inputMap := r.inputMap)
  {
    if param.Some? && v.Some? then n.(inputMap := n.inputMap[param.value := v]) else n
  }

  /** Two mappings under distinct names on a new node: both kept, and nothing else. */
  lemma TwoInputMappings(p1: string, v1: Variable, p2: string, v2: Variable)
    requires p1 != p2
    ensures var n := AddInputMapping(AddInputMapping(NewNode(), Some(p1), Some(v1)), Some(p2), Some(v2));
            |n.inputMap| == 2 && GetInputMapping(n, p1) == Some(v1) && GetInputMapping(n, p2) == Some(v2)
  {
    var n := AddInputMapping(AddInputMapping(NewNode(), Some(p1), Some(v1)), Some(p2), Some(v2));
    assert n.inputMap.Keys == {p1, p2};
  }

  /** `addConditionCase`: appends a non-null case; null is ignored. */
  function AddConditionCase(n: WorkflowNode, c: Option<ConditionCase>): (r: WorkflowNode)
    ensures c.None? ==> r == n
    ensures c.Some? ==> r == n.(conditions := n.conditions + [c.value])
  {
    if c.Some? then n.(conditions := n.conditions + [c.value]) else n
  }

  // ---------------------------------------------------------------------
  // Workflows
  // ---------------------------------------------------------------------

  /**
   * `Workflow`. Tools are keyed by `ToolDefinition.getName()`, which may be
   * null, hence the optional key.
   */
  datatype Workflow = Workflow(
    id: Option<string>,
    name: Option<string>,
    description: Option<string>,
    inputs: map<string, FieldDef>,
    outputs: map<string, Variable>,
    tools: map<Option<string>, ToolDefinition>,
    nodes: seq<WorkflowNode>,
    startNodeId: Option<string>,
    isActive: bool)

  /** The constructor: empty maps and node list, active. */
  function NewWorkflow(): (w: Workflow)
    ensures w.inputs == map[] && w.outputs == map[] && w.tools == map[] && w.nodes == []
    ensures w.isActive
    ensures w.id.None? && w.name.None? && w.description.None? && w.startNodeId.None?
  {
    Workflow(None, None, None, map[], map[], map[], [], None, true)
  }

  /** Every node carries an id. */
  predicate IdsPresent(nodes: seq<WorkflowNode>) {
    forall i :: 0 <= i < |nodes| ==> nodes[i].id.Some?
  }

  /** The first node whose id is `id`, ignoring nodes without one. */
  function FindNode(nodes: seq<WorkflowNode>, id: string): (r: Option<WorkflowNode>)
    ensures r.Some? ==> r.value in nodes && r.value.id == Some(id)
    ensures r.None? <==> forall i :: 0 <= i < |nodes| ==> nodes[i].id != Some(id)
  {
    match IndexWhere(nodes, (n: WorkflowNode) => n.id == Some(id))
    case Some(i) => Some(nodes[i])
    case None => None
  }

  /**
   * `getNodeById(id)`: scans the nodes in order and returns the first whose
   * id equals `id`, or null. Comparing calls `equals` on each node's id, so
   * a node without an id met before the match throws.
   */
  function GetNodeById(nodes: seq<WorkflowNode>, id: Option<string>): (r: Result<Option<WorkflowNode>>)
    ensures r.Ok? && r.value.Some? ==> id.Some? && r.value == FindNode(nodes, id.value)
    ensures r.Ok? && r.value.None? ==> id.None? || FindNode(nodes, id.value).None?
    ensures r.Err? ==> r.error == NullPointer && !IdsPresent(nodes)
  {
    if nodes == [] then Ok(None)
    else if nodes[0].id.None? then Err(NullPointer)
    else if Some(nodes[0].id.value) == id then Ok(Some(nodes[0]))
    else
      var r := GetNodeById(nodes[1..], id);
      assert forall i :: 1 <= i < |nodes| ==> nodes[i] == nodes[1..][i - 1];
      r
  }

  /** With every id present the lookup never throws: it finds the first node with that id. */
  lemma GetNodeByIdFindsFirst(nodes: seq<WorkflowNode>, id: string)
    requires IdsPresent(nodes)
    ensures GetNodeById(nodes, Some(id)) == Ok(FindNode(nodes, id))
    ensures forall n :: FindNode(nodes, id) == Some(n) ==>
              exists i :: 0 <= i < |nodes| && nodes[i] == n && forall j :: 0 <= j < i ==> nodes[j].id != Some(id)
  {
    if nodes != [] {
      assert IdsPresent(nodes[1..]);
      GetNodeByIdFindsFirst(nodes[1..], id);
      if nodes[0].id != Some(id) {
        forall n | FindNode(nodes, id) == Some(n)
          ensures exists i :: 0 <= i < |nodes| && nodes[i] == n && forall j :: 0 <= j < i ==> nodes[j].id != Some(id)
        {
          var i :| 0 <= i < |nodes[1..]| && nodes[1..][i] == n && forall j :: 0 <= j < i ==> nodes[1..][j].id != Some(id);
          assert nodes[i + 1] == n;
          assert forall j :: 0 <= j < i + 1 ==> nodes[j].id != Some(id) by {
            forall j | 0 <= j < i + 1 ensures nodes[j].id != Some(id) {
              if j > 0 { assert nodes[j] == nodes[1..][j - 1]; }
            }
          }
        }
      } else {
        forall n | FindNode(nodes, id) == Some(n)
          ensures exists i :: 0 <= i < |nodes| && nodes[i] == n && forall j :: 0 <= j < i ==> nodes[j].id != Some(id)
        {
          assert nodes[0] == n;
        }
      }
    }
  }

  /** A null id never matches. */
  lemma GetNodeByNullId(nodes: seq<WorkflowNode>)
    requires IdsPresent(nodes)
    ensures GetNodeById(nodes, None) == Ok(None)
  {
    if nodes != [] {
      assert IdsPresent(nodes[1..]);
      GetNodeByNullId(nodes[1..]);
    }
  }

  /** A null name, as string concatenation prints it. */
  function NameText(s: Option<string>): string {
    if s.Some? then s.value else "null"
  }

  /** `addTool`: null is ignored; a name already present throws and leaves the map unchanged. */
  function AddTool(w: Workflow, t: Option<ToolDefinition>): (r: Result<Workflow>)
    ensures t.None? ==> r == Ok(w)
    ensures t.Some? ==> (r.Err? <==> t.value.name in w.tools)
    ensures r.Err? ==> r.error == IllegalArgument("工具已存在于工作流中: " + NameText(t.value.name))
    ensures t.Some? && r.Ok? ==> r.value == w.(tools := w.tools[t.value.name := t.value])
  {
    if t.None? then Ok(w)
    else if t.value.name in w.tools then Err(IllegalArgument("工具已存在于工作流中: " + NameText(t.value.name)))
    else Ok(w.(tools := w.tools[t.value.name := t.value]))
  }

  /** `setTool`: inserts or replaces by name; null is ignored. */
  function SetTool(w: Workflow, t: Option<ToolDefinition>): (r: Workflow)
    ensures t.None? ==> r == w
    ensures t.Some? ==> r.tools.Keys == w.tools.Keys + {t.value.name} && r.tools[t.value.name] == t.value
    ensures t.Some? ==> forall k :: k in w.tools && k != t.value.name ==> r.tools[k] == w.tools[k]
    ensures r == w.(tools := r.tools)
  {
    if t.Some? then w.(tools := w.tools[t.value.name := t.value]) else w
  }

  /** `getToolDefinition(name)`. */
  function GetToolDefinition(w: Workflow, name: Option<string>): (r: Option<ToolDefinition>)
    ensures r.Some? <==> HasTool(w, name)
    ensures r.Some? ==> r.value == w.tools[name]
  {
    Get(w.tools, name)
  }

  /** `hasTool(name)`. */
  function HasTool(w: Workflow, name: Option<string>): (b: bool)
    ensures b <==> Get(w.tools, name).Some?
  {
    name in w.tools
  }

  /** `getToolNames()`: the key set (as a list in unspecified order in the source). */
  function ToolNames(w: Workflow): (r: set<Option<string>>)
    ensures forall k :: k in r <==> HasTool(w, k)
  {
    w.tools.Keys
  }

  /** Adding a new tool makes it present and retrievable; a second add of the same name fails. */
  lemma AddToolThenLookup(w: Workflow, t: ToolDefinition)
    requires !HasTool(w, t.name)
    ensures AddTool(w, Some(t)).Ok?
    ensures GetToolDefinition(AddTool(w, Some(t)).value, t.name) == Some(t)
    ensures t.name in ToolNames(AddTool(w, Some(t)).value)
    ensures AddTool(AddTool(w, Some(t)).value, Some(t)).Err?
  {
  }

  // ---------------------------------------------------------------------
  // Node results
  // ---------------------------------------------------------------------

  /** `NodeResult`: what executing one node produced. */
  datatype NodeResult = NodeResult(
    nodeType: Option<NodeType>,
    outputs: Option<map<string, Variable>>,
    errorCode: Option<string>,
    errorMessage: Option<string>,
    errorDetails: Option<string>,
    matchedCase: Option<string>,
    evaluated: bool)

  /** `hasError()`. */
  predicate HasError(r: NodeResult) {
    r.errorCode.Some?
  }

  /** The function-node constructor: outputs as given, no error. */
  function FunctionResult(t: Option<NodeType>, outputs: Option<map<string, Variable>>): (r: NodeResult)
    ensures r.nodeType == t && r.outputs == outputs && !HasError(r) && r.matchedCase.None?
  {
    NodeResult(t, outputs, None, None, None, None, false)
  }

  /** The condition-node constructor: the outputs record the matched case and the flag. */
  function ConditionResult(t: Option<NodeType>, matchedCase: Option<string>, evaluated: bool): (r: NodeResult)
    ensures r.nodeType == t && r.matchedCase == matchedCase && r.evaluated == evaluated && !HasError(r)
    ensures r.outputs.Some? && r.outputs.value.Keys == {"matchedCase", "evaluated"}
    ensures r.outputs.value["matchedCase"] == ValuedVariable(Some("matchedCase"), if matchedCase.Some? then Str(matchedCase.value) else Null)
    ensures r.outputs.value["evaluated"] == ValuedVariable(Some("evaluated"), Bool(evaluated))
  {
    NodeResult(t, Some(map[
      "matchedCase" := ValuedVariable(Some("matchedCase"), if matchedCase.Some? then Str(matchedCase.value) else Null),
      "evaluated" := ValuedVariable(Some("evaluated"), Bool(evaluated))]),
      None, None, None, matchedCase, evaluated)
  }

  /** The error constructor and the `error(...)` factory: no outputs. */
  function ErrorResult(t: Option<NodeType>, code: Option<string>, message: Option<string>, details: Option<string>): (r: NodeResult)
    ensures r.nodeType == t && r.errorCode == code && r.errorMessage == message && r.errorDetails == details
    ensures r.outputs.None? && r.matchedCase.None?
    ensures HasError(r) <==> code.Some?
  {
    NodeResult(t, None, code, message, details, None, false)
  }

  /** The START/END constructor: no outputs, no error, no matched case. */
  function PlainResult(t: Option<NodeType>): (r: NodeResult)
    ensures r.nodeType == t && r.outputs.None? && !HasError(r) && r.matchedCase.None? && !r.evaluated
  {
    NodeResult(t, None, None, None, None, None, false)
  }
}

=== FILE: schema.dfy ===
/** JSON documents as fastjson parses them: objects are unordered maps. */
module JsonValues {

  datatype Json =
    | JNull
    | JBool(b: bool)
    | JNum(n: int)
    | JStr(s: string)
    | JArr(items: seq<Json>)
    | JObj(fields: map<string, Json>)
}

/**
 * The tool schema records: field types, `FieldDef` (a declared input or
 * output of a tool or workflow) and `VariableDefinition` (a value with a
 * `(name, parent)` scope, the unit the engine stores and passes around).
 */
module Schema {
  import opened Wrappers
  import opened JsonValues

  datatype FieldType = STRING | NUMBER | BOOLEAN | ARRAY | OBJECT | DATE

  /** `FieldType.name()`, which is also its `toString()`. */
  function FieldTypeName(t: FieldType): string {
    match t
    case STRING => "STRING"
    case NUMBER => "NUMBER"
    case BOOLEAN => "BOOLEAN"
    case ARRAY => "ARRAY"
    case OBJECT => "OBJECT"
    case DATE => "DATE"
  }

  /** `FieldType.valueOf(s)`: exact, case-sensitive; `None` is the `IllegalArgumentException`. */
  function FieldTypeValueOf(s: string): (r: Option<FieldType>)
    ensures r.Some? ==> FieldTypeName(r.value) == s
  {
    if s == "STRING" then Some(STRING)
    else if s == "NUMBER" then Some(NUMBER)
    else if s == "BOOLEAN" then Some(BOOLEAN)
    else if s == "ARRAY" then Some(ARRAY)
    else if s == "OBJECT" then Some(OBJECT)
    else if s == "DATE" then Some(DATE)
    else None
  }

  lemma FieldTypeNameRoundTrip(t: FieldType)
    ensures FieldTypeValueOf(FieldTypeName(t)) == Some(t)
  {
  }

  /**
   * A Java object as the workflow code sees it. `Int` and `Dbl` are the boxed
   * `Integer` and `Double` (both `Number`s, distinct under `equals`); `Record`
   * is a `VariableDefinition` object used as a value; `ListV` and `MapV` any
   * `List` and `Map<String, Object>` (fastjson's `JSONArray` and `JSONObject`
   * among them); `Opaque` any other object. Only `Str`, `Int`, `Dbl` and
   * `Bool` are `Comparable`.
   */
  datatype Value =
    | Null
    | Str(s: string)
    | Int(i: int)
    | Dbl(d: real)
    | Bool(b: bool)
    | Record(v: Variable)
    | ListV(items: seq<Value>)
    | MapV(entries: map<string, Value>)
    | Opaque(id: nat)
  {
    predicate IsNumber() {
      Int? || Dbl?
    }

    predicate IsComparable() {
      Str? || Int? || Dbl? || Bool?
    }

    /** `Number.doubleValue()`. */
    function DoubleValue(): real
      requires IsNumber()
    {
      if Int? then i as real else d
    }
  }

  /** `VariableDefinition`: every field may be null. */
  datatype Variable = Variable(
    name: Option<string>,
    vtype: Option<string>,
    description: Option<string>,
    defaultValue: Value,
    value: Value,
    parent: Option<string>)

  /** The no-argument constructor: every field null. */
  function NewVariable(): (v: Variable)
    ensures v.name.None? && v.vtype.None? && v.description.None? && v.parent.None?
    ensures v.defaultValue.Null? && v.value.Null?
  {
    Variable(None, None, None, Null, Null, None)
  }

  /** The `(name, type, description)` constructor. */
  function TypedVariable(name: Option<string>, vtype: Option<string>, description: Option<string>): (v: Variable)
    ensures v.name == name && v.vtype == vtype && v.description == description
    ensures v.value.Null? && v.defaultValue.Null? && v.parent.None?
  {
    Variable(name, vtype, description, Null, Null, None)
  }

  /** The `(name, value)` constructor. */
  function ValuedVariable(name: Option<string>, value: Value): (v: Variable)
    ensures v.name == name && v.value == value
    ensures v.vtype.None? && v.description.None? && v.defaultValue.Null? && v.parent.None?
  {
    Variable(name, None, None, Null, value, None)
  }

  /** `FieldDef`: a declared tool or workflow field, with nested structure. */
  datatype FieldDef = FieldDef(
    name: Option<string>,
    description: Option<string>,
    ftype: Option<FieldType>,
    required: bool,
    defaultValue: Option<string>,
    constraints: map<string, Value>,
    properties: map<string, FieldDef>,
    itemDefinition: Option<FieldDef>)

  /** The no-argument constructor used by the JSON reader. */
  function NewFieldDef(): (f: FieldDef)
    ensures f.properties == map[] && f.constraints == map[]
    ensures !f.required && f.itemDefinition.None?
    ensures f.name.None? && f.description.None? && f.ftype.None? && f.defaultValue.None?
  {
    FieldDef(None, None, None, false, None, map[], map[], None)
  }

  /** The six-argument constructor; the `pattern` argument is accepted and dropped. */
  function FieldDefOf(name: Option<string>, description: Option<string>, ftype: Option<FieldType>,
                      required: bool, defaultValue: Option<string>, pattern: Option<string>): (f: FieldDef)
    ensures f.name == name && f.description == description && f.ftype == ftype
    ensures f.required == required && f.defaultValue == defaultValue
    ensures f.constraints == map[] && f.properties == map[] && f.itemDefinition.None?
  {
    FieldDef(name, description, ftype, required, defaultValue, map[], map[], None)
  }

  lemma FieldDefOfIgnoresPattern(name: Option<string>, description: Option<string>, ftype: Option<FieldType>,
                                 required: bool, defaultValue: Option<string>, p1: Option<string>, p2: Option<string>)
    ensures FieldDefOf(name, description, ftype, required, defaultValue, p1)
         == FieldDefOf(name, description, ftype, required, defaultValue, p2)
  {
  }

  /** The copy constructor: a fresh tree, property by property and down the item definition. */
  function CopyFieldDef(other: FieldDef): FieldDef
    decreases other
  {
    FieldDef(
      other.name, other.description, other.ftype, other.required, other.defaultValue,
      other.constraints,
      map k | k in other.properties :: CopyFieldDef(other.properties[k]),
      if other.itemDefinition.Some? then Some(CopyFieldDef(other.itemDefinition.value)) else None)
  }

  /** A deep copy is structurally equal to its source, at every depth. */
  lemma {:induction false} CopyFieldDefIsIdentity(f: FieldDef)
    ensures CopyFieldDef(f) == f
    decreases f
  {
    forall k | k in f.properties
      ensures CopyFieldDef(f.properties[k]) == f.properties[k]
    {
      CopyFieldDefIsIdentity(f.properties[k]);
    }
    if f.itemDefinition.Some? {
      CopyFieldDefIsIdentity(f.itemDefinition.value);
    }
  }

  /** `setConstraints`: null becomes an empty map. */
  function SetConstraints(f: FieldDef, c: Option<map<string, Value>>): (r: FieldDef)
    ensures c.None? ==> r.constraints == map[]
    ensures c.Some? ==> r.constraints == c.value
    ensures r == f.(constraints := r.constraints)
  {
    f.(constraints := if c.Some? then c.value else map[])
  }

  /** `setProperties`: null becomes an empty map. */
  function SetProperties(f: FieldDef, p: Option<map<string, FieldDef>>): (r: FieldDef)
    ensures p.None? ==> r.properties == map[]
    ensures p.Some? ==> r.properties == p.value
    ensures r == f.(properties := r.properties)
  {
    f.(properties := if p.Some? then p.value else map[])
  }

  /** The object fastjson hands back for a parsed JSON value. */
  function JsonToValue(j: Json): Value
    decreases j
  {
    match j
    case JNull => Null
    case JBool(b) => Bool(b)
    case JNum(n) => Int(n)
    case JStr(s) => Str(s)
    case JArr(items) => ListV(seq(|items|, i requires 0 <= i < |items| => JsonToValue(items[i])))
    case JObj(fields) => MapV(map k | k in fields :: JsonToValue(fields[k]))
  }

  /** A `String` default read back as an object. */
  function DefaultAsValue(d: Option<string>): Value {
    if d.Some? then Str(d.value) else Null
  }

  /**
   * `VariableDefinition.fromFieldDefinition(field, parent)`: name, description
   * and default are copied, the type becomes the enum's name, the value stays
   * null. A field with no type throws a `NullPointerException` (`None`).
   */
  function FromFieldDefinition(f: FieldDef, parent: Option<string>): (r: Option<Variable>)
    ensures r.None? <==> f.ftype.None?
    ensures r.Some? ==>
              && r.value.name == f.name && r.value.description == f.description
              && r.value.defaultValue == DefaultAsValue(f.defaultValue)
              && r.value.parent == parent && r.value.value.Null?
              && r.value.vtype == Some(FieldTypeName(f.ftype.value))
  {
    if f.ftype.None? then None
    else Some(Variable(f.name, Some(FieldTypeName(f.ftype.value)), f.description,
                       DefaultAsValue(f.defaultValue), Null, parent))
  }

  /** The variable's type string names the field's type again: `valueOf` recovers it. */
  lemma FromFieldDefinitionKeepsType(f: FieldDef, parent: Option<string>)
    requires f.ftype.Some?
    ensures FromFieldDefinition(f, parent).Some?
    ensures FieldTypeValueOf(FromFieldDefinition(f, parent).value.vtype.value) == f.ftype
  {
    FieldTypeNameRoundTrip(f.ftype.value);
  }
}

=== FILE: store.dfy ===
/**
 * The Vue editor's workflow store (`stores/workflow.ts`): the workflow
 * being edited, the selection, and the undo/redo stacks of snapshots.
 * Ids the store draws from `uuidv4()` and `Date.now()` are parameters;
 * a snapshot through `JSON.parse(JSON.stringify(...))` is the workflow
 * value itself. The canvas state (scale, offset, dragging) is left out.
 */
module WorkflowStore {
  import opened Wrappers
  import opened JsonValues
  import opened AppTypes

  /** At most this many snapshots are kept for undo. */
  const MaxPast: nat := 20

  datatype EditorSelection = EditorSelection(
    selectedNodeId: Option<string>,
    selectedConnectionId: Option<string>,
    isEditorPanelOpen: bool)

  datatype Store = Store(
    current: Option<AppWorkflow>,
    editor: EditorSelection,
    past: seq<AppWorkflow>,
    future: seq<AppWorkflow>)

  const InitialStore := Store(None, EditorSelection(None, None, false), [], [])

  /** What `if (id)` lets through: a string that is not empty. */
  predicate Truthy(s: Option<string>) {
    s.Some? && s.value != ""
  }

  /** Never both a node and a connection selected. */
  predicate Exclusive(st: Store) {
    !(Truthy(st.editor.selectedNodeId) && Truthy(st.editor.selectedConnectionId))
  }

  // ---------------------------------------------------------------------
  // Generic list helpers
  // ---------------------------------------------------------------------

  /** `array.filter(keep)`. */
  function Filter<T(==,!new)>(s: seq<T>, keep: T -> bool): (r: seq<T>)
    ensures forall x :: x in r <==> x in s && keep(x)
    ensures |r| <= |s|
    ensures (forall i :: 0 <= i < |s| ==> keep(s[i])) ==> r == s
    decreases |s|
  {
    if s == [] then [] else (if keep(s[0]) then [s[0]] else []) + Filter(s[1..], keep)
  }

  /** Filtering keeps duplicates: every kept value occurs as often as in the list. */
  lemma {:induction false} FilterCounts<T(!new)>(s: seq<T>, keep: T -> bool, x: T)
    ensures multiset(Filter(s, keep))[x] == if keep(x) then multiset(s)[x] else 0
    decreases |s|
  {
    if s != [] {
      FilterCounts(s[1..], keep, x);
      assert s == [s[0]] + s[1..];
      assert multiset(s) == multiset([s[0]]) + multiset(s[1..]);
    }
  }

  /** Filtering keeps the order: a list filtered in two parts is the two filtered parts in order. */
  lemma {:induction false} FilterAppend<T(!new)>(a: seq<T>, b: seq<T>, keep: T -> bool)
    ensures Filter(a + b, keep) == Filter(a, keep) + Filter(b, keep)
    decreases |a|
  {
    if a == [] {
      assert a + b == b;
    } else {
      assert (a + b)[1..] == a[1..] + b;
      FilterAppend(a[1..], b, keep);
    }
  }

  /** The list without the element at `i` (`splice(i, 1)`). */
  function RemoveAt<T>(s: seq<T>, i: nat): (r: seq<T>)
    requires i < |s|
    ensures |r| == |s| - 1
    ensures forall j :: 0 <= j < i ==> r[j] == s[j]
    ensures forall j :: i <= j < |r| ==> r[j] == s[j + 1]
  {
    s[..i] + s[i + 1..]
  }

  function NodeIndex(nodes: seq<AppNode>, id: string): (r: Option<nat>)
    ensures r.Some? ==> r.value < |nodes| && nodes[r.value].id == id
    ensures r.Some? ==> forall j :: 0 <= j < r.value ==> nodes[j].id != id
    ensures r.None? ==> forall j :: 0 <= j < |nodes| ==> nodes[j].id != id
  {
    IndexWhere(nodes, (n: AppNode) => n.id == id)
  }

  function ConnectionIndex(cs: seq<Connection>, id: string): (r: Option<nat>)
    ensures r.Some? ==> r.value < |cs| && cs[r.value].id == id
    ensures r.Some? ==> forall j :: 0 <= j < r.value ==> cs[j].id != id
    ensures r.None? ==> forall j :: 0 <= j < |cs| ==> cs[j].id != id
  {
    IndexWhere(cs, (c: Connection) => c.id == id)
  }

  /** Some connection already runs from `s` to `t`. */
  predicate HasPair(cs: seq<Connection>, s: string, t: string) {
    exists i :: 0 <= i < |cs| && cs[i].sourceNodeId == s && cs[i].targetNodeId == t
  }

  // ---------------------------------------------------------------------
  // History
  // ---------------------------------------------------------------------

  /**
   * `saveToHistory`: a snapshot of the current workflow goes on top of
   * `past`, `future` is dropped, and past 20 the oldest snapshot goes.
   */
  function SaveToHistory(st: Store): (r: Store)
    ensures st.current.None? ==> r == st
    ensures st.current.Some? ==>
              && r.current == st.current && r.editor == st.editor && r.future == []
              && |r.past| == (if |st.past| + 1 > MaxPast then |st.past| else |st.past| + 1)
              && r.past != [] && r.past[|r.past| - 1] == st.current.value
              && r.past[..|r.past| - 1] == (if |st.past| + 1 > MaxPast then st.past[1..] else st.past)
  {
    if st.current.None? then st
    else st.(past := PushBounded(st.past, st.current.value, MaxPast), future := [])
  }

  /** `x` pushed on top of `s`, dropping the oldest entry once there are more than `bound`. */
  function PushBounded<T>(s: seq<T>, x: T, bound: nat): (r: seq<T>)
    ensures |r| == (if |s| + 1 > bound then |s| else |s| + 1)
    ensures |s| + 1 > bound ==> |s| >= bound
    ensures r != [] ==> r[|r| - 1] == x
    ensures bound >= 1 ==> r != [] && r[..|r| - 1] == (if |s| + 1 > bound then s[1..] else s)
  {
    var pushed := s + [x];
    assert pushed[..|pushed| - 1] == s;
    if |pushed| > bound then pushed[1..] else pushed
  }

  /** `undo`: the current workflow goes on `future` and the top of `past` becomes current. */
  function Undo(st: Store): (r: Store)
    ensures st.past == [] ==> r == st
    ensures st.past != [] ==>
              && r.current == Some(st.past[|st.past| - 1])
              && r.past == st.past[..|st.past| - 1]
              && r.future == (if st.current.Some? then st.future + [st.current.value] else st.future)
              && r.editor == st.editor
  {
    if st.past == [] then st
    else
      var future := if st.current.Some? then st.future + [st.current.value] else st.future;
      st.(current := Some(st.past[|st.past| - 1]), past := st.past[..|st.past| - 1], future := future)
  }

  /** `redo`: the current workflow goes on `past` and the top of `future` becomes current. */
  function Redo(st: Store): (r: Store)
    ensures st.future == [] ==> r == st
    ensures st.future != [] ==>
              && r.current == Some(st.future[|st.future| - 1])
              && r.future == st.future[..|st.future| - 1]
              && r.past == (if st.current.Some? then st.past + [st.current.value] else st.past)
              && r.editor == st.editor
  {
    if st.future == [] then st
    else
      var past := if st.current.Some? then st.past + [st.current.value] else st.past;
      st.(current := Some(st.future[|st.future| - 1]), future := st.future[..|st.future| - 1], past := past)
  }

  /** With a workflow open, redo right after undo gives back the whole store. */
  lemma RedoUndoes(st: Store)
    requires st.current.Some? && st.past != []
    ensures Redo(Undo(st)) == st
  {
    assert st.past[..|st.past| - 1] + [st.past[|st.past| - 1]] == st.past;
  }

  /** With a workflow open, undo right after redo gives back the whole store. */
  lemma UndoRedoes(st: Store)
    requires st.current.Some? && st.future != []
    ensures Undo(Redo(st)) == st
  {
    assert st.future[..|st.future| - 1] + [st.future[|st.future| - 1]] == st.future;
  }

  /** `past` never grows beyond 20 snapshots through `saveToHistory`. */
  lemma SaveKeepsPastCapped(st: Store)
    requires |st.past| <= MaxPast
    ensures |SaveToHistory(st).past| <= MaxPast
    ensures st.current.Some? && |st.past| == MaxPast ==> SaveToHistory(st).past[0] == (st.past + [st.current.value])[1]
  {
  }

  // ---------------------------------------------------------------------
  // Selection
  // ---------------------------------------------------------------------

  /** `selectNode`: a non-empty id also clears the selected connection. */
  function SelectNode(st: Store, id: Option<string>): (r: Store)
    ensures r.editor.selectedNodeId == id
    ensures r.editor.selectedConnectionId == if Truthy(id) then None else st.editor.selectedConnectionId
    ensures r.editor.isEditorPanelOpen == st.editor.isEditorPanelOpen
    ensures r.current == st.current && r.past == st.past && r.future == st.future
  {
    var e := st.editor.(selectedNodeId := id);
    st.(editor := if Truthy(id) then e.(selectedConnectionId := None) else e)
  }

  /** `selectConnection`: a non-empty id also clears the selected node. */
  function SelectConnection(st: Store, id: Option<string>): (r: Store)
    ensures r.editor.selectedConnectionId == id
    ensures r.editor.selectedNodeId == if Truthy(id) then None else st.editor.selectedNodeId
    ensures r.editor.isEditorPanelOpen == st.editor.isEditorPanelOpen
    ensures r.current == st.current && r.past == st.past && r.future == st.future
  {
    var e := st.editor.(selectedConnectionId := id);
    st.(editor := if Truthy(id) then e.(selectedNodeId := None) else e)
  }

  /** Whatever was selected before, selecting a node or a connection leaves at most one selected. */
  lemma SelectingIsExclusive(st: Store, id: Option<string>)
    ensures Exclusive(SelectNode(st, id))
    ensures Exclusive(SelectConnection(st, id))
  {
  }

  /** `setSelectedNode`: sets the node and opens the panel for a non-empty id; the connection stays. */
  function SetSelectedNode(st: Store, id: Option<string>): (r: Store)
    ensures r.editor == EditorSelection(id, st.editor.selectedConnectionId, Truthy(id))
    ensures r.current == st.current && r.past == st.past && r.future == st.future
  {
    st.(editor := st.editor.(selectedNodeId := id, isEditorPanelOpen := Truthy(id)))
  }

  /** `setSelectedNode` does not clear the connection, so it can leave both selected. */
  lemma SetSelectedNodeOverlaps()
    ensures var st := SelectConnection(InitialStore, Some("c"));
            Exclusive(st) && !Exclusive(SetSelectedNode(st, Some("n")))
  {
  }

  // ---------------------------------------------------------------------
  // Nodes
  // ---------------------------------------------------------------------

  /** `createWorkflow`: an empty workflow under a fresh id, then a snapshot. */
  function CreateWorkflow(st: Store, id: string, name: string, description: string): (r: Store)
    ensures r.current == Some(AppWorkflow(id, name, description, [], []))
    ensures r.past == (if |st.past| + 1 > MaxPast then st.past[1..] else st.past) + [r.current.value]
    ensures r.future == [] && r.editor == st.editor
  {
    var r := SaveToHistory(st.(current := Some(AppWorkflow(id, name, description, [], []))));
    assert r.past == r.past[..|r.past| - 1] + [r.past[|r.past| - 1]];
    r
  }

  /** The name a new node gets: the given one, or "<type> Node" when it is empty. */
  function NewNodeName(ntype: string, name: string): string {
    if name == "" then ntype + " Node" else name
  }

  /**
   * `addNode`: creates a workflow first if none is open, appends a new
   * node with empty parameters, selects it and takes a snapshot.
   * `workflowId` and `nodeId` are the two `uuidv4()` values it may draw.
   */
  function AddNode(st: Store, workflowId: string, nodeId: string, ntype: string, position: Position, name: string)
    : (r: (AppNode, Store))
    requires nodeId != ""
    ensures r.0 == AppNode(nodeId, ntype, NewNodeName(ntype, name), position, map[], None, None)
    ensures r.1.current.Some?
    ensures r.1.current.value.nodes == (if st.current.Some? then st.current.value.nodes else []) + [r.0]
    ensures st.current.Some? ==> r.1.current.value == st.current.value.(nodes := r.1.current.value.nodes)
    ensures r.1.editor.selectedNodeId == Some(nodeId) && r.1.editor.selectedConnectionId.None?
    ensures r.1.future == [] && r.1.past != [] && r.1.past[|r.1.past| - 1] == r.1.current.value
  {
    var st1 := if st.current.None? then CreateWorkflow(st, workflowId, "New Workflow", "Created automatically") else st;
    var node := AppNode(nodeId, ntype, NewNodeName(ntype, name), position, map[], None, None);
    var w := st1.current.value;
    var st2 := st1.(current := Some(w.(nodes := w.nodes + [node])));
    (node, SaveToHistory(SelectNode(st2, Some(nodeId))))
  }

  /** The fields of a `Partial<Node>`: each present one replaces the node's own. */
  datatype NodePatch = NodePatch(
    id: Option<string>,
    ntype: Option<string>,
    name: Option<string>,
    position: Option<Position>,
    parameters: Option<map<string, Json>>,
    nextNodes: Option<Option<seq<(string, string)>>>)

  function AssignNode(n: AppNode, p: NodePatch): AppNode {
    AppNode(p.id.GetOr(n.id), p.ntype.GetOr(n.ntype), p.name.GetOr(n.name), p.position.GetOr(n.position),
            p.parameters.GetOr(n.parameters), p.nextNodes.GetOr(n.nextNodes), n.conditionCount)
  }

  /** `updateNode`: the first node with that id takes the updates, then a snapshot; otherwise nothing. */
  function UpdateNode(st: Store, nodeId: string, p: NodePatch): (r: Store)
    ensures st.current.None? || NodeIndex(st.current.value.nodes, nodeId).None? ==> r == st
    ensures st.current.Some? && NodeIndex(st.current.value.nodes, nodeId).Some? ==>
              var w := st.current.value;
              var i := NodeIndex(w.nodes, nodeId).value;
              r == SaveToHistory(st.(current := Some(w.(nodes := w.nodes[i := AssignNode(w.nodes[i], p)]))))
  {
    if st.current.None? then st
    else
      var w := st.current.value;
      match NodeIndex(w.nodes, nodeId)
      case None => st
      case Some(i) => SaveToHistory(st.(current := Some(w.(nodes := w.nodes[i := AssignNode(w.nodes[i], p)]))))
  }

  /**
   * `deleteNode`: the node and every connection touching it go; if it was
   * selected, the selection is cleared and the panel closed; then a snapshot.
   */
  function DeleteNode(st: Store, nodeId: string): (r: Store)
    ensures st.current.None? ==> r == st
    ensures st.current.Some? ==>
              var w := st.current.value;
              && r.current.Some?
              && (forall n :: n in r.current.value.nodes <==> n in w.nodes && n.id != nodeId)
              && (forall c :: c in r.current.value.connections <==>
                    c in w.connections && c.sourceNodeId != nodeId && c.targetNodeId != nodeId)
              && r.current.value == w.(nodes := r.current.value.nodes, connections := r.current.value.connections)
              && (st.editor.selectedNodeId == Some(nodeId) ==>
                    r.editor == st.editor.(selectedNodeId := None, isEditorPanelOpen := false))
              && (st.editor.selectedNodeId != Some(nodeId) ==> r.editor == st.editor)
              && r.future == [] && r.past != [] && r.past[|r.past| - 1] == r.current.value
  {
    if st.current.None? then st
    else
      var w := st.current.value;
      var nodes := Filter(w.nodes, (n: AppNode) => n.id != nodeId);
      var conns := Filter(w.connections, (c: Connection) => c.sourceNodeId != nodeId && c.targetNodeId != nodeId);
      var editor := if st.editor.selectedNodeId == Some(nodeId)
                    then st.editor.(selectedNodeId := None, isEditorPanelOpen := false) else st.editor;
      SaveToHistory(st.(current := Some(w.(nodes := nodes, connections := conns)), editor := editor))
  }

  // ---------------------------------------------------------------------
  // Connections
  // ---------------------------------------------------------------------

  /** No connection from a node to itself, and no two connections between the same pair. */
  predicate WellFormedConnections(cs: seq<Connection>) {
    && (forall i :: 0 <= i < |cs| ==> cs[i].sourceNodeId != cs[i].targetNodeId)
    && (forall i, j :: 0 <= i < j < |cs| ==>
          cs[i].sourceNodeId != cs[j].sourceNodeId || cs[i].targetNodeId != cs[j].targetNodeId)
  }

  /**
   * `addConnection`: refused (nothing changes) without a workflow, for a
   * self-loop or for a pair that is already connected; otherwise the new
   * connection "conn_<now>" is appended, selected and snapshotted.
   */
  function AddConnection(st: Store, sourceNodeId: string, targetNodeId: string, condition: Option<string>, now: string)
    : (r: (Option<Connection>, Store))
    ensures r.0.None? <==> st.current.None? || sourceNodeId == targetNodeId
                           || HasPair(st.current.value.connections, sourceNodeId, targetNodeId)
    ensures r.0.None? ==> r.1 == st
    ensures r.0.Some? ==>
              var c := r.0.value;
              && c == Connection("conn_" + now, sourceNodeId, targetNodeId, condition)
              && r.1.current == Some(st.current.value.(connections := st.current.value.connections + [c]))
              && r.1.editor.selectedConnectionId == Some(c.id) && r.1.editor.selectedNodeId.None?
              && r.1.future == [] && r.1.past != [] && r.1.past[|r.1.past| - 1] == r.1.current.value
  {
    if st.current.None? || sourceNodeId == targetNodeId || HasPair(st.current.value.connections, sourceNodeId, targetNodeId)
    then (None, st)
    else
      var c := Connection("conn_" + now, sourceNodeId, targetNodeId, condition);
      var w := st.current.value;
      (Some(c), SaveToHistory(SelectConnection(st.(current := Some(w.(connections := w.connections + [c]))), Some(c.id))))
  }

  /** Adding connections only ever keeps the connection list free of self-loops and repeated pairs. */
  lemma AddConnectionKeepsWellFormed(st: Store, s: string, t: string, condition: Option<string>, now: string)
    requires st.current.Some? && WellFormedConnections(st.current.value.connections)
    ensures WellFormedConnections(AddConnection(st, s, t, condition, now).1.current.value.connections)
  {
  }

  /** Adding the same pair twice adds it once. */
  lemma AddConnectionTwice(st: Store, s: string, t: string, c1: Option<string>, c2: Option<string>, n1: string, n2: string)
    requires AddConnection(st, s, t, c1, n1).0.Some?
    ensures var st1 := AddConnection(st, s, t, c1, n1).1;
            AddConnection(st1, s, t, c2, n2) == (None, st1)
  {
    var st1 := AddConnection(st, s, t, c1, n1).1;
    var cs := st1.current.value.connections;
    assert cs[|cs| - 1].sourceNodeId == s && cs[|cs| - 1].targetNodeId == t;
  }

  /**
   * `deleteConnection`: the first connection with that id goes if there is
   * one, the selection is cleared if it was that id, and a snapshot is
   * taken in either case.
   */
  function DeleteConnection(st: Store, id: string): (r: Store)
    ensures st.current.None? ==> r == st
    ensures st.current.Some? ==>
              var cs := st.current.value.connections;
              && r.current.Some?
              && r.current.value == st.current.value.(connections := r.current.value.connections)
              && (ConnectionIndex(cs, id).None? ==> r.current.value.connections == cs)
              && (ConnectionIndex(cs, id).Some? ==> r.current.value.connections == RemoveAt(cs, ConnectionIndex(cs, id).value))
              && r.editor.selectedConnectionId == (if st.editor.selectedConnectionId == Some(id) then None else st.editor.selectedConnectionId)
              && r.editor.selectedNodeId == st.editor.selectedNodeId
              && r.future == [] && r.past != [] && r.past[|r.past| - 1] == r.current.value
  {
    if st.current.None? then st
    else
      var w := st.current.value;
      var cs := match ConnectionIndex(w.connections, id) case None => w.connections case Some(i) => RemoveAt(w.connections, i);
      var editor := if st.editor.selectedConnectionId == Some(id) then st.editor.(selectedConnectionId := None) else st.editor;
      SaveToHistory(st.(current := Some(w.(connections := cs)), editor := editor))
  }

  /** The fields of a `Partial<Connection>`. */
  datatype ConnectionPatch = ConnectionPatch(
    id: Option<string>,
    sourceNodeId: Option<string>,
    targetNodeId: Option<string>,
    condition: Option<Option<string>>)

  function AssignConnection(c: Connection, p: ConnectionPatch): Connection {
    Connection(p.id.GetOr(c.id), p.sourceNodeId.GetOr(c.sourceNodeId), p.targetNodeId.GetOr(c.targetNodeId),
               p.condition.GetOr(c.condition))
  }

  /** `updateConnection`: the first connection with that id takes the updates; no snapshot is taken. */
  function UpdateConnection(st: Store, id: string, p: ConnectionPatch): (r: Store)
    ensures st.current.None? || ConnectionIndex(st.current.value.connections, id).None? ==> r == st
    ensures st.current.Some? && ConnectionIndex(st.current.value.connections, id).Some? ==>
              var cs := st.current.value.connections;
              var i := ConnectionIndex(cs, id).value;
              r == st.(current := Some(st.current.value.(connections := cs[i := AssignConnection(cs[i], p)])))
  {
    if st.current.None? then st
    else
      var cs := st.current.value.connections;
      match ConnectionIndex(cs, id)
      case None => st
      case Some(i) => st.(current := Some(st.current.value.(connections := cs[i := AssignConnection(cs[i], p)])))
  }

  /** Deleting a node or a connection keeps the connection list well formed. */
  lemma DeletionsKeepWellFormed(st: Store, id: string)
    requires st.current.Some? && WellFormedConnections(st.current.value.connections)
    ensures WellFormedConnections(DeleteConnection(st, id).current.value.connections)
    ensures WellFormedConnections(DeleteNode(st, id).current.value.connections)
  {
    FilterKeepsWellFormed(st.current.value.connections,
                          (c: Connection) => c.sourceNodeId != id && c.targetNodeId != id);
  }

  lemma {:induction false} FilterKeepsWellFormed(cs: seq<Connection>, keep: Connection -> bool)
    requires WellFormedConnections(cs)
    ensures WellFormedConnections(Filter(cs, keep))
    decreases |cs|
  {
    if cs != [] {
      FilterKeepsWellFormed(cs[1..], keep);
      var rest := Filter(cs[1..], keep);
      forall j | 0 <= j < |rest|
        ensures cs[0].sourceNodeId != rest[j].sourceNodeId || cs[0].targetNodeId != rest[j].targetNodeId
      {
        assert rest[j] in cs[1..];
      }
    }
  }

  // ---------------------------------------------------------------------
  // loadWorkflow: nextNodes to connections
  // ---------------------------------------------------------------------

  /** The connection made for the `nextNodes` entry (key, target) of node `source`. */
  function EntryConnection(now: string, source: string, key: string, target: string): (c: Connection)
    ensures c.sourceNodeId == source && c.targetNodeId == target
    ensures c.condition.None? <==> key == "default"
    ensures c.condition.Some? ==> c.condition.value == key
  {
    Connection("conn_" + now + "_" + source + "_" + target, source, target, if key == "default" then None else Some(key))
  }

  /** No connection from index `from` on repeats the pair of one before it. */
  predicate NewPairsFrom(cs: seq<Connection>, from: nat) {
    forall i, j :: from <= i < |cs| && 0 <= j < i ==>
      cs[j].sourceNodeId != cs[i].sourceNodeId || cs[j].targetNodeId != cs[i].targetNodeId
  }

  /** The entries of one node, in order: each one whose pair is new becomes a connection. */
  function ConvertEntries(cs: seq<Connection>, now: string, source: string, entries: seq<(string, string)>)
    : (r: seq<Connection>)
    ensures |cs| <= |r| && r[..|cs|] == cs
    ensures forall e :: e in entries ==> HasPair(r, source, e.1)
    ensures forall i :: |cs| <= i < |r| ==>
              exists e :: e in entries && r[i] == EntryConnection(now, source, e.0, e.1)
    ensures NewPairsFrom(cs, 0) ==> NewPairsFrom(r, 0)
    ensures NewPairsFrom(r, |cs|)
    decreases |entries|
  {
    if entries == [] then cs
    else
      var (key, target) := entries[0];
      var cs1 := if HasPair(cs, source, target) then cs else cs + [EntryConnection(now, source, key, target)];
      var r := ConvertEntries(cs1, now, source, entries[1..]);
      assert r[..|cs|] == cs by {
        assert r[..|cs1|] == cs1;
        assert cs1[..|cs|] == cs;
      }
      assert HasPair(r, source, target) by {
        var k :| 0 <= k < |cs1| && cs1[k].sourceNodeId == source && cs1[k].targetNodeId == target;
        assert r[k] == cs1[k];
      }
      forall i | |cs| <= i < |r| ensures exists e :: e in entries && r[i] == EntryConnection(now, source, e.0, e.1) {
        if i < |cs1| {
          assert r[i] == cs1[i] && i == |cs| && entries[0] in entries;
        } else {
          var e :| e in entries[1..] && r[i] == EntryConnection(now, source, e.0, e.1);
          assert e in entries;
        }
      }
      NewPairsStep(cs, cs1, r, source, target, now, key);
      r
  }

  lemma NewPairsStep(cs: seq<Connection>, cs1: seq<Connection>, r: seq<Connection>, source: string, target: string,
                     now: string, key: string)
    requires cs1 == if HasPair(cs, source, target) then cs else cs + [EntryConnection(now, source, key, target)]
    requires |cs1| <= |r| && r[..|cs1|] == cs1
    requires NewPairsFrom(cs1, 0) ==> NewPairsFrom(r, 0)
    requires NewPairsFrom(r, |cs1|)
    ensures NewPairsFrom(cs, 0) ==> NewPairsFrom(r, 0)
    ensures NewPairsFrom(r, |cs|)
  {
    assert NewPairsFrom(cs1, |cs|);
    forall i, j | |cs| <= i < |r| && 0 <= j < i
      ensures r[j].sourceNodeId != r[i].sourceNodeId || r[j].targetNodeId != r[i].targetNodeId
    {
      if i < |cs1| {
        assert r[i] == cs1[i] && r[j] == cs1[j];
      }
    }
  }

  /** Every `nextNodes` entry of `nodes` has a connection in `r`. */
  predicate EntriesCovered(r: seq<Connection>, nodes: seq<AppNode>) {
    forall k, e :: 0 <= k < |nodes| && nodes[k].nextNodes.Some? && e in nodes[k].nextNodes.value ==>
      HasPair(r, nodes[k].id, e.1)
  }

  /** The connection at index `i` of `r` stands for a `nextNodes` entry of `nodes`. */
  predicate FromEntry(r: seq<Connection>, i: nat, now: string, nodes: seq<AppNode>)
    requires i < |r|
  {
    exists k, e :: 0 <= k < |nodes| && nodes[k].nextNodes.Some? && e in nodes[k].nextNodes.value &&
                   r[i] == EntryConnection(now, nodes[k].id, e.0, e.1)
  }

  /** Every connection of `r` from index `from` on stands for a `nextNodes` entry of `nodes`. */
  predicate AddedFromEntries(r: seq<Connection>, from: nat, now: string, nodes: seq<AppNode>) {
    forall i :: from <= i < |r| ==> FromEntry(r, i, now, nodes)
  }

  /** The nodes in order: every node that has `nextNodes` contributes its entries. */
  function ConvertNodes(cs: seq<Connection>, now: string, nodes: seq<AppNode>): (r: seq<Connection>)
    ensures |cs| <= |r| && r[..|cs|] == cs
    ensures EntriesCovered(r, nodes)
    ensures AddedFromEntries(r, |cs|, now, nodes)
    ensures NewPairsFrom(r, |cs|)
    decreases |nodes|
  {
    if nodes == [] then cs
    else
      var n := nodes[0];
      var cs1 := if n.nextNodes.Some? then ConvertEntries(cs, now, n.id, n.nextNodes.value) else cs;
      var r := ConvertNodes(cs1, now, nodes[1..]);
      PrefixStep(cs, cs1, r);
      CoveredStep(cs1, r, nodes);
      AddedStep(cs, cs1, r, now, nodes);
      PairsStep(cs, cs1, r);
      r
  }

  lemma PrefixStep(cs: seq<Connection>, cs1: seq<Connection>, r: seq<Connection>)
    requires |cs| <= |cs1| && cs1[..|cs|] == cs
    requires |cs1| <= |r| && r[..|cs1|] == cs1
    ensures |cs| <= |r| && r[..|cs|] == cs
  {
    assert r[..|cs|] == r[..|cs1|][..|cs|];
  }

  lemma CoveredStep(cs1: seq<Connection>, r: seq<Connection>, nodes: seq<AppNode>)
    requires nodes != []
    requires nodes[0].nextNodes.Some? ==> forall e :: e in nodes[0].nextNodes.value ==> HasPair(cs1, nodes[0].id, e.1)
    requires |cs1| <= |r| && r[..|cs1|] == cs1
    requires EntriesCovered(r, nodes[1..])
    ensures EntriesCovered(r, nodes)
  {
    forall k, e | 0 <= k < |nodes| && nodes[k].nextNodes.Some? && e in nodes[k].nextNodes.value
      ensures HasPair(r, nodes[k].id, e.1)
    {
      if k == 0 {
        assert HasPair(cs1, nodes[0].id, e.1);
        var m :| 0 <= m < |cs1| && cs1[m].sourceNodeId == nodes[0].id && cs1[m].targetNodeId == e.1;
        assert r[m] == cs1[m];
      } else {
        assert nodes[1..][k - 1] == nodes[k];
      }
    }
  }

  lemma AddedStep(cs: seq<Connection>, cs1: seq<Connection>, r: seq<Connection>, now: string, nodes: seq<AppNode>)
    requires nodes != []
    requires |cs| <= |cs1| <= |r| && r[..|cs1|] == cs1
    requires nodes[0].nextNodes.None? ==> cs1 == cs
    requires nodes[0].nextNodes.Some? ==> forall i :: |cs| <= i < |cs1| ==>
               exists e :: e in nodes[0].nextNodes.value && cs1[i] == EntryConnection(now, nodes[0].id, e.0, e.1)
    requires AddedFromEntries(r, |cs1|, now, nodes[1..])
    ensures AddedFromEntries(r, |cs|, now, nodes)
  {
    forall i | |cs| <= i < |r| ensures FromEntry(r, i, now, nodes) {
      if i < |cs1| {
        assert r[i] == cs1[i];
        var e :| e in nodes[0].nextNodes.value && cs1[i] == EntryConnection(now, nodes[0].id, e.0, e.1);
      } else {
        assert FromEntry(r, i, now, nodes[1..]);
        var k, e :| 0 <= k < |nodes[1..]| && nodes[1..][k].nextNodes.Some? && e in nodes[1..][k].nextNodes.value &&
                    r[i] == EntryConnection(now, nodes[1..][k].id, e.0, e.1);
        assert nodes[k + 1] == nodes[1..][k];
      }
    }
  }

  lemma PairsStep(cs: seq<Connection>, cs1: seq<Connection>, r: seq<Connection>)
    requires |cs| <= |cs1| <= |r| && r[..|cs1|] == cs1
    requires NewPairsFrom(cs1, |cs|)
    requires NewPairsFrom(r, |cs1|)
    ensures NewPairsFrom(r, |cs|)
  {
    forall i, j | |cs| <= i < |r| && 0 <= j < i
      ensures r[j].sourceNodeId != r[i].sourceNodeId || r[j].targetNodeId != r[i].targetNodeId
    {
      if i < |cs1| {
        assert r[i] == cs1[i] && r[j] == cs1[j];
      }
    }
  }

  function DropNextNodes(n: AppNode): AppNode {
    n.(nextNodes := None)
  }

  /**
   * `loadWorkflow`: the workflow's connections (none if absent), then a
   * connection for each `nextNodes` entry whose pair is not connected yet
   * ("default" becomes no condition); `nextNodes` is deleted from every
   * node, and the history restarts from one snapshot. `now` is `Date.now()`.
   */
  function LoadWorkflow(st: Store, w: AppWorkflow, now: string): (r: Store)
    ensures r.current.Some?
    ensures var v := r.current.value;
            && v.id == w.id && v.name == w.name && v.description == w.description
            && |v.nodes| == |w.nodes|
            && (forall k :: 0 <= k < |w.nodes| ==> v.nodes[k] == w.nodes[k].(nextNodes := None))
            && v.connections == ConvertNodes(w.connections, now, w.nodes)
    ensures r.past == [r.current.value] && r.future == [] && r.editor == st.editor
  {
    var conns := ConvertNodes(w.connections, now, w.nodes);
    var nodes := seq(|w.nodes|, k requires 0 <= k < |w.nodes| => DropNextNodes(w.nodes[k]));
    SaveToHistory(st.(current := Some(w.(nodes := nodes, connections := conns)), past := [], future := []))
  }

  /**
   * After loading, every `nextNodes` entry is a connection, every added
   * connection stands for an entry, the given connections come first and
   * no added connection repeats a pair.
   */
  lemma LoadWorkflowConnections(st: Store, w: AppWorkflow, now: string)
    ensures var cs := LoadWorkflow(st, w, now).current.value.connections;
            && cs[..|w.connections|] == w.connections
            && EntriesCovered(cs, w.nodes)
            && AddedFromEntries(cs, |w.connections|, now, w.nodes)
            && NewPairsFrom(cs, |w.connections|)
            && (forall k :: 0 <= k < |w.nodes| ==> LoadWorkflow(st, w, now).current.value.nodes[k].nextNodes.None?)
  {
  }
}

=== FILE: strings.dfy ===
/**
 * The pieces of the Java and JavaScript string libraries that the workflow
 * code relies on, written out over `seq<char>`.
 *
 * Case mapping is ASCII-only. It agrees with `String.toLowerCase`,
 * `toUpperCase` and `equalsIgnoreCase` on ASCII text. Java also maps a few
 * other letters onto ASCII ones (the dotless i, the long s, the Kelvin sign,
 * ligatures), which these functions leave alone.
 */
module Strings {
  import opened Wrappers

  // ---------------------------------------------------------------------
  // Case mapping
  // ---------------------------------------------------------------------

  function LowerChar(c: char): char {
    if 'A' <= c <= 'Z' then (c as int + 32) as char else c
  }

  function UpperChar(c: char): char {
    if 'a' <= c <= 'z' then (c as int - 32) as char else c
  }

  function ToLower(s: string): (r: string)
    ensures |r| == |s|
    ensures forall i :: 0 <= i < |s| ==> r[i] == LowerChar(s[i])
  {
    if s == [] then [] else [LowerChar(s[0])] + ToLower(s[1..])
  }

  function ToUpper(s: string): (r: string)
    ensures |r| == |s|
    ensures forall i :: 0 <= i < |s| ==> r[i] == UpperChar(s[i])
  {
    if s == [] then [] else [UpperChar(s[0])] + ToUpper(s[1..])
  }

  /** `a.equalsIgnoreCase(b)` for a non-null `b`. */
  predicate EqualsIgnoreCase(a: string, b: string) {
    ToLower(a) == ToLower(b)
  }

  lemma EqualsIgnoreCaseRefl(a: string)
    ensures EqualsIgnoreCase(a, a)
  {
  }

  predicate StartsWith(s: string, prefix: string) {
    |prefix| <= |s| && s[..|prefix|] == prefix
  }

  predicate EndsWith(s: string, suffix: string) {
    |suffix| <= |s| && s[|s| - |suffix|..] == suffix
  }

  // ---------------------------------------------------------------------
  // UTF-16
  // ---------------------------------------------------------------------

  predicate IsSurrogate(u: int) {
    0xD800 <= u < 0xE000
  }

  /** The UTF-16 code units of one character: itself below U+10000, else a surrogate pair. */
  function Units(c: char): (r: seq<int>)
    ensures |r| == 1 <==> (c as int) < 0x1_0000
    ensures |r| == 1 || |r| == 2
    ensures |r| == 1 ==> r[0] == c as int && !IsSurrogate(r[0])
    ensures |r| == 2 ==> 0xD800 <= r[0] < 0xDC00 && 0xDC00 <= r[1] < 0xE000
  {
    var v := c as int;
    if v < 0x1_0000 then [v]
    else [0xD800 + (v - 0x1_0000) / 0x400, 0xDC00 + (v - 0x1_0000) % 0x400]
  }

  /** A character's code units determine it. */
  lemma UnitsInjective(c: char, d: char)
    requires Units(c) == Units(d)
    ensures c == d
  {
    if (c as int) >= 0x1_0000 {
      var v, w := c as int - 0x1_0000, d as int - 0x1_0000;
      assert v == (v / 0x400) * 0x400 + v % 0x400;
      assert w == (w / 0x400) * 0x400 + w % 0x400;
    }
  }

  /** A Java string as the UTF-16 code units `charAt` reads. */
  function Utf16(s: string): (r: seq<int>)
    ensures |r| >= |s|
    decreases |s|
  {
    if s == [] then [] else Units(s[0]) + Utf16(s[1..])
  }

  /** Different strings have different code units. */
  lemma {:induction false} Utf16Injective(a: string, b: string)
    requires Utf16(a) == Utf16(b)
    ensures a == b
    decreases |a|
  {
    if a != [] && b != [] {
      var x, y := Units(a[0]), Units(b[0]);
      var u := Utf16(a);
      assert u == x + Utf16(a[1..]) && u == y + Utf16(b[1..]);
      assert u[0] == x[0] && u[0] == y[0];
      assert |x| == |y|;
      assert x == u[..|x|] == y;
      assert Utf16(a[1..]) == u[|x|..] == Utf16(b[1..]);
      UnitsInjective(a[0], b[0]);
      Utf16Injective(a[1..], b[1..]);
      assert a == [a[0]] + a[1..] && b == [b[0]] + b[1..];
    }
  }

  // ---------------------------------------------------------------------
  // Decimal digits
  // ---------------------------------------------------------------------

  predicate IsDigit(c: char) {
    '0' <= c <= '9'
  }

  predicate AllDigits(s: string) {
    forall i :: 0 <= i < |s| ==> IsDigit(s[i])
  }

  function DigitChar(d: nat): (c: char)
    requires d < 10
    ensures IsDigit(c)
  {
    ('0' as int + d) as char
  }

  function DigitValue(c: char): (d: nat)
    requires IsDigit(c)
    ensures d < 10
  {
    c as int - '0' as int
  }

  /** The decimal rendering of `n`, as `String.valueOf` or a JS template literal prints it. */
  function NatToString(n: nat): (s: string)
    ensures |s| >= 1
    ensures AllDigits(s)
    decreases n
  {
    if n < 10 then [DigitChar(n)] else NatToString(n / 10) + [DigitChar(n % 10)]
  }

  function IntToString(i: int): string {
    if i < 0 then "-" + NatToString(-i) else NatToString(i)
  }

  /** The number a string of decimal digits denotes (`parseInt` on digits only). */
  function DigitsValue(s: string): nat
    requires AllDigits(s)
    decreases |s|
  {
    if s == [] then 0 else DigitsValue(s[..|s| - 1]) * 10 + DigitValue(s[|s| - 1])
  }

  lemma {:induction false} DigitsValueOfNatToString(n: nat)
    ensures DigitsValue(NatToString(n)) == n
    decreases n
  {
    if n >= 10 {
      var s := NatToString(n);
      assert s[..|s| - 1] == NatToString(n / 10);
      DigitsValueOfNatToString(n / 10);
    }
  }

  /** The longest prefix of `s` made of decimal digits. */
  function LeadingDigits(s: string): (r: string)
    ensures AllDigits(r)
    ensures |r| <= |s| && r == s[..|r|]
    ensures |r| < |s| ==> !IsDigit(s[|r|])
    decreases |s|
  {
    if s != [] && IsDigit(s[0]) then [s[0]] + LeadingDigits(s[1..]) else []
  }

  lemma {:induction false} LeadingDigitsOfDigits(s: string)
    requires AllDigits(s)
    ensures LeadingDigits(s) == s
    decreases |s|
  {
    if s != [] {
      LeadingDigitsOfDigits(s[1..]);
    }
  }

  // ---------------------------------------------------------------------
  // JavaScript parseInt (radix omitted)
  // ---------------------------------------------------------------------

  /**
   * What `parseInt` skips before the number: the white space and line
   * terminators of section 12.2 and 12.3 of ECMA-262, namely tab, vertical
   * tab, form feed, U+FEFF, the space separators (category Zs) and the four
   * line terminators.
   */
  predicate IsJsSpace(c: char) {
    || c == '\t' || c == '\U{B}' || c == '\U{C}' || c == '\U{FEFF}'
    || c == ' ' || c == '\U{A0}' || c == '\U{1680}' || '\U{2000}' <= c <= '\U{200A}'
    || c == '\U{202F}' || c == '\U{205F}' || c == '\U{3000}'
    || c == '\n' || c == '\r' || c == '\U{2028}' || c == '\U{2029}'
  }

  predicate IsHexDigit(c: char) {
    IsDigit(c) || 'a' <= c <= 'f' || 'A' <= c <= 'F'
  }

  function HexValue(c: char): (d: nat)
    requires IsHexDigit(c)
    ensures d < 16
  {
    if IsDigit(c) then DigitValue(c)
    else if 'a' <= c <= 'f' then c as int - 'a' as int + 10
    else c as int - 'A' as int + 10
  }

  function TrimStartJs(s: string): (r: string)
    ensures |r| <= |s|
    decreases |s|
  {
    if s != [] && IsJsSpace(s[0]) then TrimStartJs(s[1..]) else s
  }

  function LeadingHex(s: string): (r: string)
    ensures |r| <= |s|
    ensures forall i :: 0 <= i < |r| ==> IsHexDigit(r[i])
    decreases |s|
  {
    if s != [] && IsHexDigit(s[0]) then [s[0]] + LeadingHex(s[1..]) else []
  }

  function HexDigitsValue(s: string): nat
    requires forall i :: 0 <= i < |s| ==> IsHexDigit(s[i])
    decreases |s|
  {
    if s == [] then 0 else HexDigitsValue(s[..|s| - 1]) * 16 + HexValue(s[|s| - 1])
  }

  /** The magnitude `parseInt` reads after the sign: a `0x` prefix switches to hexadecimal. */
  function ParseMagnitude(s: string): Option<nat> {
    if |s| >= 2 && s[0] == '0' && (s[1] == 'x' || s[1] == 'X') then
      var h := LeadingHex(s[2..]);
      if h == [] then None else Some(HexDigitsValue(h))
    else
      var d := LeadingDigits(s);
      if d == [] then None else Some(DigitsValue(d))
  }

  /**
   * `parseInt(s)` without a radix: leading white space is skipped, an
   * optional sign is read, then the longest run of digits; `None` is `NaN`.
   */
  function JsParseInt(s: string): Option<int> {
    var t := TrimStartJs(s);
    if t != [] && t[0] == '-' then
      match ParseMagnitude(t[1..])
      case Some(m) => Some(-(m as int))
      case None => None
    else if t != [] && t[0] == '+' then
      match ParseMagnitude(t[1..])
      case Some(m) => Some(m)
      case None => None
    else
      match ParseMagnitude(t)
      case Some(m) => Some(m)
      case None => None
  }

  lemma JsParseIntOfNat(n: nat)
    ensures JsParseInt(NatToString(n)) == Some(n)
  {
    var s := NatToString(n);
    LeadingDigitsOfDigits(s);
    DigitsValueOfNatToString(n);
    assert TrimStartJs(s) == s;
  }

  // ---------------------------------------------------------------------
  // Java String.trim and split("\\s+")
  // ---------------------------------------------------------------------

  /** `String.trim` strips every character at or below U+0020 from both ends. */
  predicate IsTrimmable(c: char) {
    c <= ' '
  }

  function TrimStart(s: string): (r: string)
    ensures |r| <= |s| && r == s[|s| - |r|..]
    ensures r != [] ==> !IsTrimmable(r[0])
    ensures forall k :: 0 <= k < |s| - |r| ==> IsTrimmable(s[k])
    decreases |s|
  {
    if s != [] && IsTrimmable(s[0]) then TrimStart(s[1..]) else s
  }

  function TrimEnd(s: string): (r: string)
    ensures |r| <= |s| && r == s[..|r|]
    ensures r != [] ==> !IsTrimmable(r[|r| - 1])
    ensures forall k :: |r| <= k < |s| ==> IsTrimmable(s[k])
    decreases |s|
  {
    if s != [] && IsTrimmable(s[|s| - 1]) then TrimEnd(s[..|s| - 1]) else s
  }

  /**
   * `String.trim`: the slice of `s` left once the trimmable characters at
   * both ends are gone; it neither starts nor ends with one.
   */
  function JavaTrim(s: string): (r: string)
    ensures |r| <= |s|
    ensures r != [] ==> !IsTrimmable(r[0]) && !IsTrimmable(r[|r| - 1])
    ensures exists i :: TrimmedAt(s, r, i)
  {
    var u := TrimStart(s);
    var r := TrimEnd(u);
    TrimmedAtStart(s, u, r);
    r
  }

  /** Trimming the front to `u` and then the back to `r` leaves `r` trimmed at `|s| - |u|`. */
  lemma TrimmedAtStart(s: string, u: string, r: string)
    requires |u| <= |s| && u == s[|s| - |u|..]
    requires forall k :: 0 <= k < |s| - |u| ==> IsTrimmable(s[k])
    requires |r| <= |u| && r == u[..|r|]
    requires forall k :: |r| <= k < |u| ==> IsTrimmable(u[k])
    ensures TrimmedAt(s, r, |s| - |u|)
  {
    var i := |s| - |u|;
    assert r == s[i..i + |r|];
    forall k | i + |r| <= k < |s|
      ensures IsTrimmable(s[k])
    {
      assert s[k] == u[k - i];
    }
  }

  /** `r` is the slice of `s` at `i`, and only trimmable characters lie around it. */
  predicate TrimmedAt(s: string, r: string, i: int) {
    && 0 <= i <= |s| - |r| && r == s[i..i + |r|]
    && (forall k :: 0 <= k < i ==> IsTrimmable(s[k]))
    && (forall k :: i + |r| <= k < |s| ==> IsTrimmable(s[k]))
  }

  /** The class `\s` of Java regular expressions. */
  predicate IsRegexSpace(c: char) {
    c == ' ' || c == '\t' || c == '\n' || c == '\U{B}' || c == '\U{C}' || c == '\r'
  }

  /** The number of maximal runs of non-space characters in `s`. */
  function TokenCount(s: string): nat
    decreases |s|
  {
    if s == [] then 0
    else if IsRegexSpace(s[0]) then TokenCount(s[1..])
    else if |s| == 1 || IsRegexSpace(s[1]) then 1 + TokenCount(s[1..])
    else TokenCount(s[1..])
  }

  /**
   * `s.split("\\s+").length`: the non-space runs, plus the empty leading piece
   * kept when `s` starts with white space; trailing empty pieces are dropped,
   * so an all-space string splits into nothing, and a string with no
   * separator into itself.
   */
  function SplitWhitespaceLength(s: string): nat {
    if s == [] then 1
    else if TokenCount(s) == 0 then 0
    else if IsRegexSpace(s[0]) then TokenCount(s) + 1
    else TokenCount(s)
  }

  // ---------------------------------------------------------------------
  // Double.parseDouble and Boolean.parseBoolean
  // ---------------------------------------------------------------------

  function Pow10(k: nat): (p: nat)
    ensures p >= 1
  {
    if k == 0 then 1 else 10 * Pow10(k - 1)
  }

  /** Index of the first '.' in `s`, or |s|. */
  function DotIndex(s: string): (k: nat)
    ensures k <= |s|
    ensures forall i :: 0 <= i < k ==> s[i] != '.'
    ensures k < |s| ==> s[k] == '.'
  {
    if s == [] then 0 else if s[0] == '.' then 0 else 1 + DotIndex(s[1..])
  }

  /** An unsigned decimal `digits[.digits]` with at least one digit in all. */
  function ParseUnsignedDecimal(s: string): Option<real> {
    var k := DotIndex(s);
    var whole := s[..k];
    var frac := if k < |s| then s[k + 1..] else [];
    if AllDigits(whole) && AllDigits(frac) && |whole| + |frac| > 0 then
      Some(DigitsValue(whole) as real + DigitsValue(frac) as real / Pow10(|frac|) as real)
    else
      None
  }

  /**
   * `Double.parseDouble(s)` restricted to plain decimal literals
   * `[+-]digits[.digits]`; `None` is the `NumberFormatException`.
   */
  function ParseDouble(s: string): Option<real> {
    if s != [] && s[0] == '-' then
      match ParseUnsignedDecimal(s[1..])
      case Some(x) => Some(-x)
      case None => None
    else if s != [] && s[0] == '+' then ParseUnsignedDecimal(s[1..])
    else ParseUnsignedDecimal(s)
  }

  /** `Boolean.parseBoolean`: true exactly for "true" in any case. */
  predicate ParseBoolean(s: string) {
    EqualsIgnoreCase(s, "true")
  }
}

=== FILE: tools.dfy ===
/**
 * The exceptions the workflow code throws and catches. A Java method that
 * "returns or throws" becomes a function returning `Result`.
 */
module Exceptions {
  import opened Wrappers
  import opened Schema

  /** `ToolException`: a message, an error code and a details map. */
  datatype ToolException = ToolException(message: Option<string>, errorCode: Option<string>, details: map<string, Value>)

  /**
   * A thrown exception. Messages of exceptions the JVM raises itself
   * (`NullPointerException`, `ClassCastException`, index errors) are not
   * modelled.
   */
  datatype Exc =
    | NullPointer
    | ClassCast
    | StringIndexOutOfBounds
    | IllegalArgument(msg: string)
    | IllegalState(msg: string)
    | Runtime(msg: string)
    | IO(msg: string)
    | Tool(te: ToolException)
    | Validation(te: ToolException, validationErrors: seq<string>)

  datatype Result<+T> = Ok(value: T) | Err(error: Exc)

  /** `getClass().getSimpleName()`, the error code the engine reports. */
  function SimpleName(e: Exc): string {
    match e
    case NullPointer => "NullPointerException"
    case ClassCast => "ClassCastException"
    case StringIndexOutOfBounds => "StringIndexOutOfBoundsException"
    case IllegalArgument(_) => "IllegalArgumentException"
    case IllegalState(_) => "IllegalStateException"
    case Runtime(_) => "RuntimeException"
    case IO(_) => "IOException"
    case Tool(_) => "ToolException"
    case Validation(_, _) => "ValidationException"
  }

  /** `getMessage()`. */
  function Message(e: Exc): Option<string> {
    match e
    case IllegalArgument(m) => Some(m)
    case IllegalState(m) => Some(m)
    case Runtime(m) => Some(m)
    case IO(m) => Some(m)
    case Tool(te) => te.message
    case Validation(te, _) => te.message
    case _ => None
  }

  /** A `ValidationException` is caught by every `catch (ToolException …)`. */
  predicate IsToolException(e: Exc) {
    e.Tool? || e.Validation?
  }

  /** `new ToolException(message, errorCode)`. */
  function NewToolException(message: Option<string>, errorCode: Option<string>): (e: ToolException)
    ensures e.message == message && e.errorCode == errorCode && e.details == map[]
  {
    ToolException(message, errorCode, map[])
  }

  /** `new ToolException(message, errorCode, details)`: null details become an empty map. */
  function NewToolExceptionWithDetails(message: Option<string>, errorCode: Option<string>,
                                       details: Option<map<string, Value>>): (e: ToolException)
    ensures e.message == message && e.errorCode == errorCode
    ensures e.details == (if details.Some? then details.value else map[])
  {
    ToolException(message, errorCode, if details.Some? then details.value else map[])
  }

  /** `addDetail(key, value)`. */
  function AddDetail(e: ToolException, key: string, value: Value): (r: ToolException)
    ensures key in r.details && r.details[key] == value
    ensures forall k :: k in e.details && k != key ==> k in r.details && r.details[k] == e.details[k]
    ensures r.details.Keys == e.details.Keys + {key}
    ensures r.message == e.message && r.errorCode == e.errorCode
  {
    e.(details := e.details[key := value])
  }

  const ValidationErrorCode := "VALIDATION_ERROR"

  /** `new ValidationException(message)`. */
  function NewValidationException(message: string): (e: Exc)
    ensures e.Validation? && e.te.errorCode == Some(ValidationErrorCode)
    ensures Message(e) == Some(message) && e.validationErrors == []
  {
    Validation(NewToolException(Some(message), Some(ValidationErrorCode)), [])
  }

  /** `new ValidationException(message, errors)`: null errors become an empty list. */
  function NewValidationExceptionWithErrors(message: string, errors: Option<seq<string>>): (e: Exc)
    ensures e.Validation? && e.te.errorCode == Some(ValidationErrorCode)
    ensures Message(e) == Some(message)
    ensures e.validationErrors == (if errors.Some? then errors.value else [])
  {
    Validation(NewToolException(Some(message), Some(ValidationErrorCode)), if errors.Some? then errors.value else [])
  }

  /** `addValidationError(error)`: appended at the end. */
  function AddValidationError(e: Exc, error: string): (r: Exc)
    requires e.Validation?
    ensures r.Validation? && r.te == e.te
    ensures |r.validationErrors| == |e.validationErrors| + 1
    ensures r.validationErrors[..|e.validationErrors|] == e.validationErrors
    ensures r.validationErrors[|e.validationErrors|] == error
  {
    e.(validationErrors := e.validationErrors + [error])
  }
}

/**
 * Tool plumbing: responses, definitions, the handler registry and the
 * required-parameter check.
 */
module Tools {
  import opened Wrappers
  import opened Schema
  import opened Exceptions

  /** `ToolResponse<T>`; `data` is whatever object the tool returned. */
  datatype ToolResponse = ToolResponse(
    success: bool,
    data: Value,
    message: Option<string>,
    errorCode: Option<string>,
    metadata: map<string, Value>)

  /** The four-argument constructor: empty metadata. */
  function NewResponse(success: bool, data: Value, message: Option<string>, errorCode: Option<string>): (r: ToolResponse)
    ensures r.success == success && r.data == data && r.message == message && r.errorCode == errorCode
    ensures r.metadata == map[]
  {
    ToolResponse(success, data, message, errorCode, map[])
  }

  /** The five-argument constructor: null metadata becomes an empty map. */
  function NewResponseWithMetadata(success: bool, data: Value, message: Option<string>, errorCode: Option<string>,
                                   metadata: Option<map<string, Value>>): (r: ToolResponse)
    ensures r.success == success && r.data == data && r.message == message && r.errorCode == errorCode
    ensures r.metadata == (if metadata.Some? then metadata.value else map[])
  {
    ToolResponse(success, data, message, errorCode, if metadata.Some? then metadata.value else map[])
  }

  const DefaultSuccessMessage := "Operation successful"

  /** `ToolResponse.success(data)`. */
  function Success(data: Value): (r: ToolResponse)
    ensures r.success && r.data == data && r.errorCode.None?
    ensures r.message == Some(DefaultSuccessMessage) && r.metadata == map[]
  {
    NewResponse(true, data, Some(DefaultSuccessMessage), None)
  }

  /** `ToolResponse.success(data, message)`. */
  function SuccessWith(data: Value, message: Option<string>): (r: ToolResponse)
    ensures r.success && r.data == data && r.errorCode.None? && r.message == message
  {
    NewResponse(true, data, message, None)
  }

  /** `ToolResponse.error(message, errorCode)`: no data. */
  function Failure(message: Option<string>, errorCode: Option<string>): (r: ToolResponse)
    ensures !r.success && r.data.Null? && r.message == message && r.errorCode == errorCode
  {
    NewResponse(false, Null, message, errorCode)
  }

  /** `addMetadata(key, value)`. */
  function AddMetadata(r: ToolResponse, key: string, value: Value): (r': ToolResponse)
    ensures key in r'.metadata && r'.metadata[key] == value
    ensures forall k :: k in r.metadata && k != key ==> k in r'.metadata && r'.metadata[k] == r.metadata[k]
    ensures r'.metadata.Keys == r.metadata.Keys + {key}
    ensures r' == r.(metadata := r'.metadata)
  {
    r.(metadata := r.metadata[key := value])
  }

  /**
   * The data shape the `execute` documentation promises: a map passes
   * through, a collection is wrapped under "items", any other object under
   * "value". No code in the repository performs this wrapping.
   */
  function DocumentedShape(data: Value): (m: map<string, Value>)
    ensures data.MapV? ==> m == data.entries
    ensures data.ListV? ==> m == map["items" := data]
    ensures !data.MapV? && !data.ListV? ==> m == map["value" := data]
  {
    match data
    case MapV(entries) => entries
    case ListV(_) => map["items" := data]
    case _ => map["value" := data]
  }

  /** `ToolDefinition`: inputs and outputs may be null. */
  datatype ToolDefinition = ToolDefinition(
    name: Option<string>,
    description: Option<string>,
    inputs: Option<map<string, FieldDef>>,
    outputs: Option<map<string, FieldDef>>)

  /**
   * A registered `ToolHandler`: its annotation name, its definition, and an
   * identifier for its `execute` code, which the engine receives as a function.
   */
  datatype Handler = Handler(name: string, definition: ToolDefinition, code: nat)

  /** What a call to `execute` did. */
  datatype Invocation = Responded(response: ToolResponse) | Threw(exc: Exc)

  /** The static `ToolRegistry`, name to handler. */
  type Registry = map<string, Handler>

  /** `register(handler)`: a second handler under the same name is refused. */
  function Register(reg: Registry, h: Handler): (r: Result<Registry>)
    ensures r.Err? <==> h.name in reg
    ensures r.Err? ==> r.error.IllegalArgument?
    ensures r.Ok? ==> r.value.Keys == reg.Keys + {h.name} && r.value[h.name] == h
    ensures r.Ok? ==> forall n :: n in reg ==> r.value[n] == reg[n]
  {
    if h.name in reg then Err(IllegalArgument("Tool handler already registered: " + h.name))
    else Ok(reg[h.name := h])
  }

  /** `getHandler(name)`. */
  function GetHandler(reg: Registry, name: string): (r: Option<Handler>)
    ensures r.Some? <==> name in reg
    ensures r.Some? ==> r.value == reg[name]
  {
    Get(reg, name)
  }

  /** `unregister(name)`: the removed handler, if any. */
  function Unregister(reg: Registry, name: string): (r: (Option<Handler>, Registry))
    ensures r.0 == GetHandler(reg, name)
    ensures r.1.Keys == reg.Keys - {name}
    ensures forall n :: n in r.1 ==> r.1[n] == reg[n]
  {
    (Get(reg, name), reg - {name})
  }

  /** `isRegistered(name)`. */
  function IsRegistered(reg: Registry, name: string): (b: bool)
    ensures b <==> GetHandler(reg, name).Some?
  {
    name in reg
  }

  /** `getAllHandlers()`: the registered handlers, as a set. */
  function AllHandlers(reg: Registry): (r: set<Handler>)
    ensures forall h :: h in r <==> exists n :: n in reg && reg[n] == h
  {
    reg.Values
  }

  /** Registering a fresh name and then unregistering it restores the registry. */
  lemma RegisterUnregisterRoundTrip(reg: Registry, h: Handler)
    requires !IsRegistered(reg, h.name)
    ensures Register(reg, h).Ok?
    ensures GetHandler(Register(reg, h).value, h.name) == Some(h)
    ensures Unregister(Register(reg, h).value, h.name) == (Some(h), reg)
  {
    var reg' := Register(reg, h).value;
    assert reg' - {h.name} == reg;
  }

  /**
   * `validateParams(params)`: every required input must be a key of
   * `params` (a key with a null value counts as present). The first missing
   * field met in the map's iteration order, which Java leaves unspecified,
   * is named in the message. A definition with null inputs throws a
   * `NullPointerException`.
   */
  method ValidateParams(def: ToolDefinition, params: map<string, Value>) returns (r: Option<Exc>)
    ensures r.None? <==> def.inputs.Some? && forall k :: k in def.inputs.value && def.inputs.value[k].required ==> k in params
    ensures def.inputs.None? ==> r == Some(NullPointer)
    ensures r.Some? && def.inputs.Some? ==>
              exists k :: k in def.inputs.value && def.inputs.value[k].required && k !in params
                       && r.value == NewValidationException("缺少必填参数: " + k)
  {
    if def.inputs.None? {
      return Some(NullPointer);
    }
    var inputs := def.inputs.value;
    var todo := inputs.Keys;
    while todo != {}
      invariant todo <= inputs.Keys
      invariant forall k :: k in inputs && k !in todo && inputs[k].required ==> k in params
      decreases |todo|
    {
      var k :| k in todo;
      if inputs[k].required && k !in params {
        return Some(NewValidationException("缺少必填参数: " + k));
      }
      todo := todo - {k};
    }
    return None;
  }

}

/**
 * The `text_process` tool: length, word count, case and trim of a
 * (truncated) text. `String.toUpperCase` and `toLowerCase` apply the full
 * Unicode case mapping of the default locale, which can change a string's
 * length ("straße" becomes "STRASSE"); they are parameters here.
 */
module TextProcess {
  import opened Wrappers
  import opened Strings
  import opened Schema
  import opened Exceptions
  import opened Tools

  datatype CaseMaps = CaseMaps(upper: string -> string, lower: string -> string)

  /** A `(String)` cast of a map value: null stays null, anything else but a string fails. */
  function CastString(v: Option<Value>): Result<Option<string>> {
    if v.None? || v.value.Null? then Ok(None)
    else if v.value.Str? then Ok(Some(v.value.s))
    else Err(ClassCast)
  }

  /** An `(Integer)` cast of a map value. */
  function CastInteger(v: Option<Value>): Result<Option<int>> {
    if v.None? || v.value.Null? then Ok(None)
    else if v.value.Int? then Ok(Some(v.value.i))
    else Err(ClassCast)
  }

  /** The five results computed from the (possibly truncated) text. */
  function TextResult(t: string, cases: CaseMaps): map<string, Value> {
    map[
      "length" := Int(|t|),
      "words" := Int(SplitWhitespaceLength(t)),
      "uppercase" := Str(cases.upper(t)),
      "lowercase" := Str(cases.lower(t)),
      "trimmed" := Str(JavaTrim(t))]
  }

  /** `TextProcessTool.execute(params)`. */
  function Execute(params: map<string, Value>, cases: CaseMaps): (r: Invocation)
    ensures r.Responded? && !r.response.success ==>
              r.response == Failure(Some("Input text cannot be empty"), Some("INVALID_INPUT"))
    ensures r.Responded? && r.response.success ==> r.response.data.MapV?
  {
    match CastString(Get(params, "text"))
    case Err(e) => Threw(e)
    case Ok(text) =>
      match CastInteger(Get(params, "truncate"))
      case Err(e) => Threw(e)
      case Ok(truncate) =>
        if text.None? || text.value == [] then
          Responded(Failure(Some("Input text cannot be empty"), Some("INVALID_INPUT")))
        else if truncate.Some? && !(0 <= truncate.value <= |text.value|) then
          Threw(StringIndexOutOfBounds)
        else
          var t := if truncate.Some? then text.value[..truncate.value] else text.value;
          Responded(Success(MapV(TextResult(t, cases))))
  }

  const OutputNames: set<string> := {"length", "words", "uppercase", "lowercase", "trimmed"}

  /**
   * The values `@ReturnVal` gives the members the outputs leave unset. The
   * annotation type is not part of this model, so they are a parameter.
   */
  datatype ReturnValDefaults = ReturnValDefaults(required: bool, defaultValue: string)

  /**
   * Definition of the tool as its annotations declare it, one field per
   * annotation: a required string "text" with `@InputVar`'s default value
   * "", an optional number "truncate" declared with default "100", and the
   * five outputs, of which "length" and "words" are numbers. This is what
   * `getDefinition` would build if it read the inputs as it reads the
   * outputs; see `GetDefinition` for what it builds.
   */
  function Definition(rv: ReturnValDefaults): (d: ToolDefinition)
    ensures d.name == Some("text_process")
    ensures d.inputs.Some? && d.inputs.value.Keys == {"text", "truncate"}
    ensures d.inputs.value["text"].required && d.inputs.value["text"].ftype == Some(STRING)
    ensures d.inputs.value["text"].defaultValue == Some("")
    ensures !d.inputs.value["truncate"].required && d.inputs.value["truncate"].ftype == Some(NUMBER)
    ensures d.inputs.value["truncate"].defaultValue == Some("100")
    ensures d.outputs.Some? && d.outputs.value.Keys == OutputNames
    ensures forall k :: k in d.outputs.value ==>
              && d.outputs.value[k].required == rv.required && d.outputs.value[k].name == Some(k)
              && d.outputs.value[k].defaultValue == Some(rv.defaultValue)
              && d.outputs.value[k].ftype == Some(if k in {"length", "words"} then NUMBER else STRING)
  {
    ToolDefinition(
      Some("text_process"), Some("处理文本的基本操作"),
      Some(map[
        "text" := FieldDefOf(Some("text"), Some("输入的文本"), Some(STRING), true, Some(""), Some("")),
        "truncate" := FieldDefOf(Some("truncate"), Some("截断长度"), Some(NUMBER), false, Some("100"), Some(""))]),
      Some(map k | k in OutputNames :: Output(k, rv)))
  }

  /** The `@ReturnVal` annotation of one output. */
  function Output(k: string, rv: ReturnValDefaults): FieldDef {
    var description :=
      if k == "length" then "输入文本的长度"
      else if k == "words" then "文本中的单词数量"
      else if k == "uppercase" then "转换为大写"
      else if k == "lowercase" then "转换为小写"
      else "去除前后空白";
    FieldDefOf(Some(k), Some(description), Some(if k in {"length", "words"} then NUMBER else STRING),
               rv.required, Some(rv.defaultValue), None)
  }

  /**
   * `getDefinition()` of the tool as written. `InputVar` is repeatable, so
   * the two `@InputVar` on the one parameter of `execute` are stored inside
   * an `@InputVars` container, and `getAnnotation(InputVar.class)` finds no
   * `@InputVar` there: the inputs come out empty. The outputs are read with
   * `getAnnotationsByType`, which looks inside the container.
   */
  function GetDefinition(rv: ReturnValDefaults): (d: ToolDefinition)
    ensures d.inputs == Some(map[])
    ensures d.name == Some("text_process") && d.outputs.Some? && d.outputs.value.Keys == OutputNames
  {
    ToolDefinition(Some("text_process"), Some("处理文本的基本操作"), Some(map[]), Definition(rv).outputs)
  }

  /** The definition as built differs from the declared one exactly in losing both inputs. */
  lemma GetDefinitionLosesInputs(rv: ReturnValDefaults)
    ensures GetDefinition(rv) == Definition(rv).(inputs := Some(map[]))
    ensures Definition(rv).inputs.value.Keys == {"text", "truncate"}
  {
  }

  /**
   * Validating a call without "text": against the definition as built
   * nothing is missing, against the declared one "text" is reported.
   */
  method MissingTextValidation(rv: ReturnValDefaults) returns (asWritten: Option<Exc>, intended: Option<Exc>)
    ensures asWritten.None?
    ensures intended == Some(NewValidationException("缺少必填参数: text"))
  {
    asWritten := ValidateParams(GetDefinition(rv), map[]);
    intended := ValidateParams(Definition(rv), map[]);
    var d := Definition(rv).inputs.value;
    assert "text" in d && d["text"].required;
    var k :| k in d && d[k].required && intended.value == NewValidationException("缺少必填参数: " + k);
    assert k == "text";
    assert "缺少必填参数: " + k == "缺少必填参数: text";
  }

  /** When the tool succeeds: a non-empty string text, and a truncate that is absent or within the text. */
  lemma ExecuteSucceedsIff(params: map<string, Value>, cases: CaseMaps)
    ensures (Execute(params, cases).Responded? && Execute(params, cases).response.success)
        <==> (&& "text" in params && params["text"].Str? && params["text"].s != []
              && ("truncate" !in params || params["truncate"].Null?
                  || (params["truncate"].Int? && 0 <= params["truncate"].i <= |params["text"].s|)))
  {
  }

  /** Every successful call was given each input the definition declares required. */
  lemma SuccessSuppliesRequired(params: map<string, Value>, cases: CaseMaps, rv: ReturnValDefaults)
    requires Execute(params, cases).Responded? && Execute(params, cases).response.success
    ensures forall k :: k in Definition(rv).inputs.value && Definition(rv).inputs.value[k].required ==> k in params
  {
    ExecuteSucceedsIff(params, cases);
    var d := Definition(rv);
    forall k | k in d.inputs.value && d.inputs.value[k].required
      ensures k in params
    {
      assert k == "text";
    }
  }

  /** The text the results are computed from: the first `truncate` characters, or all of it. */
  function ProcessedText(params: map<string, Value>): (t: string)
    requires "text" in params && params["text"].Str?
    requires "truncate" in params && params["truncate"].Int? ==> 0 <= params["truncate"].i <= |params["text"].s|
    ensures |t| <= |params["text"].s| && t == params["text"].s[..|t|]
    ensures "truncate" in params && params["truncate"].Int? ==> |t| == params["truncate"].i
    ensures !("truncate" in params && params["truncate"].Int?) ==> t == params["text"].s
  {
    if "truncate" in params && params["truncate"].Int? then params["text"].s[..params["truncate"].i]
    else params["text"].s
  }

  /**
   * On success the result holds exactly the declared outputs, computed from
   * the truncated text: its length, its `split("\\s+")` count, its two case
   * mappings and its trim. The text is otherwise used whole: the
   * annotation's default of 100 is never applied.
   */
  lemma ExecuteResultMatchesDefinition(params: map<string, Value>, cases: CaseMaps)
    requires Execute(params, cases).Responded? && Execute(params, cases).response.success
    ensures "text" in params && params["text"].Str?
    ensures "truncate" in params && params["truncate"].Int? ==> 0 <= params["truncate"].i <= |params["text"].s|
    ensures var e := Execute(params, cases).response.data.entries;
            var t := ProcessedText(params);
            && e.Keys == OutputNames
            && e["length"] == Int(|t|)
            && e["words"] == Int(SplitWhitespaceLength(t))
            && e["uppercase"] == Str(cases.upper(t))
            && e["lowercase"] == Str(cases.lower(t))
            && e["trimmed"] == Str(JavaTrim(t))
  {
    SuccessfulCall(params, cases);
    var e := TextResult(ProcessedText(params), cases);
    assert Execute(params, cases).response.data.entries == e;
    assert e.Keys == OutputNames;
  }

  /** A successful call is the results of the processed text. */
  lemma SuccessfulCall(params: map<string, Value>, cases: CaseMaps)
    requires Execute(params, cases).Responded? && Execute(params, cases).response.success
    ensures "text" in params && params["text"].Str?
    ensures "truncate" in params && params["truncate"].Int? ==> 0 <= params["truncate"].i <= |params["text"].s|
    ensures Execute(params, cases) == Responded(Success(MapV(TextResult(ProcessedText(params), cases))))
  {
    ExecuteSucceedsIff(params, cases);
  }

  /**
   * How `split("\\s+")` counts words: a leading space adds an empty first
   * piece, trailing spaces add nothing, and a text of spaces only has none.
   */
  lemma WordCountExamples()
    ensures SplitWhitespaceLength("a  b") == 2
    ensures SplitWhitespaceLength(" a b ") == 3
    ensures SplitWhitespaceLength("  ") == 0
    ensures SplitWhitespaceLength("ab") == 1
  {
    assert "a  b"[1..] == "  b" && "  b"[1..] == " b" && " b"[1..] == "b";
    assert " a b "[1..] == "a b " && "a b "[1..] == " b " && " b "[1..] == "b " && "b "[1..] == " ";
    assert " "[1..] == [] && "  "[1..] == " " && "ab"[1..] == "b" && "b"[1..] == [];
  }

  /** A cast failure comes before the empty-text check: a number as text throws. */
  lemma NonStringTextThrows(params: map<string, Value>, cases: CaseMaps)
    requires "text" in params && params["text"].Int?
    ensures Execute(params, cases) == Threw(ClassCast)
  {
  }
}

=== FILE: wrappers.dfy ===
/** Java's nullable references, written out. */
module Wrappers {

  /** `None` stands for a Java `null` (or an absent map entry). */
  datatype Option<+T> = None | Some(value: T) {

    /** Returns the wrapped value, or `default` for `None`. */
    function GetOr(default: T): T {
      match this
      case Some(v) => v
      case None => default
    }
  }

  /** A map lookup that answers `None` for a missing key, as `Map.get` answers `null`. */
  function Get<K, V>(m: map<K, V>, k: K): (r: Option<V>)
    ensures r.Some? <==> k in m
    ensures r.Some? ==> r.value == m[k]
  {
    if k in m then Some(m[k]) else None
  }

  /**
   * The first index whose element satisfies `p`, or `None`: the search of
   * `Array.prototype.findIndex`, and of `find` or a Java loop that returns
   * the first match.
   */
  function IndexWhere<T>(xs: seq<T>, p: T -> bool): (r: Option<nat>)
    ensures r.Some? ==> r.value < |xs| && p(xs[r.value])
    ensures r.Some? ==> forall j :: 0 <= j < r.value ==> !p(xs[j])
    ensures r.None? ==> forall j :: 0 <= j < |xs| ==> !p(xs[j])
    decreases |xs|
  {
    if xs == [] then None
    else if p(xs[0]) then Some(0)
    else match IndexWhere(xs[1..], p)
      case None => None
      case Some(j) => Some(j + 1)
  }
}
